=== FILE: README.md ===
# tvguidefetch in Dafny

This project models the core of tvguidefetch, an XMLTV grabber for Australian
television guide data, and proves properties of the model. It covers:

- the calendar value `EasyDate`: UTC fields plus a display offset, its
  renormalisation and its four text forms. Three of those forms are the
  HTTP-date forms of section 3.3.1 of RFC 2616; the fourth is the XMLTV form;
- the per-channel logic of `Channel`: the programme merge `addProgram`,
  time retargeting, the cache clean-up choice, the day window and the
  skip-fetch decision of `fetchGuideData`, and the `Source` bookkeeping;
- the caching HTTP decisions of `HttpFetch`: the mirror choice, the
  one-hour freshness shortcut, the conditional-request headers of sections
  14.25 and 14.26 of RFC 2616, the status classification, the header-file
  parsing and the cache-file filter;
- the small tree library `XmlDom`: the node operations, the navigator, path
  walking, the tree-building callbacks and XML escaping with the predefined
  entities of section 4.6 of XML 1.0;
- the driver `TvGuideFetch`: the strict integer parsers, the option
  conversion, the dates of the grab window, and the channel set-up from the
  catalogue and the configuration;
- the option registry `CmdOptions`: the option tables given to
  `getopt_long`, the help-text placeholder and word wrap, and short-option
  processing.

Every operation is a pure function over explicit inputs. The current time,
the random draw, file contents, directory listings, transfer outcomes and
XML documents are parameters.

Modules, one per file:

| file | module | models |
|---|---|---|
| wrappers.dfy | Wrappers | `Option` |
| arith.dfy | CArith | C++ `/` and `%`, which truncate toward zero |
| ctext.dfy | CText | string search, `std::string` ordering, `setw` padding and decimal digits |
| calendar.dfy | Calendar | the Gregorian rules of `daysInYear`, `daysInMonth` and the day counting of `validateDate` |
| easydate.dfy | EasyDates | `EasyDate`: `validateDate`, the setters, `getLocalTime` and the comparison operators |
| datecodec.dfy | DateCodecs | name and number readers, the XMLTV form |
| httpdates.dfy | HttpDates | the RFC 822, asctime and RFC 850 forms |
| merge.dfy | ProgramMerge | `Channel::addProgram` |
| mergeaswritten.dfy | MergeAsWritten | `addProgram` as written, except the index it resumes at after a split |
| channel.dfy | Channels | `Source`, `Program`, `Channel` and `fetchGuideData` |
| httpfetch.dfy | HttpCache | `HttpFetch` |
| xmldom.dfy | XmlDom | `XmlNode`, `XmlAttr`, `XmlNavigator`, `XmlDoc` callbacks, `quoteString` |
| tvguidefetch.dfy | TvGuide | `TvGuideFetch` |
| cmdoptions.dfy | CmdOptions | `CmdOptions` |

Where the source's behaviour is surprising, the model follows the code. The
help text of `--days` says the default is 7 days, but the code uses 14
(TvGuideFetch.cpp:35); the model uses 14.

## Model

| member | source | states |
|---|---|---|
| CArith.Rem | EasyDate.cpp:245-246 | C++ `%` by a positive divisor takes the sign of the dividend: it lies in 0..b-1 for a non-negative dividend and in -(b-1)..0 for a negative one |
| CArith.QuotRem | EasyDate.cpp:245-251 | the truncating quotient and remainder rebuild the dividend, so a carry step of `validateDate` loses no seconds |
| CArith.Quot | EasyDate.cpp:245-246 | C++ `/` by a positive divisor rounds toward zero: the quotient is never negative for a non-negative dividend and never positive for a negative one |
| CArith.QuotRemNonNegative | EasyDate.cpp:245-246 | on non-negative operands C++ `/` and `%` agree with floor division |
| CArith.RemFixupSeven | EasyDate.cpp:323-327 | `r = a % 7`, plus 7 when negative, is the weekday residue of `a` for every sign of `a` |
| CText.FindChar | CmdOptions.cpp:112-116 | `strchr` and `find(c)` return the first index at or after the start that holds the character, or nothing when no such index exists |
| CText.FindCharAfter | HttpFetch.cpp:468 | in `a + c + b`, where `a` has no `c`, the first `c` is at index `|a|` |
| CText.CutAt | HttpFetch.cpp:468-472 | cutting at the first `'\r'` keeps a prefix that holds no `'\r'`, and stops only at one |
| CText.CutAtFirst | HttpFetch.cpp:468-472 | cutting `a + c + b` at its first `c` gives back `a` when `a` holds no `c` |
| CText.StrLessIrreflexive | Channel.cpp:92 | `std::string` `<` never holds between a string and itself |
| CText.StrLessTransitive | Channel.cpp:92 | `std::string` `<` is transitive |
| CText.StrLessTotal | Channel.cpp:92 | any two distinct strings are ordered one way or the other |
| CText.StrLessAsymmetric | Channel.cpp:92 | `std::string` `<` never holds both ways |
| CText.StrLessCommonPrefix | Channel.cpp:86-92 | a common prefix such as `"<id>_"` does not change the order: `p + a < p + b` exactly when `a < b` |
| CText.StrLessEqPrefix | Channel.cpp:92 | a string never sorts after a string it starts |
| CText.StrLessExtend | Channel.cpp:92 | when `a < b` and the two have the same length, anything may follow each of them and the order stays |
| CText.ConcatSlice | EasyDate.cpp:624-647 | each piece a stream writes can be cut back out of the output at the offset where it was written |
| CText.SetW | EasyDate.cpp:627-633 | `setw(w)` pads a short number to exactly `w` characters and leaves a longer one as it is |
| CText.DigitsRoundTrip | EasyDate.cpp:405-409 | the digits `<<` prints for `n` are all digits, and the accumulation loop reads them back as `n` |
| CText.DigitsLength | EasyDate.cpp:627-633 | a number below `10^k` prints at most `k` digits |
| CText.SetWZeroRoundTrip | EasyDate.cpp:627-633 | a number that fits prints under `setw(w)` and a `'0'` fill as exactly `w` digits, which read back as the number |
| CText.DigitsValueLeadingZeros | EasyDate.cpp:405-409 | leading zeros do not change the value the accumulation loop reads |
| CText.DigitRun | TvGuideFetch.cpp:731-738 | a digit scan stops at the first character that is not a digit, or at the end |
| CText.SpaceRun | EasyDate.cpp:400-403 | a space scan stops at the first character that is not a space, or at the end |
| Calendar.DaysInMonth | EasyDate.cpp:344-355 | the month table, indexed from month 0 (0 days): 28 to 31 days for a real month, and February has 29 days exactly in a Gregorian leap year |
| Calendar.YearStartStep | EasyDate.cpp:313-322 | counting days from 2000 one year forward adds that year's length |
| Calendar.YearStartClosedForm | EasyDate.cpp:313-322 | the year loops of `validateDate` count 365 days a year plus one day per leap year between the year and 2000 |
| Calendar.YearStartMonotone | EasyDate.cpp:313-322 | a later year starts after the whole of an earlier one |
| Calendar.DaysBeforeMonthTable | EasyDate.cpp:306-310 | the `yday` loop over the months before `mon` gives the cumulative table 0, 31, 59 (60 in a leap year), ... |
| Calendar.MonthsFillYear | EasyDate.cpp:335-355 | the twelve months of `daysInMonth` add up to `daysInYear` |
| Calendar.DaysBeforeMonthMonotone | EasyDate.cpp:306-310 | a later month starts after the whole of an earlier one |
| Calendar.DayNumberInYear | EasyDate.cpp:306-310 | a real day falls inside its own year: `0 <= yday < daysInYear` |
| Calendar.DayNumberMonotone | EasyDate.cpp:66-96 | a date before another in (year, month, day) order has a smaller day number |
| Calendar.DayNumberInjective | EasyDate.cpp:54-64 | distinct real days have distinct day numbers |
| Calendar.Weekday | EasyDate.cpp:311-330 | the weekday lies in 0..6 |
| Calendar.WeekdayNextDay | EasyDate.cpp:311-330 | the next day has the next weekday, modulo 7 |
| Calendar.WeekdayExamples | EasyDate.cpp:311-330 | 1 January 2000 is a Saturday (6); 6 November 1994 is a Sunday and 1 June 2009 a Monday |
| EasyDates.Carry | EasyDate.cpp:245-269 | one clock step leaves the lower field in `0..base-1` and keeps `hi·base + lo`, for negative values too |
| EasyDates.CarryDays | EasyDate.cpp:272-280 | the `mday > daysInMonth` loop leaves a day that fits its month and keeps the day number; from month 0 it moves into a real month |
| EasyDates.BorrowDays | EasyDate.cpp:281-289 | the `mday < 1` loop leaves a real calendar day and keeps the day number |
| EasyDates.NormaliseClock | EasyDate.cpp:244-269 | the three clock steps put hour, minute and second in range, keep the total of days·86400 + clock seconds, and touch nothing else |
| EasyDates.NormaliseDay | EasyDate.cpp:271-298 | the day loops, then the month step, give a real calendar day with the same day number |
| EasyDates.ValidateDate | EasyDate.cpp:242-333 | `validateDate` leaves every field in range and the offset as it was; it succeeds exactly when the normalised year is in 1000..3000, and then `yday` and `wday` are consistent; on failure they are untouched; for months 1..12 the instant in seconds is preserved |
| EasyDates.CarryInRange | EasyDate.cpp:245-269 | a carry step leaves a field already in range alone |
| EasyDates.ClockInRange | EasyDate.cpp:244-269 | the clock steps leave in-range clock fields alone |
| EasyDates.ValidateNormalised | EasyDate.cpp:242-304 | a date whose fields are in range keeps them, and is accepted exactly when its year is in 1000..3000 |
| EasyDates.ValidateIdempotent | EasyDate.cpp:242-333 | validating a well-formed date changes nothing and succeeds |
| EasyDates.MonthZeroIsJanuary | EasyDate.cpp:344-355 | month 0 is a real table entry of 0 days, so a date in month 0 normalises exactly as the same date in January |
| EasyDates.YdayInYear | EasyDate.cpp:306-310 | a well-formed date has `0 <= yday < daysInYear` |
| EasyDates.LeapDayKept | EasyDate.cpp:271-298 | in a leap year 29 February stays 29 February |
| EasyDates.RollOverDay | EasyDate.cpp:272-280 | in a common year the day loops move 29 February to 1 March of the same year |
| EasyDates.LeapDayRolledOver | EasyDate.cpp:271-298 | in a common year 29 February becomes 1 March |
| EasyDates.BorrowClock | EasyDate.cpp:245-269 | in any year, a second count of -1 on 1 January borrows through the minutes and hours into day 0 at 23:59:59 |
| EasyDates.BorrowDay | EasyDate.cpp:281-289 | day 0 of January of any year borrows back to 31 December of the year before |
| EasyDates.BorrowExample | EasyDate.cpp:242-333 | one second before 1 January 00:00:00 of a year is 31 December 23:59:59 of the year before, the last day of that year, and passes the year check |
| EasyDates.SetYear | EasyDate.cpp:154-162 | `setYear` refuses a year outside 1000..3000 and leaves the date alone; otherwise it moves the date to that year and renormalises |
| EasyDates.SetMon | EasyDate.cpp:164-168 | `setMon` renormalises to the instant with the month replaced, keeping the offset |
| EasyDates.SetMDay | EasyDate.cpp:170-174 | `setMDay` moves the instant by whole days, (new − old day)·86400 seconds |
| EasyDates.SetHour | EasyDate.cpp:176-180 | `setHour` moves the instant by (new − old hour)·3600 seconds |
| EasyDates.SetMin | EasyDate.cpp:182-186 | `setMin` moves the instant by (new − old minute)·60 seconds |
| EasyDates.SetSec | EasyDate.cpp:188-192 | `setSec` moves the instant by (new − old second) seconds |
| EasyDates.SetOffUtc | EasyDate.cpp:194-202 | `setOffUtc` succeeds exactly for offsets in −43200..43200 and changes nothing but the offset; otherwise nothing changes |
| EasyDates.SetTime | EasyDate.cpp:231-240 | `setTime` lands on the instant of the six given fields read as UTC, keeping the offset |
| EasyDates.GetLocalTime | EasyDate.cpp:205-210 | `getLocalTime` is the same date moved forward by its own offset, still carrying that offset |
| EasyDates.Eq | EasyDate.cpp:54-64 | `==` compares the six UTC fields and not the offset: on normalised dates it holds exactly when the two denote the same instant |
| EasyDates.Less | EasyDate.cpp:66-96 | `<` compares year, month, day, hour, minute, second in turn: on normalised dates it holds exactly when the first instant is earlier |
| EasyDates.Greater | EasyDate.cpp:98-128 | `>` holds exactly when `<` holds the other way round, so on normalised dates exactly when the first instant is later |
| EasyDates.NotEq | EasyDate.hpp:26 | `!=` ("not ==") holds exactly when one date is before the other, so on normalised dates exactly for different instants |
| EasyDates.LessEq | EasyDate.hpp:27 | `<=` ("not >") holds exactly when `<` or `==` does, so on normalised dates exactly when the first instant is not later |
| EasyDates.GreaterEq | EasyDate.hpp:28 | `>=` ("not <") holds exactly when the second is before the first or the two are `==`, so on normalised dates exactly when the first instant is not earlier |
| EasyDates.Trichotomy | EasyDate.cpp:54-129 | exactly one of `<`, `==`, `>` holds for any two dates, and `a > b` exactly when `b < a` |
| EasyDates.CompareBySeconds | EasyDate.cpp:54-129 | on normalised dates `<`, `==` and `>` agree with the order of the instants in seconds |
| EasyDates.DerivedOperators | EasyDate.hpp:26-28 | `<=` ("not >") is `<` or `==`; `>=` ("not <") is `>` or `==`; `!=` is `<` or `>` |
| EasyDates.WellFormedUnique | EasyDate.hpp:82-91 | a well-formed date is fixed by its UTC instant and its offset |
| EasyDates.ValidateLandsOn | EasyDate.cpp:242-333 | validation lands on the unique well-formed date with the same instant and offset, whenever that date exists |
| DateCodecs.ValidDayName | EasyDate.cpp:357-377 | a weekday is found exactly when the text is one of the seven short or long names, and the index found names it |
| DateCodecs.ValidMonthName | EasyDate.cpp:379-393 | a month 1..12 is found exactly when the text is one of the twelve short names, and the month found is that name's |
| DateCodecs.NamesReadBack | EasyDate.cpp:357-377 | each weekday's short and long names are read back as that weekday |
| DateCodecs.MonthNamesReadBack | EasyDate.cpp:379-393 | each month's name is read back as that month |
| DateCodecs.ValidNum | EasyDate.cpp:395-418 | a field is accepted only when it is spaces, then digits up to its end; a field of that shape is accepted exactly when the number its digits write is in range, and is read as that number |
| DateCodecs.ValidNumAllSpaces | EasyDate.cpp:395-418 | a field of nothing but spaces reads as 0, and is accepted exactly when 0 is in range |
| DateCodecs.ValidNumReadsPadded | EasyDate.cpp:395-418 | a number printed under `setw(w)` with a `'0'` or `' '` fill is read back as the number |
| DateCodecs.ReadsBack | EasyDate.cpp:624-678 | a field `toXmltv` prints with a `'0'` fill has its width and is read back by `validNum` |
| DateCodecs.Store | EasyDate.cpp:663-675 | storing parsed fields keeps the instant "wall clock minus offset", records the offset, and is well formed when accepted |
| DateCodecs.StoreLandsOn | EasyDate.cpp:663-675 | storing lands on the one well-formed date with that instant and offset, whatever the object held before |
| DateCodecs.ParseOffset | EasyDate.cpp:658-673 | an accepted `±HHMM` is a whole number of minutes of at most 12:59, with the sign of the text |
| DateCodecs.Zone | EasyDate.cpp:456-491 | the RFC zone is a numeric offset when one parses, and otherwise the literal `GMT`, meaning offset 0 |
| DateCodecs.MagnitudeSplit | EasyDate.cpp:634-643 | an offset magnitude of whole minutes up to 12:59 (46740 seconds) splits into hours of at most 12 and minutes that rebuild it |
| DateCodecs.OffsetPiecesRead | EasyDate.cpp:634-643 | for an offset of whole minutes up to 12:59 either way, the hours and minutes `toXmltv` prints are two characters each, read back within 0..12 and 0..59, and rebuild the magnitude |
| DateCodecs.XmltvFields | EasyDate.cpp:653-658 | the accepted fixed-width fields have a month in 1..12 and a year in 1000..3000 |
| DateCodecs.FromXmltv | EasyDate.cpp:650-678 | a text shorter than 20 characters is refused and leaves the date alone; an accepted one gives a well-formed date with an offset that is a whole number of minutes of at most 12:59 |
| DateCodecs.XmltvIgnoresSeparator | EasyDate.cpp:650-662 | the character at index 14 is never checked: replacing it changes nothing |
| DateCodecs.XmltvFieldsRead | EasyDate.cpp:624-662 | for any offset of whole minutes up to 12:59 either way, the wall-clock fields `toXmltv` prints are read back as those fields |
| DateCodecs.XmltvOffsetRead | EasyDate.cpp:634-673 | the offset `toXmltv` prints, whole minutes up to 12:59 either way, is read back as that offset |
| DateCodecs.XmltvRoundTrip | EasyDate.cpp:624-678 | `fromXmltv(toXmltv(d))` gives back `d` with its offset, for a well-formed `d` whose offset is whole minutes of at most 12:59 either way (every offset `fromXmltv` itself produces) and whose local year stays in 1000..3000 |
| HttpDates.WellFormedNameable | EasyDate.cpp:131-152 | a well-formed date can index the name tables, and its short names have three letters |
| HttpDates.ReadsBackSpaced | EasyDate.cpp:575-590 | a day printed under `setw(2)` over a `' '` fill is read back by `validNum` |
| HttpDates.Rfc822Fields | EasyDate.cpp:439-458 | the fields of an accepted RFC 822 text have a weekday in 0..6, a month in 1..12 and a year in 1000..3000 |
| HttpDates.FromRfc822 | EasyDate.cpp:437-493 | a text shorter than 26 characters is refused and leaves the date alone; an accepted one gives a well-formed date with an offset that is a whole number of minutes |
| HttpDates.Rfc822Read | EasyDate.cpp:421-458 | the text `toRfc822` writes is 29 characters long, its fields read back, and its zone reads as `GMT`, offset 0 |
| HttpDates.Rfc822RoundTrip | EasyDate.cpp:421-493 | `fromRfc822(toRfc822(d))` gives back the same instant with offset 0, whether or not `tzName` was asked for |
| HttpDates.Rfc822IgnoresDayName | EasyDate.cpp:439-441 | the weekday name must be one of the seven but is never checked against the date: any other name gives the same result |
| HttpDates.AsctimeFields | EasyDate.cpp:592-610 | the fields of an accepted asctime text have a weekday in 0..6, a month in 1..12 and a year in 1000..3000 |
| HttpDates.FromAsctime | EasyDate.cpp:592-621 | a text shorter than 24 characters is refused and leaves the date alone; an accepted one gives a well-formed date at offset 0 |
| HttpDates.AsctimeRead | EasyDate.cpp:575-610 | the text `toAsctime` writes is 24 characters long and its fields read back |
| HttpDates.AsctimeRoundTrip | EasyDate.cpp:575-621 | `fromAsctime(toAsctime(d))` gives back the same instant with offset 0 |
| HttpDates.Rfc850Fields | EasyDate.cpp:520-535 | accepted RFC 850 fields have a month in 1..12 and a year of the 1900s |
| HttpDates.FromRfc850 | EasyDate.cpp:512-572 | `fromRfc850` as written: whatever it accepts is well formed |
| HttpDates.FromRfc850NeverSucceeds | EasyDate.cpp:515-523 | as written, `fromRfc850` never succeeds and never changes the date: the weekday name must be everything before the first `,`, yet index 0 must be that `,` |
| HttpDates.FromRfc850Fixed | EasyDate.cpp:512-572 | the reader with positions counted from the comma: whatever it accepts is well formed, with an offset that is a whole number of minutes |
| HttpDates.FirstCommaAfterName | EasyDate.cpp:514 | no long weekday name holds a comma, so the first comma of the text follows the name |
| HttpDates.Rfc850AfterRead | EasyDate.cpp:496-535 | what follows the weekday name in a written RFC 850 date starts at its comma, its fields read back, and its zone reads as `GMT` |
| HttpDates.Rfc850Reads | EasyDate.cpp:496-572 | the intended reader reads a written RFC 850 date as the same clock in the year 1900 + the two digits printed |
| HttpDates.Rfc850FixedRoundTrip | EasyDate.cpp:496-572 | with the intended writer and reader, a date of the 1900s comes back as the same instant at offset 0 |
| HttpDates.Rfc850LosesDecade | EasyDate.cpp:504 | as written, the year is printed as `year % 10`, so every date from 1910 to 1999 is read back as an earlier date |
| HttpDates.Sample1994LosesDecade | EasyDate.cpp:504 | the RFC 2616 example date 1994-11-06 08:49:37 does not survive the written form |
| ProgramMerge.ClashCases | Channel.cpp:294-364 | for non-empty programmes the four tested cases are exactly the ways of overlapping: inside, straddling, start taken and stop taken, and "apart" means no overlap |
| ProgramMerge.InsertPos | Channel.cpp:376-383 | the insertion point is the first programme that starts strictly later than the candidate, or the end |
| ProgramMerge.Insert | Channel.cpp:375-388 | the final insertion adds the candidate exactly once and keeps every programme that starts later, one place further on |
| ProgramMerge.InsertSorted | Channel.cpp:375-388 | inserting keeps the list sorted by start time |
| ProgramMerge.AddProgram | Channel.cpp:283-389 | `addProgram` leaves no programme running backwards, loses nothing, and puts nothing after the programmes that start at or after the candidate's stop |
| ProgramMerge.Scan | Channel.cpp:288-365 | the clash loop, from the k-th programme on, keeps the same shape |
| ProgramMerge.Split | Channel.cpp:310-327 | case 2: the front part is added by the recursive call, and the scan goes on with the back part just after the straddled programme; the front part is strictly shorter, which bounds the recursion |
| ProgramMerge.AddProgramGrows | Channel.cpp:283-389 | every old programme is still there, and everything added is a piece of the candidate: inside its period and under its name |
| ProgramMerge.AddProgramValid | Channel.cpp:283-389 | a sorted list of non-empty, non-overlapping programmes stays so after adding a non-empty candidate |
| ProgramMerge.ScanValid | Channel.cpp:288-365 | the scan invariant: the candidate overlaps none of the programmes already passed |
| ProgramMerge.InsertValid | Channel.cpp:375-388 | a candidate that overlaps nothing is inserted in its place and keeps the list valid |
| ProgramMerge.AddProgramCovers | Channel.cpp:283-389 | every second of the candidate's period is on the air afterwards |
| ProgramMerge.AddProgramUnion | Channel.cpp:283-389 | afterwards exactly the old schedule plus the candidate's period is on the air |
| ProgramMerge.AddProgramTaken | Channel.cpp:294-305 | a candidate whose whole period is already on the air leaves the list unchanged |
| ProgramMerge.InsideSkipped | Channel.cpp:294-305 | case 1: a candidate inside one existing programme leaves the list unchanged |
| ProgramMerge.AddProgramIdempotent | Channel.cpp:283-389 | adding the same programme twice gives the same list as adding it once |
| ProgramMerge.StraddleSplits | Channel.cpp:310-327 | with "A" stored at 10:00-11:00, adding "B" at 09:30-11:30 gives B 09:30-10:00, A, B 11:00-11:30 |
| ProgramMerge.StartTrimmed | Channel.cpp:332-345 | with "A" stored at 10:00-11:00, adding "C" at 10:30-12:00 adds only 11:00-12:00 |
| ProgramMerge.StopTrimmed | Channel.cpp:350-363 | with "A" stored at 10:00-11:00, adding "D" at 09:00-10:30 adds only 09:00-10:00 |
| MergeAsWritten.AddProgramFuel | Channel.cpp:283-389 | `addProgram` as written on any list, except the index it resumes at after a split, with a step budget: when it finishes, the list has not shrunk |
| MergeAsWritten.AddProgramFuelKeeps | Channel.cpp:283-389 | when the as-written merge finishes, every programme of the list is still there, as often as before |
| MergeAsWritten.AddProgramFuelAgrees | Channel.cpp:283-389 | when no programme runs backwards, a budget longer than the candidate makes the as-written merge finish, with the same result as `ProgramMerge.AddProgram` |
| MergeAsWritten.FrontNeverEnds | Channel.cpp:310-327 | against a lone stored programme that runs backwards, a candidate from before its stop up to its start straddles it and splits into itself again, so no budget is enough |
| MergeAsWritten.AddProgramDiverges | Channel.cpp:310-327 | with a programme stored as running from 12 back to 10, adding one from 9 to 11 never finishes, whatever the budget |
| Channels.Apply | Channel.hpp:106-109 | each setter of `Source` changes only its own field: `setId` replaces the id, `addBaseUrl` and `addDataFor` append one entry, `addDataForLastModified` leaves id, URLs and days alone |
| Channels.LastModifiedOverwrites | Channel.hpp:109 | a later token for a day replaces the earlier one as seen by `getLastModified` (Channel.cpp:485-493), and every other day keeps its token |
| Channels.DaysInOrder | Channel.hpp:101-108 | after any run of setters the days of a source are the earlier days followed by the added ones in the order added, which is the order `getNumDays`/`getDay` walk |
| Channels.GetId | Channel.hpp:27 | the id is empty exactly when both the channel's own id and the primary source's id are empty, and a channel id of its own always wins |
| Channels.EditOztivo | Channel.hpp:38-46 | the primary-source setters change the primary source as `Source`'s setter does and nothing else of the channel |
| Channels.EditFillin | Channel.hpp:48-56 | the fill-in setters change the fill-in source as `Source`'s setter does and nothing else of the channel |
| Channels.IdFollowsPrimary | Channel.hpp:27-50 | setting the primary id renames a channel without its own id; setting the fill-in id never changes the channel id |
| Channels.Lookup | Channel.cpp:62-77 | an attribute id has a value exactly when some attribute carries that id |
| Channels.AddDisplaynameAttr | Channel.cpp:62-77 | the list grows by one exactly when the id was absent, no existing attribute changes its id, and afterwards the id reads back the new value |
| Channels.OtherAttrsKept | Channel.cpp:62-77 | attributes with a different id keep the value they had |
| Channels.StaleFiles | Channel.cpp:79-117 | a cached file is listed exactly when its name starts with "<id>_" and sorts before "<id>_<today>" |
| Channels.ClearCache | Channel.cpp:79-117 | a file is removed exactly when it is stale for the primary id, or stale for the fill-in id when that id is set |
| Channels.MarkerAtStart | Channel.cpp:88-92 | a guide file name of the channel always passes the "starts with <id>_" test |
| Channels.DayFileStale | Channel.cpp:79-117 | for days written as wide as today, a day's guide file is removed exactly when the day sorts before today, so today's and later files are kept |
| Channels.LoadTimes | Channel.cpp:533-555 | a programme is loaded exactly when start, stop and title are all present, its name is the title, and its dates are well formed whenever the current time is, whatever the attribute text |
| Channels.UnreadableStartIsNow | Channel.cpp:533-540 | a start attribute that is too short, or whose fields or offset do not read, leaves the start at the current time, and loading still succeeds |
| Channels.LoadTimesCanReverse | Channel.cpp:533-555 | an unreadable start together with a readable earlier stop gives a programme that runs backwards |
| Channels.Retarget | Channel.cpp:558-572 | for a zone within twelve hours the date is printed in that zone with its wall-clock time unchanged (the instant shifts by the difference of the offsets); for a zone out of range nothing changes |
| Channels.RetargetKeepsWallClock | Channel.cpp:558-572 | the local time before and after the change compares equal with `EasyDate`'s `==` |
| Channels.SetTimeZone | Channel.cpp:558-572 | the programme keeps its title and well-formed dates |
| Channels.SetTimeZoneKeepsLength | Channel.cpp:558-572 | when both ends share an offset, the programme keeps its length in seconds |
| Channels.OffsetTime | Channel.cpp:575-579 | both ends move by exactly the offset in seconds, keep their zones and stay well formed |
| Channels.ToProg | Channel.cpp:283-389 | the period used for merging keeps the programme's title |
| Channels.ClashInSeconds | Channel.cpp:294-350 | the date comparisons `addProgram` makes classify two programmes exactly as the comparisons of their instants in seconds do |
| Channels.MergeElement | Channel.cpp:186-195 | merging one `<programme>` element keeps the schedule free of backward programmes and loses nothing |
| Channels.MergeElementValid | Channel.cpp:186-195 | a sorted, non-overlapping schedule stays so when an element that takes time is merged |
| Channels.MergeAll | Channel.cpp:182-196 | merging every element of a guide file keeps the schedule free of backward programmes and loses nothing |
| Channels.MergeAllValid | Channel.cpp:180-196 | a sorted, non-overlapping schedule stays so when every element of a guide file takes time |
| Channels.Jobs | Channel.cpp:126-133 | every day of the source inside the window has its job and every job belongs to such a day, with no more jobs than days |
| Channels.JobsAppend | Channel.cpp:126-133 | the jobs of two runs of catalogue days are the first run's jobs followed by the second's, so the jobs keep the catalogue order |
| Channels.JobsOne | Channel.cpp:126-133 | a single catalogue day gives exactly one job, with its URI and fetch decision, when it is inside the window, and none otherwise |
| Channels.CacheValidMeans | Channel.cpp:136-153 | the cached copy is used exactly when its header file opens and the catalogue token and the cached Last-Modified both parse and denote the same instant |
| Channels.RunJob | Channel.cpp:160-197 | a day fails exactly when a needed fetch fails or the file cannot be read; otherwise its programmes are merged, with no backward programme and nothing lost |
| Channels.RunJobs | Channel.cpp:126-200 | the days are merged in order, and the schedule stays free of backward programmes and loses nothing |
| Channels.RunJobsValid | Channel.cpp:126-200 | a sorted, non-overlapping schedule stays so through a run of days whose guide files hold only programmes that take time |
| Channels.RunJobsAppend | Channel.cpp:121-280 | running two lists of days one after the other is running them as one list, and a failure in the first ends the run |
| Channels.FetchGuideData | Channel.cpp:121-280 | the primary days are merged, then the fill-in days, and the schedule stays free of backward programmes and loses nothing |
| Channels.FetchGuideDataValid | Channel.cpp:121-280 | a sorted, non-overlapping schedule stays so through the whole fetch, when every guide file holds only programmes that take time |
| Channels.PrimaryBeforeFillin | Channel.cpp:121-280 | the whole fetch is one pass over the primary days of the window followed by the fill-in days, stopping at the first failure |
| HttpCache.SelectNextBase | HttpFetch.cpp:130-176 | no mirror exactly when the list is empty (the process ends); otherwise the choice is one of the listed mirrors, with a pause of 1000 ms for a single mirror and 500 ms for several |
| HttpCache.FirstChoiceIsDraw | HttpFetch.cpp:141-145 | the first choice is the mirror the random draw names, so any mirror can be asked first |
| HttpCache.NextChoiceDiffers | HttpFetch.cpp:146-154 | among several distinct mirrors a later choice never repeats the previous one |
| HttpCache.Lines | HttpFetch.cpp:462-465 | the header file is cut into lines that hold no newline, at least one line |
| HttpCache.LinesRoundTrip | HttpFetch.cpp:462-465 | joining the lines with newlines gives back the file text |
| HttpCache.LineEntryMeans | HttpFetch.cpp:467-489 | a line, cut at its first carriage return, is read as the text before and after its first ": ", or as a status line under "HTTP" with the text after "HTTP/"; it is skipped exactly when it is neither |
| HttpCache.EntryRoundTrip | HttpFetch.cpp:467-480 | a header line "Key: value" followed by a carriage return reads back as that key and value |
| HttpCache.EntryFound | HttpFetch.cpp:473-480 | a header line without a carriage return reads back as its key and value |
| HttpCache.Entries | HttpFetch.cpp:462-490 | every line gives exactly one entry, in order |
| HttpCache.FirstWith | HttpFetch.cpp:462-490 | the position found holds the key and no earlier position does; none found means no position holds it |
| HttpCache.GetHeader | HttpFetch.cpp:453-498 | the call succeeds exactly when the header file opens; the value is that of the first line with the key, or the caller's value untouched when no line has it |
| HttpCache.LastWith | HttpFetch.cpp:510-532 | the position found holds the key and no later position does; none found means no position holds it |
| HttpCache.HeaderMapLast | HttpFetch.cpp:510-532 | the map built line by line holds exactly the keys some line carries, each with the value of its last line |
| HttpCache.GetHeaders | HttpFetch.cpp:500-538 | the call succeeds exactly when the header file opens; then the map is rebuilt and holds exactly the keys of the file, otherwise it is left as it was |
| HttpCache.FirstIsLast | HttpFetch.cpp:453-538 | when at most one line carries a key, the first line with it is also the last |
| HttpCache.HeaderLookupsAgree | HttpFetch.cpp:453-538 | `getHeader` and `getHeaders` agree on a key that appears on one line only |
| HttpCache.TwoLines | HttpFetch.cpp:462-465 | two newline-free lines joined by a newline are read back as those two lines |
| HttpCache.FirstAndLastDiffer | HttpFetch.cpp:453-538 | with a key on two lines `getHeader` returns the first value and `getHeaders` keeps the second |
| HttpCache.HourLaterMeans | HttpFetch.cpp:203-206 | moving the cached Date on by one hour and comparing it with the current time asks whether the copy is less than 3600 seconds old |
| HttpCache.RecentlyCached | HttpFetch.cpp:195-212 | the transfer is skipped exactly when the cached headers have a `Date` that reads as an RFC 822 date and the current time is less than an hour after it |
| HttpCache.Conditionals | HttpFetch.cpp:216-228 | at most two conditional headers are sent |
| HttpCache.RequestHeaders | HttpFetch.cpp:191-230 | the request starts with the Accept-Encoding header and ends with Cache-Control and Pragma, with three to five headers in all |
| HttpCache.RequestCarriesValidators | HttpFetch.cpp:216-228 | If-Modified-Since carries the cached Last-Modified and comes first, If-None-Match carries the cached ETag, and each is sent exactly when its header was cached (section 14.25 and 14.26 of RFC 2616) |
| HttpCache.FetchFile | HttpFetch.cpp:179-307 | setup failure and an empty mirror list are told apart; the mirror is chosen as `selectNextBase` does; a recently cached copy skips the transfer exactly when its header file opens and its Date is less than an hour old; the files are saved exactly when the status is below 300 and saving works; a 304 succeeds without saving; every other outcome fails; a transfer sends the request headers built from the cached header file |
| HttpCache.UncachedAlwaysSent | HttpFetch.cpp:179-230 | a file with no cached header file is always transferred, with no conditional header |
| HttpCache.KeepNameMeans | HttpFetch.cpp:551-557 | a directory entry is left out exactly when it ends with ".header" and has no earlier ".header" in it |
| HttpCache.DoubleHeaderListed | HttpFetch.cpp:551-557 | the header file of a cached file is left out, but a name with ".header" twice is listed |
| HttpCache.HeaderFoundAfter | HttpFetch.cpp:552 | the first ".header" of such a name is right after the dot-free stem |
| HttpCache.KeptNames | HttpFetch.cpp:548-559 | an entry is kept exactly when it passes the ".header" test, and nothing is added |
| HttpCache.SortedPairs | HttpFetch.cpp:563 | in a list sorted by neighbours, any earlier name sorts no later than any later one |
| HttpCache.InsertName | HttpFetch.cpp:563 | inserting into a sorted list keeps it sorted and adds exactly the one name |
| HttpCache.SortNames | HttpFetch.cpp:563 | the result is sorted and is a permutation of the input |
| HttpCache.ListCacheFiles | HttpFetch.cpp:541-564 | the result is sorted and holds the names already in the vector plus the kept entries, each as often as given; with no directory, just the old names sorted |
| HttpCache.SortedHeads | HttpFetch.cpp:563 | two sorted permutations of the same names start with the same name |
| HttpCache.TailMultiset | HttpFetch.cpp:563 | dropping the head removes one copy of it |
| HttpCache.SortedUnique | HttpFetch.cpp:563 | a sorted list is the only sorted permutation of its names, so sorting is determined by its input |
| XmlDom.AddAttribute | XmlDom.cpp:133-145 | the attribute is appended at the tail, the earlier attributes keep their places, and nothing else of the element changes |
| XmlDom.AddChild | XmlDom.cpp:147-159 | the child is appended at the tail, the earlier children keep their places, and nothing else of the element changes |
| XmlDom.FindAttribute | XmlDom.cpp:161-174 | the position found is the first attribute with the name; none found means no attribute has it |
| XmlDom.FindChildNode | XmlDom.cpp:176-193 | the position found is the first child element with the name, passing over text and comments; none found means no child element has it |
| XmlDom.AttributeLookupAfterAdd | XmlDom.cpp:133-174 | appending an attribute keeps an earlier match, and otherwise finds the new attribute exactly when it has the name |
| XmlDom.ChildLookupAfterAdd | XmlDom.cpp:147-193 | appending a child keeps an earlier match, and otherwise finds the new child exactly when it is an element with the name |
| XmlDom.FirstElement | XmlDom.cpp:309-343 | the position found is the first element child at or after the start; none found means only text and comments follow |
| XmlDom.OpenNav | XmlDom.cpp:195-202 | a new navigator stands on the document's root element, or on nothing when no document is loaded |
| XmlDom.GotoRootNode | XmlDom.cpp:277-281 | the navigator moves to the root element and succeeds exactly when the document is loaded |
| XmlDom.GotoChildNode | XmlDom.cpp:294-307 | the move succeeds exactly when there is a current element with a child element of the name; it then stands on the first such child, one level down, and otherwise does not move |
| XmlDom.GotoParentNode | XmlDom.cpp:283-292 | the move succeeds exactly when the current element has a parent, and then goes one level up; otherwise it does not move |
| XmlDom.GotoFirstChildNode | XmlDom.cpp:309-325 | the move succeeds exactly when the current element has an element child, and then stands on the first one; otherwise it does not move |
| XmlDom.FirstIsFirstElement | XmlDom.cpp:309-325 | the first element child found by the scan is the head of the element children |
| XmlDom.GotoNextSiblingNode | XmlDom.cpp:327-343 | the move succeeds exactly when an element follows the current one among its parent's children, and then lands on the first such element; the root has no sibling; a failed move does not move |
| XmlDom.GetNodeLevel | XmlDom.cpp:345-357 | the level fits in an `unsigned short` |
| XmlDom.LevelsFollowTree | XmlDom.cpp:277-357 | the root is at level 1, a child one level below its parent, and `gotoParentNode` undoes `gotoChildNode` |
| XmlDom.GotoAttr | XmlDom.cpp:370-383 | the move succeeds exactly when the current element has an attribute of the name, and the value read is that of the first such attribute; otherwise the navigator does not move |
| XmlDom.SetAttrAt | XmlDom.cpp:431-440 | exactly the one attribute takes the new value; every other attribute of the element and the element itself stay |
| XmlDom.SetAttrValue | XmlDom.cpp:431-440 | the current attribute reads back the new value, the call always reports `false`, and without a current attribute nothing changes |
| XmlDom.GetPathElement | XmlDom.cpp:255-275 | a path yields something exactly when it starts with '/'; it is then the name (free of '/') and a shorter rest that is empty or starts with '/', and the two rebuild the path |
| XmlDom.PathElementOf | XmlDom.cpp:255-275 | a path written as "/" + name + rest splits back into that name and rest |
| XmlDom.WalkPath | XmlDom.cpp:238-245 | the walk below the root keeps the navigator on the same document and on elements of it |
| XmlDom.GotoNode | XmlDom.cpp:230-253 | a path not starting with '/' succeeds without moving; every walk stays on the same document and on elements of it |
| XmlDom.Resolve | XmlDom.cpp:176-193 | a successful descent names one child position per name and reaches an element of the tree |
| XmlDom.WalkPathResolves | XmlDom.cpp:238-245 | the walk below the current element succeeds exactly when the first-match descent through the names succeeds, and it ends on the element that descent reaches |
| XmlDom.GotoNodeResolves | XmlDom.cpp:230-253 | an absolute path succeeds exactly when the document is loaded, the root has the first name and the descent through the other names finds each; it then stands on the element reached |
| XmlDom.GotoCons | XmlDom.cpp:230-253 | an absolute path first checks the root's name, then walks the rest |
| XmlDom.HandleStart | XmlDom.cpp:730-745 | a start tag opens a new element with its attributes in order, below the current one, and leaves everything else alone |
| XmlDom.HandleEnd | XmlDom.cpp:747-762 | an end tag appends the current element to its parent, or makes it the root when it has none, and does nothing outside any element |
| XmlDom.HandleChars | XmlDom.cpp:764-781 | character data is appended to the current element's value and also kept as a child; outside any element it is dropped |
| XmlDom.HandleComment | XmlDom.cpp:783-796 | a comment becomes a child of the current element; outside any element it is dropped |
| XmlDom.RunAppend | XmlDom.cpp:730-796 | handling two runs of events one after the other is handling them as one run |
| XmlDom.Rebuilds | XmlDom.cpp:730-796 | replaying the events of a tree whose values are the text of its own children rebuilds exactly that tree, wherever the builder stands |
| XmlDom.RebuildsChildren | XmlDom.cpp:730-796 | the events of the remaining children complete the current element |
| XmlDom.ParsesDocument | XmlDom.cpp:730-796 | the events of a document, from the start, leave its root element as the document root |
| XmlDom.Quote | XmlDom.cpp:650-683 | the escaped text is no shorter and holds none of the characters '<', '>', '"' and apostrophe |
| XmlDom.QuoteClean | XmlDom.cpp:650-683 | text without any of the five special characters is written unchanged |
| XmlDom.QuoteNotIdempotent | XmlDom.cpp:650-683 | quoting twice escapes the ampersands of the first pass again |
| XmlDom.UnquoteStep | XmlDom.cpp:650-683 | reading the text written for one character gives that character back, whatever follows |
| XmlDom.UnquoteQuote | XmlDom.cpp:650-683 | reading escaped text as section 4.6 of XML 1.0 says gives back the original |
| TvGuide.ValidPositiveInt | TvGuideFetch.cpp:723-744 | a string is accepted exactly when it is one or more decimal digits and nothing else, and the value is the number the digits write |
| TvGuide.PositiveIntRoundTrip | TvGuideFetch.cpp:723-744 | every printed natural number reads back, with or without leading zeros |
| TvGuide.ValidInt | TvGuideFetch.cpp:747-779 | a string is accepted exactly when it is an optional single sign followed by one or more digits whose magnitude is within the bounds; the value is the magnitude with the sign |
| TvGuide.IntRoundTrip | TvGuideFetch.cpp:747-779 | every integer whose magnitude is in range reads back from its printed form, and from its form with an explicit '+' |
| TvGuide.RangeIsOnMagnitude | TvGuideFetch.cpp:767 | the bounds are tested before the sign is applied, so a minus sign in front of a numeral in range is accepted whatever the bounds |
| TvGuide.SymmetricBounds | TvGuideFetch.cpp:747-779 | with bounds `-hi..hi`, as every caller passes, the accepted values are exactly the integers from `-hi` to `hi` |
| TvGuide.ConvertArguments | TvGuideFetch.cpp:96-117 | the run goes on exactly when every given `--days`, `--offset` and `--timezone` argument converts; the days are the value given or 14 and the offset the value given or 0, never negative; the forced zone is 99999 without `--timezone` and otherwise the signed value of its digits |
| TvGuide.ForcedZoneInRange | TvGuideFetch.cpp:32-44 | the zone handed to the output, in seconds, is one `setOffUtc` accepts exactly when `--timezone` was given; the default 99999 minutes is not |
| TvGuide.DefaultZoneKeepsTimes | Channel.cpp:558-572 | without `--timezone` the retargeting leaves every programme as it was |
| TvGuide.OutputTimes | Channel.cpp:414-421 | each printed programme keeps its local time moved by the channel's time offset, and shows the forced zone exactly when that zone is within twelve hours |
| TvGuide.SecondsSplit | EasyDate.cpp:242-333 | seconds since 2000 of a normalised date split into whole days and a time of day below 86400 |
| TvGuide.DayShift | TvGuideFetch.cpp:782-811 | two normalised dates a whole number of days apart lie that many calendar days apart |
| TvGuide.DateAt | TvGuideFetch.cpp:782-797 | the day `getDate` prints for an offset is that many calendar days after today's local date |
| TvGuide.ParseDay | TvGuideFetch.cpp:806-810 | a day string that reads back is ten characters with dashes at positions 4 and 7 |
| TvGuide.DayRoundTrip | TvGuideFetch.cpp:806-810 | a real day of a four-digit year prints as ten characters that read back as that day |
| TvGuide.LexSplit | Channel.cpp:129 | comparing texts whose first parts have the same length: the first parts decide unless they are equal |
| TvGuide.DigitOrder | Channel.cpp:129 | on digit strings of one length, text order is numeric order and equal text is equal value |
| TvGuide.PadOrder | TvGuideFetch.cpp:806-810 | zero-padded numbers of one width compare as the numbers do |
| TvGuide.FormatOrder | TvGuideFetch.cpp:806-810 | day strings sort as their days do, year then month then day, and are equal exactly for the same day |
| TvGuide.DayStringOrder | TvGuideFetch.cpp:806-810 | day strings of real days sort as the days fall in the calendar |
| TvGuide.WindowIsDayRange | TvGuideFetch.cpp:433-436 | a catalogue day is inside the window exactly when it is between `offset` and `offset + days - 1` days from today, both included |
| TvGuide.StaleBeforeToday | TvGuideFetch.cpp:433-455 | `clearCache(getDate(0))` treats a day's cached guide file as stale exactly when the day is before today |
| TvGuide.NodeOnPath | XmlDom.cpp:230-253 | a fresh navigator's `gotoNode` on an absolute path reaches the element the first-match descent finds, and succeeds exactly when that descent does |
| TvGuide.FirstChannel | TvGuideFetch.cpp:576-590 | the position found is the first catalogue entry that is a `<channel>` with that id; none found means there is none |
| TvGuide.TvRoot | TvGuideFetch.cpp:573 | `gotoNode("/tv")` from a fresh navigator stands on the root exactly when the root is `<tv>` |
| TvGuide.FindChannel | TvGuideFetch.cpp:571-590 | a channel is found exactly when the root is `<tv>` and some child element is a `<channel>` with the id; it is the first such child |
| TvGuide.ChannelMapRoot | TvGuideFetch.cpp:328 | `gotoNode("/config/channelmap")` reaches the first `<channelmap>` child exactly when the root is `<config>` and has one |
| TvGuide.ChannelMap | TvGuideFetch.cpp:328 | the channel map is the first `<channelmap>` child of a `<config>` root, and is missing exactly when there is none |
| TvGuide.LastValueMeans | TvGuideFetch.cpp:599-629 | the value taken for a name is that of an attribute with the name and no later namesake, and there is one exactly when some attribute has the name |
| TvGuide.ApplyAttrs | TvGuideFetch.cpp:599-629 | the run ends exactly when some `timeoffset` is not a number within twelve hours; otherwise the last `id`, `oztivoid`, `fillinid` and `timeoffset` win and nothing else changes |
| TvGuide.AddAllLookup | TvGuideFetch.cpp:638-645 | after the display-name attributes are folded in, each name holds its last value, and a name the fold never saw keeps what it had |
| TvGuide.AddAllAppend | TvGuideFetch.cpp:638-645 | folding two lists of attributes is folding their concatenation |
| TvGuide.FirstNamed | TvGuideFetch.cpp:650-655 | the position found is the first element with the name; none found means there is none |
| TvGuide.LastNamed | TvGuideFetch.cpp:636-649 | the position found is the last element with the name; none found means there is none |
| TvGuide.LastIcon | TvGuideFetch.cpp:656-663 | the position found is the last `<icon>` with a `src`; none found means there is none |
| TvGuide.ApplyChildren | TvGuideFetch.cpp:632-667 | the child elements change only the channel number, display name, icon and display-name attributes, and an `<lcn>` is seen exactly when there is one |
| TvGuide.ChildStep | TvGuideFetch.cpp:636-665 | what one child element changes: the first `<lcn>` sets the number, a `<display-name>` sets the name and folds its attributes, an `<icon>` with `src` sets the icon |
| TvGuide.FirstLcnWins | TvGuideFetch.cpp:650-655 | the channel number is the text of the first `<lcn>` |
| TvGuide.LastDisplayNameWins | TvGuideFetch.cpp:636-649 | the display name is the text of the last `<display-name>` |
| TvGuide.LastIconWins | TvGuideFetch.cpp:656-663 | the icon is the `src` of the last `<icon>` that has one |
| TvGuide.DisplayAttrsFolded | TvGuideFetch.cpp:636-649 | the attributes of every `<display-name>` are folded in, in document order |
| TvGuide.PopulateSettings | TvGuideFetch.cpp:593-672 | only a `<channel>` element is read; the run ends exactly when one of its `timeoffset` attributes is bad; the sources' data and the programmes are left alone |
| TvGuide.SettingsTaken | TvGuideFetch.cpp:593-672 | each known setting is the element's own (last attribute, first `<lcn>`, last `<display-name>`, last icon, display-name attributes) where it gives one, and otherwise what the channel held |
| TvGuide.Texts | TvGuideFetch.cpp:681-713 | the texts listed are exactly those of the elements with the name, in order |
| TvGuide.LastStamp | TvGuideFetch.cpp:695-703 | the position found is the last `<datafor>` for the day with a `lastmodified`; none found means there is none |
| TvGuide.SourceFrom | TvGuideFetch.cpp:681-713 | the base URLs and the days are appended in document order and the id is kept |
| TvGuide.StampStep | TvGuideFetch.cpp:695-703 | one child element changes a day's token exactly when it is a `<datafor>` for that day with a `lastmodified` |
| TvGuide.LastStampWins | TvGuideFetch.cpp:695-703 | the token recorded for a day is the one on the last element that stamps it; a day no element stamps keeps its old token |
| TvGuide.PopulateSource | TvGuideFetch.cpp:675-720 | only a `<channel>` element is read, into the primary or the fill-in source as asked; the other source and every other field stay, and the URLs and days are appended in document order |
| TvGuide.AttrValue | XmlDom.cpp:370-383 | an attribute value is found exactly when some attribute has the name |
| TvGuide.FromCatalogue | TvGuideFetch.cpp:344-346 | a channel comes from its catalogue entry exactly when the entry is a `<channel>` with no bad time offset; its primary source lists the entry's URLs and days and nothing else is fetched yet |
| TvGuide.AddFillin | TvGuideFetch.cpp:355-382 | a `fillinid` that names a catalogue entry appends its URLs and days to the fill-in source and changes nothing else; otherwise the channel is kept |
| TvGuide.BuildChannel | TvGuideFetch.cpp:333-403 | a configured channel is skipped exactly when its `oztivoid` is missing from the catalogue, and ends the run exactly when it has no `oztivoid` or either `<channel>` element is wrong or has a bad time offset |
| TvGuide.BuiltFromCatalogue | TvGuideFetch.cpp:333-393 | a built channel's primary source is the catalogue entry `oztivoid` names, under that name, and it holds no programmes yet |
| TvGuide.BuiltFillin | TvGuideFetch.cpp:355-382 | a built channel's fill-in source comes from the entry `fillinid` names when the catalogue has it, and is empty otherwise |
| TvGuide.BuiltStages | TvGuideFetch.cpp:333-393 | a built channel is the catalogue settings, then the catalogue source, then the configuration overrides, then the fill-in source |
| TvGuide.ConfigOverrides | TvGuideFetch.cpp:344-353 | an `id` or `timeoffset` the configuration gives replaces the catalogue's, one it leaves out keeps the catalogue's, or the default when neither gives it |
| TvGuide.ConfigOverridesChildren | TvGuideFetch.cpp:344-353 | the configuration's first `<lcn>`, last `<display-name>` and display-name attributes win over the catalogue's |
| TvGuide.Collect | TvGuideFetch.cpp:329-408 | the channel list is missing exactly when some child ends the run; otherwise every channel in it is one a child built, and every built channel is in it |
| TvGuide.CollectInOrder | TvGuideFetch.cpp:329-408 | the channels collected are those of the building children, in the order of the children: each comes from a strictly later child than the one before, and no building child is passed over |
| TvGuide.BuildChannels | TvGuideFetch.cpp:327-420 | the run goes on exactly when the configuration has a channel map and none of its children ends the run; the channels are exactly those its children build, one per building child, in the order of the children |
| CmdOptions.AddOption | CmdOptions.cpp:225-238 | the option goes at the tail, every earlier option keeps its place, and the counter goes up by one, so a counter that agreed with the list still does |
| CmdOptions.AddSwitchOption | CmdOptions.cpp:151-161 | the new last option is a switch with the given letter, long name and description |
| CmdOptions.AddArgumentOption | CmdOptions.cpp:182-192 | the new last option takes an argument, with the given letter, long name and description |
| CmdOptions.AddMethodOption | CmdOptions.cpp:213-223 | the new last option calls a method, with the given letter, long name and description |
| CmdOptions.RegistrationOrder | CmdOptions.cpp:225-238 | registering options one after another lists them in registration order and counts every one |
| CmdOptions.ShortOptions | CmdOptions.cpp:240-260 | the short-option string holds at most two characters per option and no NUL |
| CmdOptions.ShortOptionsRead | CmdOptions.cpp:240-260 | read as `getopt` reads it, the string lists exactly the options with a short letter, in registration order, each marked as taking an argument exactly when it is an argument option |
| CmdOptions.ShortOptionsHead | CmdOptions.cpp:240-260 | when no letter is ':', the string does not start with ':' |
| CmdOptions.LongEntries | CmdOptions.cpp:262-285 | each entry describes a named option (its name, `required_argument` exactly for an argument option, its flag and `val` 1), in registration order |
| CmdOptions.LongEntriesCover | CmdOptions.cpp:262-285 | every named option has an entry |
| CmdOptions.LongOptions | CmdOptions.cpp:262-285 | the table holds one entry per named option, in registration order, each describing that option, and ends with the all-zero entry |
| CmdOptions.TablesFit | CmdOptions.cpp:240-285 | both tables fit the buffers sized from the counter: `2n + 1` characters and `n + 1` entries |
| CmdOptions.Placeholder | CmdOptions.cpp:110-124 | the placeholder starts with the first '<' of the description and runs to the first '>' after it; it is "<ARG>" when the description has no '<', or no '>' after its first '<' |
| CmdOptions.PlaceholderFound | CmdOptions.cpp:110-124 | a description whose first '<' opens a name closed by a '>' yields exactly that name with its brackets, whatever follows |
| CmdOptions.LastSpace | CmdOptions.cpp:129-134 | the position found is the last space of the window; none found means the window has no space |
| CmdOptions.BreakAt | CmdOptions.cpp:126-145 | each line makes progress and is at most 70 characters; when more text follows it ends at the window's last space, and a line of a full 70 characters is cut only where the window holds no space at all; a line that stops on a space always drops that one space; the tail that fits ends the text |
| CmdOptions.WrapFrom | CmdOptions.cpp:126-145 | every line is at most 70 characters and is followed by nothing or one dropped space |
| CmdOptions.Wrap | CmdOptions.cpp:126-145 | every printed line is at most 70 characters, and only an empty description prints no line |
| CmdOptions.WrapRoundTrip | CmdOptions.cpp:126-145 | putting the dropped spaces back between the lines gives the description again |
| CmdOptions.ShortDescriptionOneLine | CmdOptions.cpp:126-145 | a description of at most 70 characters is printed as one line, unchanged |
| CmdOptions.Act | CmdOptions.cpp:293-305 | a switch counts one more, wrapping as an `unsigned char`; an argument option stores the argument; a method option calls its method once more |
| CmdOptions.ProcessShortOptions | CmdOptions.cpp:287-310 | every option with the letter acts, not only the first, and every other option is untouched |
| CmdOptions.GetSwitchValue | CmdOptions.cpp:163-180 | the value is 0 when no option has the long name; otherwise it is the flag of the first option with the name when that is a switch, and 0 when it is not |
| CmdOptions.SwitchCounts | CmdOptions.cpp:163-180 | seeing a switch's short letter raises the value its long name reports by one, wrapping at 256 |

## Left out

- The libcurl transfer, its credentials and options (HttpFetch.cpp:233-256): a foreign library. Its outcome and status code are the `Transfer` input of `HttpCache.FetchFile`.
- The file system: the cache directory, `saveCacheFile`, reading cache and header files, `readdir` and `remove`. File texts, directory listings and "did the write work" are inputs, and `Channels.ClearCache` returns the removals it asks for.
- zlib inflation in `getFileContents` (HttpFetch.cpp:370-450) and the XML parse of a guide file: a foreign library and the expat parser. A guide file's contents are given as the child elements of its `/tv` root in document order, or `None` when it cannot be read. The source walks every child of `/tv` with no name test (Channel.cpp:180-196), so these are all of them, whatever their names. A file that does not parse, or has no `<tv>` root, contributes no programmes and does not fail the day: its contents are then the empty list.
- `delay`, `rand` and `srand`: the draw is a parameter and the pause is returned as data.
- The wall clock and the local time zone: the current time is a parameter `now` that already holds the zone.
- The expat parser itself, and `XmlDoc`'s pointer ownership and shallow copies. The model takes the parser's callbacks as a sequence of events. `XmlNav`'s attribute and character-data walking (`gotoFirstAttr`, `gotoNextAttr`, `gotoFirstChars`, `gotoNextChars` and their getters and setters) is used only through the folds it drives.
- `getopt_long`, `parse`, `processLongOptions` and `getArgumentValue`: they depend on the global `optind`/`optarg` state of a foreign library.
- Config.cpp: a thin wrapper over `XmlDom` navigation and file streams.
- The configuration wizard, stdin, `main`, the `print*` handlers, console messages, the help header line and the eight-space indent of `writeCmdHelp`, and the XMLTV text written by `channelToXml` and `programsToXml`. Of the output, only the time changes made before printing are modelled (`TvGuide.OutputTimes`).
- `exit()` and `bailOut`: they become the `None`, `Fatal` and `BadTimeOffset` results.
- The 4095-character line limit of `getline` on header files. Longer lines are read whole here.
- A cache write that fails after the data file was saved but before the header file was: the model records only whether both were written.
- A day listed twice in one source: the model decides both fetches from the same cache snapshot, and does not model what the first download does to the header file.
- Integer overflow in `validInt` and `validPositiveInt`: the model reads numbers of any length exactly.
- A method option's method: it is counted (`Target.calls`) and not run.
- Pointers shared between options: each option is assumed to have its own target.
- CmdOptions.GetSwitchValue: comparing with an option that has no long name is undefined in the source. The contract assumes the first option with the name comes before any such option (`ComparableUpTo`).
- Channels.MergeElement: it drops a programme whose times run backwards. The source merges it, and can then recurse without end (see Findings). The model's fetch uses the corrected merge.
- Channels.MergeAll: programmes are merged by their instants in seconds since 1 January 2000. Each merged piece keeps its instants but not the zone offset its dates were printed with.
- MergeAsWritten.AddProgramFuel: its contract only says the list does not shrink; that nothing is lost is stated by `MergeAsWritten.AddProgramFuelKeeps`.
- MergeAsWritten.AddProgramFuel: the source resumes its scan after the straddled programme. The model resumes at that programme's index plus the number of pieces the front part added. The two agree whenever the front part lands before the straddled programme, which holds for every list without backward programmes.
- Channels.Retarget, Channels.SetTimeZone, Channels.OffsetTime, TvGuide.OutputTimes: they require normalised dates, which every date read by the program is.
- Channels.UnreadableStartIsNow: it covers a start that is too short or whose fields or offset do not read. A start that reads but whose year `validateDate` then refuses leaves a date partly stored over the current time, and the lemma says nothing about that case.
- XmlDom.GotoFirstChildNode, XmlDom.GotoNextSiblingNode: the source dereferences the current node without checking it (XmlDom.cpp:309-343), which is undefined behaviour on a navigator that stands on nothing. The model requires a current node and leaves that case out.
- Channels.RunJob: `DayEnv.fetchOk`, the outcome of `HttpFetch::fetchFile` for a day, is a free input. It is not derived from `HttpCache.FetchFile`; the two are linked only in prose.
- TvGuide.Collect: its own contract states which channels the list holds. Their order, one per building child in the order of the children, is stated by `TvGuide.CollectInOrder` and carried into `TvGuide.BuildChannels`.
- Channels.LoadTimes: it states the fields and their well-formedness. It does not state what text each date was read from; `DateCodecs` covers that.
- Duplicate attributes on one element: XML forbids them. Where the model meets them, it takes the last `id`, `oztivoid`, `fillinid` and `timeoffset`.

## Findings

| source | as written | input that shows it | evidently intended | confidence | as-written member | corrected member |
|---|---|---|---|---|---|---|
| EasyDate.cpp:515-523 | `fromRfc850` reads the weekday name as everything before the first ',' and also demands that index 0 is ','; the name is then empty and never valid | "Sunday, 06-Nov-94 08:49:37 GMT" | count the fixed positions from the comma that ends the weekday name | high, not executed | HttpDates.FromRfc850NeverSucceeds | HttpDates.FromRfc850Fixed, HttpDates.Rfc850FixedRoundTrip |
| EasyDate.cpp:504 | `toRfc850` prints `m_year % 10` as the two-digit year | 6 Nov 1994 08:49:37 is written "Sunday, 06-Nov-04 08:49:37 GMT", which reads back as 1904 | print `m_year % 100` | high, not executed | HttpDates.Rfc850LosesDecade | HttpDates.ToRfc850Fixed, HttpDates.Rfc850FixedRoundTrip |
| Channel.cpp:310-327 | `addProgram` splits a programme that straddles a stored one and adds the front part recursively; when the stored programme runs backwards (an unreadable start leaves it at the current time, Channel.cpp:533-540), the front part straddles it again | stored 12:00 back to 10:00, add 09:00-11:00 | skip a programme that runs backwards, so every split shrinks the candidate (programmes of length zero are still merged) | medium, not executed | MergeAsWritten.AddProgramDiverges | Channels.MergeElement, Channels.MergeElementValid |

=== FILE: arith.dfy ===
/** C++ integer division. Dafny's `/` and `%` are Euclidean; the C++ `/`
    truncates toward zero and `%` takes the sign of the dividend. */
module CArith {

  /** `a / b` in C++ for a positive divisor: the quotient rounded toward
      zero, which with `%` keeps the C++ guarantee
      `(a / b) * b + a % b == a`. */
  function Quot(a: int, b: int): (r: int)
    requires b > 0
    ensures a >= 0 ==> r >= 0
    ensures a < 0 ==> r <= 0
  {
    if a >= 0 then a / b else -((-a) / b)
  }

  /** `a % b` in C++ for a positive divisor. */
  function Rem(a: int, b: int): (r: int)
    requires b > 0
    ensures a >= 0 ==> 0 <= r < b
    ensures a < 0 ==> -b < r <= 0
  {
    if a >= 0 then a % b else -((-a) % b)
  }

  /** The C++ guarantee `(a / b) * b + a % b == a` for the truncating
      pair. */
  lemma QuotRem(a: int, b: int)
    requires b > 0
    ensures Quot(a, b) * b + Rem(a, b) == a
  {
    if a < 0 {
      var q := (-a) / b;
      assert q * b + (-a) % b == -a;
      assert (-q) * b == -(q * b);
    }
  }

  /** On non-negative operands the C++ and Euclidean operators agree. */
  lemma QuotRemNonNegative(a: int, b: int)
    requires a >= 0 && b > 0
    ensures Quot(a, b) == a / b && Rem(a, b) == a % b
  {
  }

  /** The C++ idiom `r = a % 7; if (r < 0) r += 7;` yields the Euclidean
      remainder. */
  lemma RemFixupSeven(a: int)
    ensures (if Rem(a, 7) < 0 then Rem(a, 7) + 7 else Rem(a, 7)) == a % 7
  {
  }
}

=== FILE: calendar.dfy ===
/** The Gregorian calendar as `EasyDate` computes it: the leap-year rule,
    the month-length table, the day-of-year loop and the day-of-week loop,
    which counts whole years away from 1 January 2000 (a Saturday). */
module Calendar {

  /** The leap-year test of `EasyDate::daysInYear` and `daysInMonth`. The C++
      `%` can be negative, but it is zero exactly when the Euclidean one is,
      so the test reads the same for every year. */
  predicate IsLeap(y: int) {
    y % 4 == 0 && (y % 100 != 0 || y % 400 == 0)
  }

  function DaysInYear(y: int): int {
    if IsLeap(y) then 366 else 365
  }

  /** The table `{0, 31, 28, 31, 30, 31, 30, 31, 31, 30, 31, 30, 31}`, with
      29 for February of a leap year. Index 0 is a real entry of the table;
      indices beyond 12 would read past its end. */
  function DaysInMonth(y: int, m: int): (r: int)
    requires 0 <= m <= 12
    ensures m == 0 ==> r == 0
    ensures 1 <= m ==> 28 <= r <= 31
    ensures m == 2 ==> (r == 29 <==> IsLeap(y))
  {
    if m == 2 && IsLeap(y) then 29
    else [0, 31, 28, 31, 30, 31, 30, 31, 31, 30, 31, 30, 31][m]
  }

  /** The days of the months before `m`: the loop
      `for (i = 1; i < mon; ++i) yday += daysInMonth(year, i)`. */
  function DaysBeforeMonth(y: int, m: int): (r: int)
    requires 0 <= m <= 13
    ensures 0 <= r
  {
    if m <= 1 then 0 else DaysBeforeMonth(y, m - 1) + DaysInMonth(y, m - 1)
  }

  /** The days from 1 January 2000 to 1 January of `y`, negative before
      2000: the two `while` loops of `validateDate` that walk `i` towards
      2000 adding or subtracting `daysInYear`. */
  function YearStart(y: int): int
    decreases if y > 2000 then y - 2000 else 2000 - y
  {
    if y > 2000 then YearStart(y - 1) + DaysInYear(y - 1)
    else if y < 2000 then YearStart(y + 1) - DaysInYear(y)
    else 0
  }

  /** The day `d` of month `m` of year `y`, counted from 1 January 2000. */
  function DayNumber(y: int, m: int, d: int): int
    requires 0 <= m <= 12
  {
    YearStart(y) + DaysBeforeMonth(y, m) + d - 1
  }

  /** A real calendar day. */
  predicate ValidDay(y: int, m: int, d: int) {
    1 <= m <= 12 && 1 <= d <= DaysInMonth(y, m)
  }

  /** `(y, m, d)` precedes `(y', m', d')` in the order the comparison
      operators use: year first, then month, then day. */
  predicate DayBefore(y: int, m: int, d: int, y': int, m': int, d': int) {
    y < y' || (y == y' && (m < m' || (m == m' && d < d')))
  }

  /** The number of leap years before `y`, by the closed form of the
      Gregorian rule (Euclidean division, so it holds for every year). */
  function LeapsBefore(y: int): int {
    (y - 1) / 4 - (y - 1) / 100 + (y - 1) / 400
  }

  lemma DivStep(x: int)
    ensures (x + 1) / 4 == x / 4 + (if (x + 1) % 4 == 0 then 1 else 0)
    ensures (x + 1) / 100 == x / 100 + (if (x + 1) % 100 == 0 then 1 else 0)
    ensures (x + 1) / 400 == x / 400 + (if (x + 1) % 400 == 0 then 1 else 0)
  {
  }

  lemma Mod400Mod100(y: int)
    requires y % 400 == 0
    ensures y % 100 == 0
  {
    assert y == (y / 400 * 4) * 100;
  }

  lemma Mod100Mod4(y: int)
    requires y % 100 == 0
    ensures y % 4 == 0
  {
    assert y == (y / 100 * 25) * 4;
  }

  lemma LeapsBeforeStep(y: int)
    ensures LeapsBefore(y + 1) == LeapsBefore(y) + (if IsLeap(y) then 1 else 0)
  {
    DivStep(y - 1);
    if y % 400 == 0 {
      Mod400Mod100(y);
    }
    if y % 100 == 0 {
      Mod100Mod4(y);
    }
  }

  /** Walking a year forward adds that year's length. */
  lemma YearStartStep(y: int)
    ensures YearStart(y + 1) == YearStart(y) + DaysInYear(y)
  {
  }

  /** The year loops agree with the closed form: 365 days a year plus one
      per leap year passed. */
  lemma {:induction false} YearStartClosedForm(y: int)
    ensures YearStart(y) == 365 * (y - 2000) + LeapsBefore(y) - LeapsBefore(2000)
    decreases if y > 2000 then y - 2000 else 2000 - y
  {
    if y > 2000 {
      YearStartClosedForm(y - 1);
      LeapsBeforeStep(y - 1);
    } else if y < 2000 {
      YearStartClosedForm(y + 1);
      LeapsBeforeStep(y);
    }
  }

  /** Later years start later. */
  lemma {:induction false} YearStartMonotone(y: int, y': int)
    requires y < y'
    ensures YearStart(y) + DaysInYear(y) <= YearStart(y')
    decreases y' - y
  {
    YearStartStep(y);
    if y + 1 < y' {
      YearStartMonotone(y + 1, y');
    }
  }

  /** The month loop agrees with the cumulative table of month starts,
      shifted by one day after February in a leap year. */
  lemma {:induction false} DaysBeforeMonthTable(y: int, m: int)
    requires 0 <= m <= 13
    ensures DaysBeforeMonth(y, m) ==
      [0, 0, 31, 59, 90, 120, 151, 181, 212, 243, 273, 304, 334, 365][m]
      + (if IsLeap(y) && m > 2 then 1 else 0)
  {
    if m > 1 {
      DaysBeforeMonthTable(y, m - 1);
    }
  }

  /** The twelve months make up the year. */
  lemma MonthsFillYear(y: int)
    ensures DaysBeforeMonth(y, 13) == DaysInYear(y)
  {
    DaysBeforeMonthTable(y, 13);
  }

  lemma {:induction false} DaysBeforeMonthMonotone(y: int, m: int, m': int)
    requires 1 <= m < m' <= 13
    ensures DaysBeforeMonth(y, m) + DaysInMonth(y, m) <= DaysBeforeMonth(y, m')
    decreases m' - m
  {
    if m + 1 < m' {
      DaysBeforeMonthMonotone(y, m + 1, m');
    }
  }

  /** A real day lies inside its year. */
  lemma DayNumberInYear(y: int, m: int, d: int)
    requires ValidDay(y, m, d)
    ensures YearStart(y) <= DayNumber(y, m, d) < YearStart(y) + DaysInYear(y)
  {
    MonthsFillYear(y);
    if m < 12 {
      DaysBeforeMonthMonotone(y, m, 13);
    }
  }

  /** Day numbers follow the calendar order. */
  lemma DayNumberMonotone(y: int, m: int, d: int, y': int, m': int, d': int)
    requires ValidDay(y, m, d) && ValidDay(y', m', d')
    requires DayBefore(y, m, d, y', m', d')
    ensures DayNumber(y, m, d) < DayNumber(y', m', d')
  {
    if y < y' {
      DayNumberInYear(y, m, d);
      DayNumberInYear(y', m', d');
      YearStartMonotone(y, y');
    } else if m < m' {
      DaysBeforeMonthMonotone(y, m, m');
    }
  }

  /** Distinct real days have distinct day numbers. */
  lemma DayNumberInjective(y: int, m: int, d: int, y': int, m': int, d': int)
    requires ValidDay(y, m, d) && ValidDay(y', m', d')
    requires DayNumber(y, m, d) == DayNumber(y', m', d')
    ensures y == y' && m == m' && d == d'
  {
    if DayBefore(y, m, d, y', m', d') {
      DayNumberMonotone(y, m, d, y', m', d');
    } else if DayBefore(y', m', d', y, m, d) {
      DayNumberMonotone(y', m', d', y, m, d);
    }
  }

  /** The day of the week, 0 for Sunday: 1 January 2000 was a Saturday. */
  function Weekday(y: int, m: int, d: int): (w: int)
    requires 0 <= m <= 12
    ensures 0 <= w < 7
  {
    (DayNumber(y, m, d) + 6) % 7
  }

  /** Consecutive days have consecutive weekdays. */
  lemma WeekdayNextDay(y: int, m: int, d: int)
    requires 0 <= m <= 12
    ensures Weekday(y, m, d + 1) == (Weekday(y, m, d) + 1) % 7
  {
  }

  lemma WeekdayExamples()
    ensures Weekday(2000, 1, 1) == 6
    ensures Weekday(1994, 11, 6) == 0
    ensures Weekday(2009, 6, 1) == 1
  {
    YearStartExamples();
    DaysBeforeExamples();
  }

  lemma DaysBeforeExamples()
    ensures DaysBeforeMonth(1994, 11) == 304 && DaysBeforeMonth(2009, 6) == 151
  {
    DaysBeforeMonthTable(1994, 11);
    DaysBeforeMonthTable(2009, 6);
  }

  lemma YearStartExamples()
    ensures YearStart(1994) == -2191 && YearStart(2009) == 3288
  {
    YearStartClosedForm(1994);
    YearStartClosedForm(2009);
    assert LeapsBefore(1994) == 483 && LeapsBefore(2009) == 487 && LeapsBefore(2000) == 484;
  }
}

=== FILE: channel.dfy ===
/** One channel of the guide: where its data comes from, how it is shown,
    which cached files have gone stale, which days are fetched, how the
    times of a programme are read and retargeted, and how the programmes of
    the fetched days are merged. */
module Channels {

  // A channel has a primary and a fill-in `Source`; a cached day is reused
  // while it is still good. Programme times are merged as seconds since
  // 1 January 2000, and a programme whose times run backwards is dropped
  // before the merge, which the source does not do (the model of the merge
  // as written shows what happens there).

  import opened Wrappers
  import opened CText
  import opened EasyDates
  import opened DateCodecs
  import opened HttpDates
  import opened HttpCache
  import opened ProgramMerge

  // ---------------------------------------------------------------------
  // Sources

  /** A place the guide data of a channel comes from: its id, its mirror
      URLs, the days it has data for, in catalogue order, and the
      last-modified token of each day. */
  datatype Source = Source(id: string, baseUrls: seq<string>, dataFor: seq<string>,
                           lastModified: map<string, string>)

  /** `getLastModified`: the token recorded for the day, or "". */
  function GetLastModified(s: Source, day: string): string {
    if day in s.lastModified then s.lastModified[day] else ""
  }

  /** The mutators of `Source`, as data. */
  datatype SourceEdit =
    | SetId(id: string)
    | AddBaseUrl(url: string)
    | AddDataFor(day: string)
    | AddDataForLastModified(day: string, lm: string)

  function Apply(s: Source, e: SourceEdit): (r: Source)
    ensures e.SetId? ==> r == s.(id := e.id)
    ensures e.AddBaseUrl? ==> r == s.(baseUrls := s.baseUrls + [e.url])
    ensures e.AddDataFor? ==> r == s.(dataFor := s.dataFor + [e.day])
    ensures e.AddDataForLastModified? ==> r.id == s.id && r.baseUrls == s.baseUrls && r.dataFor == s.dataFor
  {
    match e
    case SetId(id) => s.(id := id)
    case AddBaseUrl(url) => s.(baseUrls := s.baseUrls + [url])
    case AddDataFor(day) => s.(dataFor := s.dataFor + [day])
    case AddDataForLastModified(day, lm) => s.(lastModified := s.lastModified[day := lm])
  }

  /** A later token for a day replaces the earlier one; other days keep
      theirs. */
  lemma LastModifiedOverwrites(s: Source, day: string, lm: string, other: string)
    ensures GetLastModified(Apply(s, AddDataForLastModified(day, lm)), day) == lm
    ensures other != day ==>
      GetLastModified(Apply(s, AddDataForLastModified(day, lm)), other) == GetLastModified(s, other)
  {
  }

  /** A run of edits, in order. */
  function ApplyAll(s: Source, es: seq<SourceEdit>): Source
    decreases |es|
  {
    if |es| == 0 then s else ApplyAll(Apply(s, es[0]), es[1..])
  }

  /** The days of a run of edits, in the order they were added. */
  function DaysOf(es: seq<SourceEdit>): (r: seq<string>)
    decreases |es|
  {
    if |es| == 0 then []
    else (if es[0].AddDataFor? then [es[0].day] else []) + DaysOf(es[1..])
  }

  /** `addDataFor` appends: after any run of edits the days the source
      lists are the old ones followed by the new ones, in the order added,
      so `getNumDays` and `getDay` walk exactly that sequence. */
  lemma {:induction false} DaysInOrder(s: Source, es: seq<SourceEdit>)
    ensures ApplyAll(s, es).dataFor == s.dataFor + DaysOf(es)
    decreases |es|
  {
    if |es| > 0 {
      DaysInOrder(Apply(s, es[0]), es[1..]);
    }
  }

  // ---------------------------------------------------------------------
  // Channel records

  datatype Attr = Attr(id: string, val: string)

  datatype Channel = Channel(
    timeOffset: int, id: string, iconUrl: string, chanNum: string,
    displayname: string, attrs: seq<Attr>,
    oztivo: Source, fillin: Source, programs: seq<Prog>)

  /** `getId`: the channel's own id, or the primary source's id when the
      channel has none. */
  function GetId(c: Channel): (r: string)
    ensures r == "" <==> c.id == "" && c.oztivo.id == ""
    ensures c.id != "" ==> r == c.id
  {
    if c.id == "" then c.oztivo.id else c.id
  }

  /** The primary-source setters. */
  function EditOztivo(c: Channel, e: SourceEdit): (r: Channel)
    ensures r.oztivo == Apply(c.oztivo, e)
    ensures r.(oztivo := c.oztivo) == c
  {
    c.(oztivo := Apply(c.oztivo, e))
  }

  /** The fill-in-source setters. */
  function EditFillin(c: Channel, e: SourceEdit): (r: Channel)
    ensures r.fillin == Apply(c.fillin, e)
    ensures r.(fillin := c.fillin) == c
  {
    c.(fillin := Apply(c.fillin, e))
  }

  /** Setting the primary id names a channel that has no id of its own;
      setting the fill-in id never does. */
  lemma IdFollowsPrimary(c: Channel, id: string)
    ensures GetId(EditOztivo(c, SetId(id))) == if c.id == "" then id else c.id
    ensures GetId(EditFillin(c, SetId(id))) == GetId(c)
  {
  }

  /** The value of the first attribute with the id. */
  function Lookup(attrs: seq<Attr>, id: string): (r: Option<string>)
    ensures r.Some? <==> exists i :: 0 <= i < |attrs| && attrs[i].id == id
  {
    if |attrs| == 0 then None
    else if attrs[0].id == id then Some(attrs[0].val)
    else
      var r := Lookup(attrs[1..], id);
      assert forall i :: 1 <= i < |attrs| ==> attrs[i] == attrs[1..][i - 1];
      r
  }

  /** `addDisplaynameAttr`: the first attribute with the id takes the new
      value; when there is none, the pair is appended. */
  function AddDisplaynameAttr(attrs: seq<Attr>, id: string, val: string): (r: seq<Attr>)
    ensures |r| == if Lookup(attrs, id).Some? then |attrs| else |attrs| + 1
    ensures forall i :: 0 <= i < |attrs| ==> r[i].id == attrs[i].id
    ensures Lookup(r, id) == Some(val)
  {
    if |attrs| == 0 then [Attr(id, val)]
    else if attrs[0].id == id then [Attr(id, val)] + attrs[1..]
    else
      var rest := AddDisplaynameAttr(attrs[1..], id, val);
      assert forall i :: 1 <= i < |attrs| ==> attrs[i] == attrs[1..][i - 1];
      [attrs[0]] + rest
  }

  /** Attributes with other ids keep their values. */
  lemma {:induction false} OtherAttrsKept(attrs: seq<Attr>, id: string, val: string, other: string)
    requires other != id
    ensures Lookup(AddDisplaynameAttr(attrs, id, val), other) == Lookup(attrs, other)
    decreases |attrs|
  {
    if |attrs| > 0 && attrs[0].id != id && attrs[0].id != other {
      OtherAttrsKept(attrs[1..], id, val, other);
      var r := AddDisplaynameAttr(attrs, id, val);
      assert r[1..] == AddDisplaynameAttr(attrs[1..], id, val);
    }
  }

  // ---------------------------------------------------------------------
  // clearCache

  /** The cached files of `id` that sort before `today`'s: the name starts
      with "<id>_" and sorts before "<id>_<today>". */
  predicate Stale(f: string, id: string, today: string) {
    FindSub(f, id + "_", 0) == Some(0) && StrLess(f, id + "_" + today)
  }

  function StaleFiles(files: seq<string>, id: string, today: string): (r: seq<string>)
    ensures forall f :: f in r <==> f in files && Stale(f, id, today)
  {
    if |files| == 0 then []
    else
      assert files == [files[0]] + files[1..];
      (if Stale(files[0], id, today) then [files[0]] else []) + StaleFiles(files[1..], id, today)
  }

  /** Every name of `fs`, asked for twice in a row. */
  function Twice(fs: seq<string>): (r: seq<string>)
    ensures |r| == 2 * |fs|
    ensures forall f :: f in r <==> f in fs
  {
    if |fs| == 0 then []
    else
      assert fs == [fs[0]] + fs[1..];
      [fs[0], fs[0]] + Twice(fs[1..])
  }

  /** `clearCache`: the removals it asks for, in order. The fill-in pass
      runs only when the fill-in id is set, and it tests and removes each
      of its files twice. */
  function ClearCache(files: seq<string>, oztivoId: string, fillinId: string, today: string): (r: seq<string>)
    ensures forall f :: f in r <==> f in files && (Stale(f, oztivoId, today) || (fillinId != "" && Stale(f, fillinId, today)))
  {
    StaleFiles(files, oztivoId, today)
    + (if fillinId == "" then [] else Twice(StaleFiles(files, fillinId, today)))
  }

  /** A file name that starts with "<id>_": the test `find(marker) == 0`. */
  lemma MarkerAtStart(id: string, rest: string)
    ensures FindSub(id + "_" + rest, id + "_", 0) == Some(0)
  {
    assert (id + "_" + rest)[..|id + "_"|] == id + "_";
  }

  /** The guide file of a day is removed exactly when the day sorts before
      today, for days written the same width as today: today's file and
      later ones are kept. */
  lemma DayFileStale(id: string, day: string, today: string)
    requires |day| == |today|
    ensures Stale(Uri(id, day), id, today) <==> StrLess(day, today)
  {
    var marker := id + "_";
    var x := ".xml.gz";
    assert Uri(id, day) == marker + (day + x);
    assert marker + today == id + "_" + today;
    MarkerAtStart(id, day + x);
    StrLessCommonPrefix(marker, day + x, today);
    if StrLess(day, today) {
      StrLessExtend(day, today, x, "");
      assert today + "" == today;
    } else if day == today {
      StrLessEqPrefix(today, x);
      assert |today + x| > |today|;
      StrLessAsymmetric(today, today + x);
    } else {
      StrLessTotal(day, today);
      StrLessExtend(today, day, "", x);
      assert today + "" == today;
      StrLessAsymmetric(today, day + x);
    }
  }

  // ---------------------------------------------------------------------
  // Programme times

  /** A programme as `loadTimes` leaves it: two dates and a title. */
  datatype Program = Program(start: EasyDate, stop: EasyDate, name: string)

  /** `loadTimes`: the start and stop attributes are read as XMLTV dates
      into date objects that hold the current time `now`, and the title
      is the text of the title child. It fails only when one of the three
      is missing; whether the dates parsed is not looked at. */
  function LoadTimes(now: EasyDate, start: Option<string>, stop: Option<string>, title: Option<string>): (r: Option<Program>)
    ensures r.Some? <==> start.Some? && stop.Some? && title.Some?
    ensures r.Some? ==> r.value.name == title.value
    ensures r.Some? && Normalised(now) ==> Normalised(r.value.start) && Normalised(r.value.stop)
  {
    match (start, stop, title)
    case (Some(s), Some(e), Some(t)) => Some(Program(FromXmltv(now, s).date, FromXmltv(now, e).date, t))
    case _ => None
  }

  /** An unreadable start time (too short, or with a field or offset that
      does not read) leaves the start at the current time, and the call
      still succeeds. */
  lemma UnreadableStartIsNow(now: EasyDate, start: string, stop: string, title: string)
    requires |start| < 20 || XmltvFields(start).None? || ParseOffset(start, 15).None?
    ensures LoadTimes(now, Some(start), Some(stop), Some(title)).Some?
    ensures LoadTimes(now, Some(start), Some(stop), Some(title)).value.start == now
  {
  }

  /** So a programme can come out running backwards: an unreadable start
      becomes the current time, and a stop that reads as an earlier time is
      kept. */
  lemma LoadTimesCanReverse(now: EasyDate, stop: string, title: string)
    requires Normalised(now)
    requires FromXmltv(now, stop).ok && ToSeconds(FromXmltv(now, stop).date) < ToSeconds(now)
    ensures var p := LoadTimes(now, Some(""), Some(stop), Some(title));
      p.Some? && ToProg(p.value).stop < ToProg(p.value).start
  {
  }

  /** `setTimeZone` on one date: print the date in the zone `f`, keeping
      its wall clock; a zone out of range changes nothing. */
  function Retarget(d: EasyDate, f: int): (r: EasyDate)
    requires Normalised(d)
    ensures -43200 <= f <= 43200 ==> r.offUtc == f && Normalised(r)
    ensures -43200 <= f <= 43200 ==> ToSeconds(r) == ToSeconds(d) + d.offUtc - f
    ensures !(-43200 <= f <= 43200) ==> r == d
  {
    var tz := d.offUtc;
    var o := SetOffUtc(d, f);
    if o.ok then
      var a := SetSec(o.date, o.date.sec + tz).date;
      SetSec(a, a.sec - f).date
    else d
  }

  /** Retargeting keeps the wall clock: the local time before and after
      compares equal, and only the printed offset changes. */
  lemma RetargetKeepsWallClock(d: EasyDate, f: int)
    requires Normalised(d) && -43200 <= f <= 43200
    ensures Eq(GetLocalTime(Retarget(d, f)), GetLocalTime(d))
  {
    CompareBySeconds(GetLocalTime(Retarget(d, f)), GetLocalTime(d));
  }

  /** `Program::setTimeZone`. */
  function SetTimeZone(p: Program, f: int): (r: Program)
    requires Normalised(p.start) && Normalised(p.stop)
    ensures r.name == p.name && Normalised(r.start) && Normalised(r.stop)
  {
    Program(Retarget(p.start, f), Retarget(p.stop, f), p.name)
  }

  /** Both ends move by the difference of the two zones, so the programme
      keeps its length. */
  lemma SetTimeZoneKeepsLength(p: Program, f: int)
    requires Normalised(p.start) && Normalised(p.stop) && p.start.offUtc == p.stop.offUtc
    ensures var r := SetTimeZone(p, f);
      ToSeconds(r.stop) - ToSeconds(r.start) == ToSeconds(p.stop) - ToSeconds(p.start)
  {
  }

  /** `Program::offsetTime`. */
  function OffsetTime(p: Program, k: int): (r: Program)
    requires Normalised(p.start) && Normalised(p.stop)
    ensures r.name == p.name && Normalised(r.start) && Normalised(r.stop)
    ensures ToSeconds(r.start) == ToSeconds(p.start) + k
    ensures ToSeconds(r.stop) == ToSeconds(p.stop) + k
    ensures r.start.offUtc == p.start.offUtc && r.stop.offUtc == p.stop.offUtc
  {
    Program(SetSec(p.start, p.start.sec + k).date, SetSec(p.stop, p.stop.sec + k).date, p.name)
  }

  // ---------------------------------------------------------------------
  // Merging the programmes of a day

  /** The programme as a period in seconds since 1 January 2000. */
  function ToProg(p: Program): (r: Prog)
    requires Normalised(p.start) && Normalised(p.stop)
    ensures r.name == p.name
  {
    Prog(ToSeconds(p.start), ToSeconds(p.stop), p.name)
  }

  /** The comparisons `addProgram` makes on dates are the comparisons of
      the periods in seconds. */
  lemma ClashInSeconds(p: Program, e: Program)
    requires Normalised(p.start) && Normalised(p.stop) && Normalised(e.start) && Normalised(e.stop)
    ensures ClashWith(ToProg(p), ToProg(e)) == ClashOfDates(p, e)
  {
    CompareBySeconds(p.start, e.start);
    CompareBySeconds(p.stop, e.stop);
    CompareBySeconds(p.start, e.stop);
    CompareBySeconds(p.stop, e.start);
  }

  /** The clash tests of `addProgram` written on the dates, with the
      operators of `EasyDate`: the four `if` conditions in full, in the
      order the source tries them. */
  function ClashOfDates(p: Program, e: Program): Clash {
    if GreaterEq(p.start, e.start) && LessEq(p.stop, e.stop) then Inside
    else if Less(p.start, e.start) && Greater(p.stop, e.stop) then Straddles
    else if GreaterEq(p.start, e.start) && Less(p.start, e.stop) && Greater(p.stop, e.stop) then StartTaken
    else if Less(p.start, e.start) && Greater(p.stop, e.start) && LessEq(p.stop, e.stop) then StopTaken
    else Apart
  }

  /** A `<programme>` element of a guide file: its start and stop
      attributes and the text of its title child, when present. */
  datatype Element = Element(start: Option<string>, stop: Option<string>, title: Option<string>)

  /** One element merged into the schedule. An element without its times
      or title is skipped, as the source does; a programme whose times run
      backwards is skipped as well, which the source does not do. */
  function MergeElement(ps: seq<Prog>, x: Element, now: EasyDate): (r: seq<Prog>)
    requires Forward(ps) && Normalised(now)
    ensures Forward(r) && |r| >= |ps|
    ensures multiset(ps) <= multiset(r)
  {
    match LoadTimes(now, x.start, x.stop, x.title)
    case None => ps
    case Some(p) =>
      var q := ToProg(p);
      if q.stop < q.start then ps
      else
        AddProgramGrows(ps, q);
        AddProgram(ps, q)
  }

  /** The element, when it loads, ends strictly after it starts. */
  predicate TakesTime(x: Element, now: EasyDate)
    requires Normalised(now)
  {
    var p := LoadTimes(now, x.start, x.stop, x.title);
    p.Some? ==> ToSeconds(p.value.start) < ToSeconds(p.value.stop)
  }

  /** A valid schedule stays valid when an element that takes time is
      merged. */
  lemma MergeElementValid(ps: seq<Prog>, x: Element, now: EasyDate)
    requires Valid(ps) && Normalised(now) && TakesTime(x, now)
    ensures Valid(MergeElement(ps, x, now))
  {
    var p := LoadTimes(now, x.start, x.stop, x.title);
    if p.Some? {
      AddProgramValid(ps, ToProg(p.value));
    }
  }

  /** The elements of one guide file, in document order. */
  function MergeAll(ps: seq<Prog>, xs: seq<Element>, now: EasyDate): (r: seq<Prog>)
    requires Forward(ps) && Normalised(now)
    ensures Forward(r) && |r| >= |ps|
    ensures multiset(ps) <= multiset(r)
    decreases |xs|
  {
    if |xs| == 0 then ps else MergeAll(MergeElement(ps, xs[0], now), xs[1..], now)
  }

  /** Every element of a guide file that loads takes time. */
  predicate AllTakeTime(xs: seq<Element>, now: EasyDate)
    requires Normalised(now)
  {
    forall i :: 0 <= i < |xs| ==> TakesTime(xs[i], now)
  }

  /** A valid schedule stays valid through a whole guide file whose
      elements take time. */
  lemma {:induction false} MergeAllValid(ps: seq<Prog>, xs: seq<Element>, now: EasyDate)
    requires Valid(ps) && Normalised(now) && AllTakeTime(xs, now)
    ensures Valid(MergeAll(ps, xs, now))
    decreases |xs|
  {
    if |xs| > 0 {
      MergeElementValid(ps, xs[0], now);
      assert AllTakeTime(xs[1..], now) by {
        forall i | 0 <= i < |xs[1..]|
          ensures TakesTime(xs[1..][i], now)
        {
          assert xs[1..][i] == xs[i + 1];
        }
      }
      MergeAllValid(MergeElement(ps, xs[0], now), xs[1..], now);
    }
  }

  // ---------------------------------------------------------------------
  // fetchGuideData

  predicate InWindow(day: string, first: string, last: string) {
    StrLessEq(first, day) && StrLessEq(day, last)
  }

  /** The URI of the guide file of a day. */
  function Uri(id: string, day: string): string {
    id + "_" + day + ".xml.gz"
  }

  /** What the cache and the network hold for one URI. */
  datatype DayEnv = DayEnv(
    headerFile: Option<string>,       // the cached header file, if it opens
    fetchOk: bool,                    // what `fetchFile` returns for it
    contents: Option<seq<Element>>)   // the children of the guide file's `/tv` root, `None` when it cannot be read

  /** A URI nothing is known about. */
  const Absent := DayEnv(None, false, None)

  function EnvOf(env: map<string, DayEnv>, uri: string): DayEnv {
    if uri in env then env[uri] else Absent
  }

  /** The skip test of `fetchGuideData`: the header file of the cached copy
      opens, the catalogue's token reads as an XMLTV date, the cached
      Last-Modified header (or "" when it is absent) reads as an RFC 822
      date, and the two dates compare equal. Both date objects start at
      `now`. */
  predicate CacheValid(headerFile: Option<string>, token: string, now: EasyDate) {
    match GetHeader(headerFile, "Last-Modified", "")
    case None => false
    case Some(fileDate) =>
      var data := FromXmltv(now, token);
      var file := FromRfc822(now, fileDate);
      data.ok && file.ok && Eq(file.date, data.date)
  }

  /** A day of the window: the URI of its file and whether it has to be
      fetched. */
  datatype Job = Job(uri: string, fetch: bool)

  /** The job for a day of the source. */
  function JobFor(src: Source, day: string, env: map<string, DayEnv>, now: EasyDate): Job {
    var uri := Uri(src.id, day);
    Job(uri, !CacheValid(EnvOf(env, uri).headerFile, GetLastModified(src, day), now))
  }

  /** The days of the source within the window, in catalogue order. */
  function Jobs(src: Source, first: string, last: string, env: map<string, DayEnv>, now: EasyDate): (r: seq<Job>)
    ensures |r| <= |src.dataFor|
    ensures forall day :: day in src.dataFor && InWindow(day, first, last) ==> JobFor(src, day, env, now) in r
    ensures forall j :: j in r ==>
      (exists day :: day in src.dataFor && InWindow(day, first, last) && j == JobFor(src, day, env, now))
    decreases |src.dataFor|
  {
    if |src.dataFor| == 0 then []
    else
      var day := src.dataFor[0];
      var tail := src.(dataFor := src.dataFor[1..]);
      var rest := Jobs(tail, first, last, env, now);
      JobsCons(src, tail, first, last, env, now, rest);
      (if InWindow(day, first, last) then [JobFor(src, day, env, now)] else []) + rest
  }

  /** The jobs of two runs of days are the jobs of the first run followed
      by the jobs of the second: `Jobs` keeps the catalogue order and gives
      each entry its own job. */
  lemma {:induction false} JobsAppend(src: Source, a: seq<string>, b: seq<string>, first: string, last: string,
                                      env: map<string, DayEnv>, now: EasyDate)
    ensures Jobs(src.(dataFor := a + b), first, last, env, now)
      == Jobs(src.(dataFor := a), first, last, env, now) + Jobs(src.(dataFor := b), first, last, env, now)
    decreases |a|
  {
    if |a| == 0 {
      assert a + b == b;
    } else {
      var head := DayJobs(src, a[0], first, last, env, now);
      var rest := Jobs(src.(dataFor := a[1..]), first, last, env, now);
      var more := Jobs(src.(dataFor := b), first, last, env, now);
      assert (a + b)[0] == a[0] && (a + b)[1..] == a[1..] + b;
      JobsStep(src, a + b, first, last, env, now);
      JobsStep(src, a, first, last, env, now);
      JobsAppend(src, a[1..], b, first, last, env, now);
      assert head + (rest + more) == (head + rest) + more;
    }
  }

  /** The jobs one catalogue day contributes. */
  function DayJobs(src: Source, day: string, first: string, last: string, env: map<string, DayEnv>, now: EasyDate)
    : seq<Job>
  {
    if InWindow(day, first, last) then [JobFor(src, day, env, now)] else []
  }

  /** `Jobs` on a non-empty list of days: the first day's job, when it is
      in the window, then the jobs of the others. */
  lemma JobsStep(src: Source, days: seq<string>, first: string, last: string, env: map<string, DayEnv>, now: EasyDate)
    requires |days| > 0
    ensures Jobs(src.(dataFor := days), first, last, env, now)
      == DayJobs(src, days[0], first, last, env, now) + Jobs(src.(dataFor := days[1..]), first, last, env, now)
  {
    assert src.(dataFor := days).(dataFor := days[1..]) == src.(dataFor := days[1..]);
  }

  /** One catalogue entry gives its own job when it is inside the window
      and nothing otherwise. */
  lemma JobsOne(src: Source, day: string, first: string, last: string, env: map<string, DayEnv>, now: EasyDate)
    ensures Jobs(src.(dataFor := [day]), first, last, env, now)
      == if InWindow(day, first, last) then [JobFor(src, day, env, now)] else []
  {
    assert src.(dataFor := [day]).(dataFor := [day][1..]) == src.(dataFor := []);
  }

  /** The jobs of the first day put in front of the jobs of the others are
      the jobs of all the days. */
  lemma JobsCons(src: Source, tail: Source, first: string, last: string, env: map<string, DayEnv>, now: EasyDate,
                 rest: seq<Job>)
    requires |src.dataFor| > 0 && tail == src.(dataFor := src.dataFor[1..])
    requires forall day :: day in tail.dataFor && InWindow(day, first, last) ==> JobFor(tail, day, env, now) in rest
    requires forall j :: j in rest ==>
      (exists day :: day in tail.dataFor && InWindow(day, first, last) && j == JobFor(tail, day, env, now))
    ensures var d0 := src.dataFor[0];
      var r := (if InWindow(d0, first, last) then [JobFor(src, d0, env, now)] else []) + rest;
      (forall day :: day in src.dataFor && InWindow(day, first, last) ==> JobFor(src, day, env, now) in r)
      && (forall j :: j in r ==>
            (exists day :: day in src.dataFor && InWindow(day, first, last) && j == JobFor(src, day, env, now)))
  {
    assert src.dataFor == [src.dataFor[0]] + tail.dataFor;
    assert forall d :: JobFor(tail, d, env, now) == JobFor(src, d, env, now);
  }

  /** The cache is valid exactly when the header file opens and both
      dates parse and denote the same instant, whatever offsets they were
      written with. */
  lemma CacheValidMeans(headerFile: Option<string>, token: string, now: EasyDate)
    requires Normalised(now)
    ensures CacheValid(headerFile, token, now) <==>
      headerFile.Some?
      && var fileDate := GetHeader(headerFile, "Last-Modified", "").value;
      var data := FromXmltv(now, token);
      var file := FromRfc822(now, fileDate);
      data.ok && file.ok && ToSeconds(file.date) == ToSeconds(data.date)
  {
    if headerFile.Some? {
      var fileDate := GetHeader(headerFile, "Last-Modified", "").value;
      SameInstant(FromXmltv(now, token), FromRfc822(now, fileDate));
    }
  }

  lemma SameInstant(data: Outcome, file: Outcome)
    requires data.ok ==> WellFormed(data.date)
    requires file.ok ==> WellFormed(file.date)
    ensures data.ok && file.ok && Eq(file.date, data.date) <==>
      data.ok && file.ok && ToSeconds(file.date) == ToSeconds(data.date)
  {
    if data.ok && file.ok {
      CompareBySeconds(file.date, data.date);
    }
  }

  /** One day: fetch unless the cache is valid, then merge the file.
      `None` when the fetch or the read fails, which ends the run. */
  function RunJob(ps: seq<Prog>, j: Job, env: map<string, DayEnv>, now: EasyDate): (r: Option<seq<Prog>>)
    requires Forward(ps) && Normalised(now)
    ensures r.Some? ==> Forward(r.value) && |r.value| >= |ps| && multiset(ps) <= multiset(r.value)
    ensures r.None? <==> (j.fetch && !EnvOf(env, j.uri).fetchOk) || EnvOf(env, j.uri).contents.None?
  {
    var e := EnvOf(env, j.uri);
    if j.fetch && !e.fetchOk then None
    else match e.contents
      case None => None
      case Some(xs) => Some(MergeAll(ps, xs, now))
  }

  /** The days in order; the schedule so far is kept when a day fails,
      together with `false`. */
  function RunJobs(ps: seq<Prog>, js: seq<Job>, env: map<string, DayEnv>, now: EasyDate): (r: (seq<Prog>, bool))
    requires Forward(ps) && Normalised(now)
    ensures Forward(r.0) && |r.0| >= |ps|
    ensures multiset(ps) <= multiset(r.0)
    decreases |js|
  {
    if |js| == 0 then (ps, true)
    else match RunJob(ps, js[0], env, now)
      case None => (ps, false)
      case Some(ps') => RunJobs(ps', js[1..], env, now)
  }

  /** Running two lists of days one after the other is running them as one
      list: a failure in the first ends the whole run. */
  lemma {:induction false} RunJobsAppend(ps: seq<Prog>, a: seq<Job>, b: seq<Job>, env: map<string, DayEnv>, now: EasyDate)
    requires Forward(ps) && Normalised(now)
    ensures var ra := RunJobs(ps, a, env, now);
      RunJobs(ps, a + b, env, now) == if ra.1 then RunJobs(ra.0, b, env, now) else ra
    decreases |a|
  {
    if |a| > 0 {
      assert (a + b)[0] == a[0] && (a + b)[1..] == a[1..] + b;
      match RunJob(ps, a[0], env, now)
      case None =>
      case Some(ps') => RunJobsAppend(ps', a[1..], b, env, now);
    } else {
      assert a + b == b;
    }
  }

  /** Every guide file the cache or the network holds takes time. */
  predicate EnvTakesTime(env: map<string, DayEnv>, now: EasyDate)
    requires Normalised(now)
  {
    forall uri :: uri in env && env[uri].contents.Some? ==> AllTakeTime(env[uri].contents.value, now)
  }

  /** A valid schedule stays valid through a run of days whose guide files
      take time, whether or not a day fails. */
  lemma {:induction false} RunJobsValid(ps: seq<Prog>, js: seq<Job>, env: map<string, DayEnv>, now: EasyDate)
    requires Valid(ps) && Normalised(now) && EnvTakesTime(env, now)
    ensures Valid(RunJobs(ps, js, env, now).0)
    decreases |js|
  {
    if |js| > 0 {
      var e := EnvOf(env, js[0].uri);
      match RunJob(ps, js[0], env, now)
      case None =>
      case Some(ps') =>
        MergeAllValid(ps, e.contents.value, now);
        RunJobsValid(ps', js[1..], env, now);
    }
  }

  /** `fetchGuideData`: the primary days of the window, then the fill-in
      days, merged into the channel's schedule. */
  function FetchGuideData(c: Channel, first: string, last: string, env: map<string, DayEnv>, now: EasyDate): (r: (seq<Prog>, bool))
    requires Forward(c.programs) && Normalised(now)
    ensures Forward(r.0) && |r.0| >= |c.programs|
    ensures multiset(c.programs) <= multiset(r.0)
  {
    var primary := RunJobs(c.programs, Jobs(c.oztivo, first, last, env, now), env, now);
    if !primary.1 then primary
    else RunJobs(primary.0, Jobs(c.fillin, first, last, env, now), env, now)
  }

  /** Every primary day is merged before any fill-in day: the run is one
      pass over the primary days followed by the fill-in days. */
  lemma PrimaryBeforeFillin(c: Channel, first: string, last: string, env: map<string, DayEnv>, now: EasyDate)
    requires Forward(c.programs) && Normalised(now)
    ensures FetchGuideData(c, first, last, env, now)
      == RunJobs(c.programs, Jobs(c.oztivo, first, last, env, now) + Jobs(c.fillin, first, last, env, now), env, now)
  {
    RunJobsAppend(c.programs, Jobs(c.oztivo, first, last, env, now), Jobs(c.fillin, first, last, env, now), env, now);
  }

  /** The channel's schedule stays sorted and non-overlapping through the
      whole fetch when every guide file takes time. */
  lemma FetchGuideDataValid(c: Channel, first: string, last: string, env: map<string, DayEnv>, now: EasyDate)
    requires Valid(c.programs) && Normalised(now) && EnvTakesTime(env, now)
    ensures Valid(FetchGuideData(c, first, last, env, now).0)
  {
    var primary := RunJobs(c.programs, Jobs(c.oztivo, first, last, env, now), env, now);
    RunJobsValid(c.programs, Jobs(c.oztivo, first, last, env, now), env, now);
    if primary.1 {
      RunJobsValid(primary.0, Jobs(c.fillin, first, last, env, now), env, now);
    }
  }
}

=== FILE: cmdoptions.dfy ===
/** The command-line option registry. */
module CmdOptions {
  // Options are registered in order, turned into the short-option string
  // and the long-option table that `getopt_long` reads, described in the
  // help text, and acted on when a short option is seen. What an option's
  // pointer refers to (a flag, an argument slot, a method) is a `Target`;
  // `getopt_long` itself is not part of this model.

  import opened Wrappers
  import opened CText

  /** Which of the three pointers of an option is set; each `add...Option`
      sets exactly one. */
  datatype Kind = Switch | Argument | Method

  /** A registered option. A short letter of `'\0'` means none; a long name
      of `None` is a null pointer. */
  datatype CmdOption = CmdOption(short: char, long: Option<string>, description: string, kind: Kind)

  /** The registry: the options in registration order and the counter the
      option tables are sized by. */
  datatype Parser = Parser(options: seq<CmdOption>, numOptions: nat)

  const NewParser := Parser([], 0)

  /** The counter agrees with the list. */
  predicate Counted(p: Parser) {
    p.numOptions == |p.options|
  }

  // ---------------------------------------------------------------------
  // Registration

  /** `addOption`: the option goes at the tail and the counter goes up by
      one. */
  function AddOption(p: Parser, o: CmdOption): (r: Parser)
    ensures |r.options| == |p.options| + 1 && r.options[|p.options|] == o
    ensures r.options[..|p.options|] == p.options
    ensures r.numOptions == p.numOptions + 1
    ensures Counted(p) ==> Counted(r)
  {
    Parser(p.options + [o], p.numOptions + 1)
  }

  function AddSwitchOption(p: Parser, short: char, long: Option<string>, description: string): (r: Parser)
    ensures |r.options| == |p.options| + 1 && r.options[|p.options|] == CmdOption(short, long, description, Switch)
  {
    AddOption(p, CmdOption(short, long, description, Switch))
  }

  function AddArgumentOption(p: Parser, short: char, long: Option<string>, description: string): (r: Parser)
    ensures |r.options| == |p.options| + 1 && r.options[|p.options|] == CmdOption(short, long, description, Argument)
  {
    AddOption(p, CmdOption(short, long, description, Argument))
  }

  function AddMethodOption(p: Parser, short: char, long: Option<string>, description: string): (r: Parser)
    ensures |r.options| == |p.options| + 1 && r.options[|p.options|] == CmdOption(short, long, description, Method)
  {
    AddOption(p, CmdOption(short, long, description, Method))
  }

  /** Options registered one after another. */
  function AddOptions(p: Parser, os: seq<CmdOption>): Parser
    decreases |os|
  {
    if |os| == 0 then p else AddOptions(AddOption(p, os[0]), os[1..])
  }

  /** Registration keeps its order and counts every option. */
  lemma {:induction false} RegistrationOrder(p: Parser, os: seq<CmdOption>)
    ensures AddOptions(p, os).options == p.options + os
    ensures AddOptions(p, os).numOptions == p.numOptions + |os|
    decreases |os|
  {
    if |os| > 0 {
      RegistrationOrder(AddOption(p, os[0]), os[1..]);
      assert p.options + [os[0]] + os[1..] == p.options + os;
    }
  }

  // ---------------------------------------------------------------------
  // The option tables

  /** The options that have a short letter, as `getopt_long` is told of
      them: the letter and whether it takes an argument. */
  function Shorts(opts: seq<CmdOption>): seq<(char, bool)>
    decreases |opts|
  {
    if |opts| == 0 then []
    else (if opts[0].short != '\0' then [(opts[0].short, opts[0].kind.Argument?)] else []) + Shorts(opts[1..])
  }

  /** `getShortOptions`: each short letter in registration order, followed
      by ':' for an argument option. */
  function ShortOptions(opts: seq<CmdOption>): (r: string)
    ensures |r| <= 2 * |opts|
    ensures '\0' !in r
    decreases |opts|
  {
    if |opts| == 0 then ""
    else
      var o := opts[0];
      (if o.short != '\0' then [o.short] + (if o.kind.Argument? then ":" else "") else "")
      + ShortOptions(opts[1..])
  }

  /** How `getopt` reads a short-option string: a letter, and a ':' after
      it when it takes an argument. */
  function ReadShortOptions(s: string): seq<(char, bool)>
    decreases |s|
  {
    if |s| == 0 then []
    else if |s| >= 2 && s[1] == ':' then [(s[0], true)] + ReadShortOptions(s[2..])
    else [(s[0], false)] + ReadShortOptions(s[1..])
  }

  /** The short-option string tells `getopt` exactly the short letters and
      which of them take an argument, provided no letter is ':' itself. */
  lemma {:induction false} ShortOptionsRead(opts: seq<CmdOption>)
    requires forall i :: 0 <= i < |opts| ==> opts[i].short != ':'
    ensures ReadShortOptions(ShortOptions(opts)) == Shorts(opts)
    decreases |opts|
  {
    if |opts| > 0 {
      var o := opts[0];
      var rest := ShortOptions(opts[1..]);
      ShortOptionsRead(opts[1..]);
      if o.short == '\0' {
        assert ShortOptions(opts) == rest;
        assert Shorts(opts) == Shorts(opts[1..]);
      } else {
        if o.kind.Argument? {
          assert ShortOptions(opts) == [o.short, ':'] + rest;
          assert ([o.short, ':'] + rest)[2..] == rest;
          assert ReadShortOptions([o.short, ':'] + rest) == [(o.short, true)] + ReadShortOptions(rest);
          assert Shorts(opts) == [(o.short, true)] + Shorts(opts[1..]);
        } else {
          assert ShortOptions(opts) == [o.short] + rest;
          assert ([o.short] + rest)[1..] == rest;
          assert ReadShortOptions([o.short] + rest) == [(o.short, false)] + ReadShortOptions(rest) by {
            if |rest| > 0 {
              ShortOptionsHead(opts[1..]);
            }
          }
          assert Shorts(opts) == [(o.short, false)] + Shorts(opts[1..]);
        }
      }
    }
  }

  /** The short-option string never starts with ':' when no letter is
      ':'. */
  lemma {:induction false} ShortOptionsHead(opts: seq<CmdOption>)
    requires forall i :: 0 <= i < |opts| ==> opts[i].short != ':'
    requires |ShortOptions(opts)| > 0
    ensures ShortOptions(opts)[0] != ':'
    decreases |opts|
  {
    if opts[0].short == '\0' {
      assert ShortOptions(opts) == ShortOptions(opts[1..]);
      ShortOptionsHead(opts[1..]);
    }
  }

  /** The `has_arg` values of `getopt.h`. */
  const NoArgument := 0
  const RequiredArgument := 1

  /** An entry of the long-option table: the name, `has_arg`, the option
      whose `m_flag` is set when it is seen (by position), and `val`. */
  datatype LongEntry = LongEntry(name: Option<string>, hasArg: int, flag: Option<nat>, val: int)

  /** The all-zero entry that ends the table. */
  const EndOfTable := LongEntry(None, 0, None, 0)

  /** An entry `getopt_long` acts on: a named option of the registry, with
      `has_arg` telling whether it takes an argument. */
  predicate Describes(opts: seq<CmdOption>, e: LongEntry) {
    e.name.Some? && e.flag.Some? && e.flag.value < |opts| && e.val == 1
    && opts[e.flag.value].long == e.name
    && e.hasArg == (if opts[e.flag.value].kind.Argument? then RequiredArgument else NoArgument)
  }

  /** The position of the option an entry sets, or -1 for none. */
  function Slot(e: LongEntry): int {
    if e.flag.Some? then e.flag.value else -1
  }

  /** The entries for the options from position `k` on. */
  function LongEntries(opts: seq<CmdOption>, k: nat): (r: seq<LongEntry>)
    requires k <= |opts|
    ensures |r| <= |opts| - k
    ensures forall j :: 0 <= j < |r| ==> Describes(opts, r[j]) && k <= Slot(r[j])
    ensures forall j, j' :: 0 <= j < j' < |r| ==> Slot(r[j]) < Slot(r[j'])
    decreases |opts| - k
  {
    if k == |opts| then []
    else
      var o := opts[k];
      var rest := LongEntries(opts, k + 1);
      if o.long.Some? then
        var e := LongEntry(o.long, if o.kind.Argument? then RequiredArgument else NoArgument, Some(k), 1);
        var r := [e] + rest;
        assert forall j :: 0 < j < |r| ==> r[j] == rest[j - 1];
        r
      else rest
  }

  /** Every named option from position `k` on has its entry. */
  lemma {:induction false} LongEntriesCover(opts: seq<CmdOption>, k: nat, i: nat)
    requires k <= i < |opts| && opts[i].long.Some?
    ensures exists j :: 0 <= j < |LongEntries(opts, k)| && LongEntries(opts, k)[j].flag == Some(i)
    decreases |opts| - k
  {
    var r := LongEntries(opts, k);
    if i == k {
      assert r[0].flag == Some(k);
    } else {
      LongEntriesCover(opts, k + 1, i);
      var rest := LongEntries(opts, k + 1);
      var j :| 0 <= j < |rest| && rest[j].flag == Some(i);
      if opts[k].long.Some? {
        assert r[j + 1] == rest[j];
      } else {
        assert r[j] == rest[j];
      }
    }
  }

  /** `getLongOptions`: one entry per option with a long name, in
      registration order, then the end of the table. */
  function LongOptions(opts: seq<CmdOption>): (r: seq<LongEntry>)
    ensures 0 < |r| <= |opts| + 1 && r[|r| - 1] == EndOfTable
    ensures forall j :: 0 <= j < |r| - 1 ==> Describes(opts, r[j])
    ensures forall i :: 0 <= i < |opts| && opts[i].long.Some? ==> exists j :: 0 <= j < |r| - 1 && r[j].flag == Some(i)
    ensures forall j, j' :: 0 <= j < j' < |r| - 1 ==> Slot(r[j]) < Slot(r[j'])
  {
    var es := LongEntries(opts, 0);
    var r := es + [EndOfTable];
    assert forall j :: 0 <= j < |es| ==> r[j] == es[j];
    assert forall i :: 0 <= i < |opts| && opts[i].long.Some? ==> exists j :: 0 <= j < |r| - 1 && r[j].flag == Some(i) by {
      forall i | 0 <= i < |opts| && opts[i].long.Some?
        ensures exists j :: 0 <= j < |r| - 1 && r[j].flag == Some(i)
      {
        LongEntriesCover(opts, 0, i);
        var j :| 0 <= j < |es| && es[j].flag == Some(i);
        assert r[j] == es[j];
      }
    }
    r
  }

  /** Both tables fit the buffers `getShortOptions` and `getLongOptions`
      allocate from the counter: `2n + 1` characters with the terminating
      NUL, and `n + 1` entries. */
  lemma TablesFit(p: Parser)
    requires Counted(p)
    ensures |ShortOptions(p.options)| + 1 <= 2 * p.numOptions + 1
    ensures |LongOptions(p.options)| <= p.numOptions + 1
  {
  }

  // ---------------------------------------------------------------------
  // Help text

  /** `writeCmdHelp`'s argument placeholder: the description from its first
      '<' to the first '>' after it, both included, or "<ARG>" when there
      is no such pair. */
  function Placeholder(description: string): (r: string)
    ensures |r| >= 2 && r[0] == '<' && r[|r| - 1] == '>' && '>' !in r[..|r| - 1]
    ensures '<' !in description ==> r == "<ARG>"
    ensures forall a :: 0 <= a < |description| && description[a] == '<' && '<' !in description[..a] ==>
      ('>' in description[a..] ==> r <= description[a..]) && ('>' !in description[a..] ==> r == "<ARG>")
  {
    match FindChar(description, '<', 0)
    case None => "<ARG>"
    case Some(a) =>
      match FindChar(description, '>', a)
      case None => "<ARG>"
      case Some(b) =>
        assert description[a..b + 1][..b - a] == description[a..b];
        description[a..b + 1]
  }

  /** A description naming its argument yields that name. */
  lemma PlaceholderFound(pre: string, inner: string, post: string)
    requires '<' !in pre && '>' !in inner
    ensures Placeholder(pre + "<" + inner + ">" + post) == "<" + inner + ">"
  {
    var d := pre + "<" + inner + ">" + post;
    var a := |pre|;
    var b := |pre| + 1 + |inner|;
    assert d[a] == '<';
    assert forall k :: 0 <= k < a ==> d[k] == pre[k];
    assert FindChar(d, '<', 0) == Some(a);
    assert d[b] == '>';
    assert forall k :: a <= k < b ==> d[k] != '>' by {
      forall k | a <= k < b ensures d[k] != '>' {
        if k > a {
          assert d[k] == inner[k - a - 1];
        }
      }
    }
    assert FindChar(d, '>', a) == Some(b);
    assert d[a..b + 1] == "<" + inner + ">";
  }

  /** The last space among `d[lo..hi]`. */
  function LastSpace(d: string, lo: nat, hi: nat): (r: Option<nat>)
    requires lo <= hi <= |d|
    ensures r.Some? ==> lo <= r.value < hi && d[r.value] == ' '
    ensures r.Some? ==> forall k :: r.value < k < hi ==> d[k] != ' '
    ensures r.None? ==> (forall k :: lo <= k < hi ==> d[k] != ' ')
    decreases hi
  {
    if hi == lo then None
    else if d[hi - 1] == ' ' then Some(hi - 1)
    else LastSpace(d, lo, hi - 1)
  }

  /** The width of a help line, not counting its indent. */
  const Width := 70

  /** One line of the wrap, starting at `p1`: where it ends and where the
      next one starts. The window is the next 70 characters; when text
      remains after it, the line ends at the window's last space, or at
      the window's end when it has none. One space at the break is
      dropped. */
  function BreakAt(d: string, p1: nat): (r: (nat, nat))
    requires p1 < |d|
    ensures p1 <= r.0 <= r.1 <= |d| && p1 < r.1 && r.0 - p1 <= Width
    ensures r.1 == r.0 || (r.1 == r.0 + 1 && d[r.0] == ' ')
    ensures r.0 < |d| && d[r.0] == ' ' ==> r.1 == r.0 + 1
    ensures r.0 < |d| && r.0 < p1 + Width ==>
      p1 + Width < |d| && d[r.0] == ' ' && forall k :: r.0 < k < p1 + Width ==> d[k] != ' '
    ensures r.0 < |d| && d[r.0] != ' ' ==>
      r.0 == p1 + Width && forall k :: p1 <= k < p1 + Width ==> d[k] != ' '
    ensures r.0 == p1 + Width < |d| ==> forall k :: p1 <= k < p1 + Width ==> d[k] != ' '
    ensures |d| <= p1 + Width ==> r.0 == |d|
  {
    var e := if p1 + Width < |d| then p1 + Width else |d|;
    var p2 :=
      match LastSpace(d, p1, e)
      case Some(sp) => if e < |d| then sp else e
      case None => e;
    (p2, if p2 < |d| && d[p2] == ' ' then p2 + 1 else p2)
  }

  /** The lines of a description from `p1`, each with the text dropped
      after it ("" or one space). */
  function WrapFrom(d: string, p1: nat): (r: seq<(string, string)>)
    requires p1 <= |d|
    ensures forall k :: 0 <= k < |r| ==> |r[k].0| <= Width && (r[k].1 == "" || r[k].1 == " ")
    decreases |d| - p1
  {
    if p1 == |d| then []
    else
      var b := BreakAt(d, p1);
      var rest := WrapFrom(d, b.1);
      var r := [(d[p1..b.0], d[b.0..b.1])] + rest;
      assert forall k :: 0 < k < |r| ==> r[k] == rest[k - 1];
      r
  }

  /** The lines `writeCmdHelp` prints for a description, before the
      eight-space indent. */
  function Wrap(d: string): (r: seq<string>)
    ensures forall k :: 0 <= k < |r| ==> |r[k]| <= Width
    ensures |r| == 0 <==> |d| == 0
  {
    var ls := WrapFrom(d, 0);
    seq(|ls|, k requires 0 <= k < |ls| => ls[k].0)
  }

  /** The lines with what was dropped after each put back. */
  function Glue(ls: seq<(string, string)>): string
    decreases |ls|
  {
    if |ls| == 0 then "" else ls[0].0 + ls[0].1 + Glue(ls[1..])
  }

  /** Wrapping loses nothing but the single spaces at the breaks: putting
      them back gives the description. */
  lemma {:induction false} WrapRoundTrip(d: string, p1: nat)
    requires p1 <= |d|
    ensures Glue(WrapFrom(d, p1)) == d[p1..]
    decreases |d| - p1
  {
    if p1 < |d| {
      var b := BreakAt(d, p1);
      WrapRoundTrip(d, b.1);
      var rest := WrapFrom(d, b.1);
      assert WrapFrom(d, p1) == [(d[p1..b.0], d[b.0..b.1])] + rest;
      GlueCons((d[p1..b.0], d[b.0..b.1]), rest);
      ThreeSlices(d, p1, b.0, b.1);
    }
  }

  lemma GlueCons(l: (string, string), rest: seq<(string, string)>)
    ensures Glue([l] + rest) == l.0 + l.1 + Glue(rest)
  {
    assert ([l] + rest)[1..] == rest;
  }

  lemma ThreeSlices(d: string, i: nat, j: nat, k: nat)
    requires i <= j <= k <= |d|
    ensures d[i..j] + d[j..k] + d[k..] == d[i..]
  {
  }

  /** A description that fits one line is printed as it is. */
  lemma ShortDescriptionOneLine(d: string)
    requires 0 < |d| <= Width
    ensures Wrap(d) == [d]
  {
    var b := BreakAt(d, 0);
    assert b == (|d|, |d|);
    assert WrapFrom(d, |d|) == [];
    assert d[0..|d|] == d;
  }

  // ---------------------------------------------------------------------
  // Acting on options

  /** What an option's pointer refers to: the flag (an `unsigned char`),
      the argument slot, and how often the method has been called. */
  datatype Target = Target(flag: int, arg: Option<string>, calls: nat)

  /** What seeing an option does to its target. */
  function Act(k: Kind, t: Target, optarg: string): (r: Target)
    ensures k.Switch? ==> r == t.(flag := (t.flag + 1) % 256)
    ensures k.Argument? ==> r == t.(arg := Some(optarg))
    ensures k.Method? ==> r == t.(calls := t.calls + 1)
  {
    match k
    case Switch => t.(flag := (t.flag + 1) % 256)
    case Argument => t.(arg := Some(optarg))
    case Method => t.(calls := t.calls + 1)
  }

  /** `processShortOptions`: every option with the letter acts, not only
      the first; the others are untouched. */
  function ProcessShortOptions(opts: seq<CmdOption>, ts: seq<Target>, c: char, optarg: string): (r: seq<Target>)
    requires |ts| == |opts|
    ensures |r| == |ts|
    ensures forall i :: 0 <= i < |ts| && opts[i].short != c ==> r[i] == ts[i]
    ensures forall i :: 0 <= i < |ts| && opts[i].short == c ==> r[i] == Act(opts[i].kind, ts[i], optarg)
    decreases |opts|
  {
    if |opts| == 0 then []
    else
      var t := if opts[0].short == c then Act(opts[0].kind, ts[0], optarg) else ts[0];
      var rest := ProcessShortOptions(opts[1..], ts[1..], c, optarg);
      var r := [t] + rest;
      assert forall i :: 0 < i < |r| ==> r[i] == rest[i - 1] && opts[i] == opts[1..][i - 1] && ts[i] == ts[1..][i - 1];
      r
  }

  /** The first option with the long name is reached without comparing
      against a null name. */
  predicate ComparableUpTo(opts: seq<CmdOption>, name: string) {
    forall i :: 0 <= i < |opts| && opts[i].long.None? ==>
      exists j :: 0 <= j < i && opts[j].long == Some(name)
  }

  /** The first option with the long name is at `i`. */
  predicate FirstLong(opts: seq<CmdOption>, name: string, i: int) {
    0 <= i < |opts| && opts[i].long == Some(name)
    && forall j :: 0 <= j < i ==> opts[j].long != Some(name)
  }

  /** `getSwitchValue`: the flag of the first option with the long name
      when it is a switch, and 0 when it is not or no option has the name. */
  function GetSwitchValue(opts: seq<CmdOption>, ts: seq<Target>, name: string): (r: int)
    requires |ts| == |opts| && ComparableUpTo(opts, name)
    ensures (forall i :: 0 <= i < |opts| ==> opts[i].long != Some(name)) ==> r == 0
    ensures forall i :: FirstLong(opts, name, i) ==> r == if opts[i].kind.Switch? then ts[i].flag else 0
    decreases |opts|
  {
    if |opts| == 0 then 0
    else if opts[0].long == Some(name) then
      assert forall i :: FirstLong(opts, name, i) ==> i == 0;
      if opts[0].kind.Switch? then ts[0].flag else 0
    else
      ComparableTail(opts, name);
      var r := GetSwitchValue(opts[1..], ts[1..], name);
      FirstLongTail(opts, ts, name);
      r
  }

  /** Past an option without the name, the rest is still comparable. */
  lemma ComparableTail(opts: seq<CmdOption>, name: string)
    requires |opts| > 0 && ComparableUpTo(opts, name) && opts[0].long != Some(name)
    ensures ComparableUpTo(opts[1..], name)
  {
    forall i | 0 <= i < |opts[1..]| && opts[1..][i].long.None?
      ensures exists j :: 0 <= j < i && opts[1..][j].long == Some(name)
    {
      var j :| 0 <= j < i + 1 && opts[j].long == Some(name);
      assert j > 0 && opts[1..][j - 1] == opts[j];
    }
  }

  /** Past an option without the name, the first option with it is one
      place further on in the rest. */
  lemma FirstLongTail(opts: seq<CmdOption>, ts: seq<Target>, name: string)
    requires |opts| > 0 && |ts| == |opts| && opts[0].long != Some(name)
    ensures forall i :: FirstLong(opts, name, i) ==>
      i > 0 && FirstLong(opts[1..], name, i - 1) && ts[i] == ts[1..][i - 1]
  {
  }

  /** Seeing the short letter of a switch counts once more in the value
      its long name reports, wrapping as an `unsigned char` does. */
  lemma SwitchCounts(opts: seq<CmdOption>, ts: seq<Target>, name: string, i: int, optarg: string)
    requires |ts| == |opts| && ComparableUpTo(opts, name) && FirstLong(opts, name, i)
    requires opts[i].kind.Switch?
    ensures GetSwitchValue(opts, ProcessShortOptions(opts, ts, opts[i].short, optarg), name)
      == (GetSwitchValue(opts, ts, name) + 1) % 256
  {
    var seen := ProcessShortOptions(opts, ts, opts[i].short, optarg);
    var a, b := ts[i], seen[i];
    assert b == Act(Switch, a, optarg);
    assert b.flag == (a.flag + 1) % 256;
    SwitchValueAt(opts, ts, name, i);
    SwitchValueAt(opts, seen, name, i);
    var before, after := GetSwitchValue(opts, ts, name), GetSwitchValue(opts, seen, name);
    assert before == a.flag && after == b.flag;
    assert after == (before + 1) % 256;
  }

  /** The value a switch's long name reports is the flag of its slot. */
  lemma SwitchValueAt(opts: seq<CmdOption>, ts: seq<Target>, name: string, i: int)
    requires |ts| == |opts| && ComparableUpTo(opts, name) && FirstLong(opts, name, i)
    requires opts[i].kind.Switch?
    ensures GetSwitchValue(opts, ts, name) == ts[i].flag
  {
  }
}

=== FILE: ctext.dfy ===
/** The pieces of `std::string` and `std::ostream` behaviour the program
    relies on: prefix tests, `find`, the lexicographic `operator<`, decimal
    output under `std::setw` and a stream fill character, and the
    digit-accumulation loops its hand-written parsers use. */
module CText {
  import opened Wrappers

  predicate StartsWith(s: string, prefix: string) {
    |prefix| <= |s| && s[..|prefix|] == prefix
  }

  predicate OccursAt(s: string, pat: string, k: nat) {
    k + |pat| <= |s| && s[k..k + |pat|] == pat
  }

  /** `s.find(c, from)`: the first index at or after `from` holding `c`. */
  function FindChar(s: string, c: char, from: nat): (r: Option<nat>)
    ensures r.Some? ==> from <= r.value < |s| && s[r.value] == c
    ensures r.Some? ==> forall k :: from <= k < r.value ==> s[k] != c
    ensures r.None? ==> forall k :: from <= k < |s| ==> s[k] != c
    decreases |s| - from
  {
    if from >= |s| then None
    else if s[from] == c then Some(from)
    else FindChar(s, c, from + 1)
  }

  /** `s.find(pat, from)`: the first index at or after `from` where `pat`
      occurs. */
  function FindSub(s: string, pat: string, from: nat): (r: Option<nat>)
    ensures r.Some? ==> from <= r.value && OccursAt(s, pat, r.value)
    ensures r.Some? ==> forall k :: from <= k < r.value ==> !OccursAt(s, pat, k)
    ensures r.None? ==> forall k :: from <= k ==> !OccursAt(s, pat, k)
    decreases |s| - from
  {
    if from + |pat| > |s| then None
    else if s[from..from + |pat|] == pat then Some(from)
    else FindSub(s, pat, from + 1)
  }

  /** The text before the first `c`, or all of `s` when there is none. */
  function CutAt(s: string, c: char): (r: string)
    ensures c !in r
    ensures StartsWith(s, r)
    ensures |r| < |s| ==> s[|r|] == c
  {
    match FindChar(s, c, 0)
    case Some(p) => s[..p]
    case None => s
  }

  /** The first `c` of `a + [c] + b`, when `a` has none, is the one after
      `a`. */
  lemma FindCharAfter(a: string, c: char, b: string)
    requires c !in a
    ensures FindChar(a + [c] + b, c, 0) == Some(|a|)
  {
    var s := a + [c] + b;
    assert s[|a|] == c;
    forall k | 0 <= k < |a|
      ensures s[k] != c
    {
      assert s[k] == a[k];
    }
  }

  lemma FindCharAbsent(a: string, c: char)
    requires c !in a
    ensures FindChar(a, c, 0).None?
  {
  }

  /** `CutAt` keeps what precedes the first `c` and drops the rest. */
  lemma CutAtFirst(a: string, c: char, b: string)
    requires c !in a
    ensures CutAt(a + [c] + b, c) == a
  {
    FindCharAfter(a, c, b);
    assert (a + [c] + b)[..|a|] == a;
  }

  lemma CutAtAbsent(a: string, c: char)
    requires c !in a
    ensures CutAt(a, c) == a
  {
  }

  /** `std::string::operator<`: lexicographic on characters, a proper
      prefix sorting first. */
  predicate StrLess(a: string, b: string)
    decreases |a|
  {
    if |a| == 0 then |b| > 0
    else if |b| == 0 then false
    else if a[0] != b[0] then a[0] < b[0]
    else StrLess(a[1..], b[1..])
  }

  predicate StrLessEq(a: string, b: string) {
    a == b || StrLess(a, b)
  }

  lemma {:induction false} StrLessIrreflexive(a: string)
    ensures !StrLess(a, a)
    decreases |a|
  {
    if |a| > 0 {
      StrLessIrreflexive(a[1..]);
    }
  }

  lemma {:induction false} StrLessTransitive(a: string, b: string, c: string)
    requires StrLess(a, b) && StrLess(b, c)
    ensures StrLess(a, c)
    decreases |a|
  {
    if |a| > 0 && a[0] == b[0] && b[0] == c[0] {
      StrLessTransitive(a[1..], b[1..], c[1..]);
    }
  }

  lemma {:induction false} StrLessTotal(a: string, b: string)
    requires a != b
    ensures StrLess(a, b) || StrLess(b, a)
    decreases |a|
  {
    if |a| > 0 && |b| > 0 && a[0] == b[0] {
      assert a == [a[0]] + a[1..] && b == [b[0]] + b[1..];
      StrLessTotal(a[1..], b[1..]);
    }
  }

  lemma {:induction false} StrLessAsymmetric(a: string, b: string)
    requires StrLess(a, b)
    ensures !StrLess(b, a)
    decreases |a|
  {
    if |a| > 0 && a[0] == b[0] {
      StrLessAsymmetric(a[1..], b[1..]);
    }
  }

  /** A common prefix does not change the order. */
  lemma {:induction false} StrLessCommonPrefix(p: string, a: string, b: string)
    ensures StrLess(p + a, p + b) <==> StrLess(a, b)
    decreases |p|
  {
    if |p| > 0 {
      assert (p + a)[1..] == p[1..] + a;
      assert (p + b)[1..] == p[1..] + b;
      StrLessCommonPrefix(p[1..], a, b);
    } else {
      assert p + a == a && p + b == b;
    }
  }

  /** A prefix never sorts after the text it starts. */
  lemma {:induction false} StrLessEqPrefix(a: string, x: string)
    ensures StrLessEq(a, a + x)
    decreases |a|
  {
    if |a| > 0 {
      assert (a + x)[1..] == a[1..] + x;
      StrLessEqPrefix(a[1..], x);
    } else {
      assert a + x == x;
    }
  }

  /** When `a` sorts before `b` at a differing character, anything
      appended to either side keeps the order. */
  lemma {:induction false} StrLessExtend(a: string, b: string, x: string, y: string)
    requires StrLess(a, b) && |a| == |b|
    ensures StrLess(a + x, b + y)
    decreases |a|
  {
    assert |a| > 0;
    if a[0] == b[0] {
      assert (a + x)[1..] == a[1..] + x;
      assert (b + y)[1..] == b[1..] + y;
      StrLessExtend(a[1..], b[1..], x, y);
    }
  }

  // ---------------------------------------------------------------------
  // Fixed layouts

  /** The pieces a stream writes, one after the other. */
  function Concat(ps: seq<string>): string
    decreases |ps|
  {
    if |ps| == 0 then [] else Concat(ps[..|ps| - 1]) + ps[|ps| - 1]
  }

  /** Where piece `k` starts in `Concat(ps)`. */
  function OffsetOf(ps: seq<string>, k: nat): nat
    requires k <= |ps|
  {
    if k == 0 then 0 else OffsetOf(ps, k - 1) + |ps[k - 1]|
  }

  lemma {:induction false} OffsetOfPrefix(ps: seq<string>, n: nat, k: nat)
    requires k <= n <= |ps|
    ensures OffsetOf(ps[..n], k) == OffsetOf(ps, k)
    decreases k
  {
    if k > 0 {
      OffsetOfPrefix(ps, n, k - 1);
    }
  }

  lemma {:induction false} ConcatLength(ps: seq<string>)
    ensures |Concat(ps)| == OffsetOf(ps, |ps|)
    decreases |ps|
  {
    if |ps| > 0 {
      var n := |ps| - 1;
      ConcatLength(ps[..n]);
      OffsetOfPrefix(ps, n, n);
    }
  }

  /** Piece `k` sits at its offset: a printed layout can be cut back into
      its fields. */
  lemma {:induction false} ConcatSlice(ps: seq<string>, k: nat)
    requires k < |ps|
    ensures OffsetOf(ps, k) + |ps[k]| <= |Concat(ps)|
    ensures Concat(ps)[OffsetOf(ps, k)..OffsetOf(ps, k) + |ps[k]|] == ps[k]
    decreases |ps|
  {
    var n := |ps| - 1;
    ConcatLength(ps[..n]);
    OffsetOfPrefix(ps, n, n);
    if k < n {
      ConcatSlice(ps[..n], k);
      OffsetOfPrefix(ps, n, k);
      OffsetOfPrefix(ps, n, k + 1);
      assert OffsetOf(ps, k) + |ps[k]| <= OffsetOf(ps, n) by {
        OffsetOfMonotone(ps, k + 1, n);
      }
    }
  }

  /** `ConcatSlice` at a known offset; a one-character piece is that
      character. */
  lemma PieceAt(ps: seq<string>, k: nat, off: nat)
    requires k < |ps| && OffsetOf(ps, k) == off
    ensures off + |ps[k]| <= |Concat(ps)| && Concat(ps)[off..off + |ps[k]|] == ps[k]
    ensures |ps[k]| == 1 ==> Concat(ps)[off] == ps[k][0]
  {
    ConcatSlice(ps, k);
    if |ps[k]| == 1 {
      assert Concat(ps)[off] == Concat(ps)[off..off + 1][0];
    }
  }

  lemma {:induction false} OffsetOfMonotone(ps: seq<string>, i: nat, j: nat)
    requires i <= j <= |ps|
    ensures OffsetOf(ps, i) <= OffsetOf(ps, j)
    decreases j - i
  {
    if i < j {
      OffsetOfMonotone(ps, i, j - 1);
    }
  }

  // ---------------------------------------------------------------------
  // Decimal output

  function Repeat(c: char, k: nat): (r: string)
    ensures |r| == k && forall i :: 0 <= i < k ==> r[i] == c
  {
    if k == 0 then [] else [c] + Repeat(c, k - 1)
  }

  function DigitChar(d: nat): char
    requires d < 10
  {
    ('0' as int + d) as char
  }

  /** The decimal digits of `n`, without leading zeros. */
  function Digits(n: nat): (r: string)
    ensures 1 <= |r|
    decreases n
  {
    if n < 10 then [DigitChar(n)] else Digits(n / 10) + [DigitChar(n % 10)]
  }

  /** `out << n`: a minus sign then the digits of the magnitude. */
  function IntToString(n: int): string {
    if n < 0 then "-" + Digits(-n) else Digits(n)
  }

  /** `out << std::setw(w) << n` with fill character `fill` and the default
      right alignment: the fill goes in front of the whole number. */
  function SetW(n: int, w: nat, fill: char): (r: string)
    ensures |IntToString(n)| <= w ==> |r| == w
    ensures |IntToString(n)| > w ==> r == IntToString(n)
  {
    var s := IntToString(n);
    if |s| >= w then s else Repeat(fill, w - |s|) + s
  }

  // ---------------------------------------------------------------------
  // Decimal input

  predicate IsDigit(c: char) {
    '0' <= c <= '9'
  }

  predicate AllDigits(s: string) {
    forall i :: 0 <= i < |s| ==> IsDigit(s[i])
  }

  function DigitValue(c: char): nat
    requires IsDigit(c)
  {
    c as int - '0' as int
  }

  /** The value built by `value = value * 10 + (c - '0')` over `s`, left
      to right. */
  function DigitsValue(s: string): nat
    requires AllDigits(s)
    decreases |s|
  {
    if |s| == 0 then 0 else DigitsValue(s[..|s| - 1]) * 10 + DigitValue(s[|s| - 1])
  }

  /** The first index at or after `i` that does not hold a digit. */
  function DigitRun(s: string, i: nat): (j: nat)
    requires i <= |s|
    ensures i <= j <= |s| && AllDigits(s[i..j])
    ensures j < |s| ==> !IsDigit(s[j])
    decreases |s| - i
  {
    if i < |s| && IsDigit(s[i]) then DigitRun(s, i + 1) else i
  }

  /** The first index at or after `i` that does not hold a space. */
  function SpaceRun(s: string, i: nat): (j: nat)
    requires i <= |s|
    ensures i <= j <= |s| && forall k :: i <= k < j ==> s[k] == ' '
    ensures j < |s| ==> s[j] != ' '
    decreases |s| - i
  {
    if i < |s| && s[i] == ' ' then SpaceRun(s, i + 1) else i
  }

  function Pow10(k: nat): nat {
    if k == 0 then 1 else 10 * Pow10(k - 1)
  }

  lemma DigitCharIsDigit(d: nat)
    requires d < 10
    ensures IsDigit(DigitChar(d)) && DigitValue(DigitChar(d)) == d
  {
  }

  /** `Digits` prints exactly what the accumulation loop reads back. */
  lemma {:induction false} DigitsRoundTrip(n: nat)
    ensures AllDigits(Digits(n)) && DigitsValue(Digits(n)) == n
    decreases n
  {
    if n >= 10 {
      DigitsRoundTrip(n / 10);
      var s := Digits(n);
      assert s[..|s| - 1] == Digits(n / 10);
    }
  }

  /** A number below `10^k` has at most `k` digits (and at least one). */
  lemma {:induction false} DigitsLength(n: nat, k: nat)
    requires n < Pow10(k)
    ensures 1 <= |Digits(n)| <= if k == 0 then 1 else k
    decreases k
  {
    if n >= 10 {
      assert Pow10(1) == 10;
      assert k != 0 && k != 1;
      DigitsLength(n / 10, k - 1);
    }
  }

  /** `setw(w)` with fill `'0'` prints exactly `w` digits that read back
      as the number, when the number fits. */
  lemma SetWZeroRoundTrip(n: nat, w: nat)
    requires |Digits(n)| <= w
    ensures |SetW(n, w, '0')| == w && AllDigits(SetW(n, w, '0'))
    ensures DigitsValue(SetW(n, w, '0')) == n
  {
    DigitsRoundTrip(n);
    if |Digits(n)| < w {
      DigitsValueLeadingZeros(w - |Digits(n)|, Digits(n));
    }
  }

  /** Leading zeros do not change the value read. */
  lemma {:induction false} DigitsValueLeadingZeros(k: nat, s: string)
    requires AllDigits(s)
    ensures AllDigits(Repeat('0', k) + s)
    ensures DigitsValue(Repeat('0', k) + s) == DigitsValue(s)
    decreases |s|
  {
    var z := Repeat('0', k);
    if |s| == 0 {
      assert z + s == z;
      ZerosValue(k);
    } else {
      var t := z + s;
      assert t[..|t| - 1] == z + s[..|s| - 1];
      DigitsValueLeadingZeros(k, s[..|s| - 1]);
    }
  }

  lemma {:induction false} ZerosValue(k: nat)
    ensures AllDigits(Repeat('0', k)) && DigitsValue(Repeat('0', k)) == 0
    decreases k
  {
    if k > 0 {
      var z := Repeat('0', k);
      assert z[..k - 1] == Repeat('0', k - 1);
      ZerosValue(k - 1);
    }
  }
}

=== FILE: datecodec.dfy ===
/** The four textual forms `EasyDate` reads and writes. */
module DateCodecs {
  // The three HTTP-date forms of section 3.3.1 of RFC 2616 (RFC 1123/822,
  // RFC 850 and the C `asctime` layout) and the fixed-width XMLTV form
  // `YYYYMMDDhhmmss +HHMM`. Every parser checks fixed character positions,
  // reads numeric fields with `validNum`, stores the wall clock minus the
  // offset and renormalises.

  import opened Wrappers
  import opened CArith
  import opened CText
  import opened Calendar
  import opened EasyDates

  const ShortDayNames: seq<string> := ["Sun", "Mon", "Tue", "Wed", "Thu", "Fri", "Sat"]
  const LongDayNames: seq<string> :=
    ["Sunday", "Monday", "Tuesday", "Wednesday", "Thursday", "Friday", "Saturday"]
  const MonthNames: seq<string> :=
    ["Jan", "Feb", "Mar", "Apr", "May", "Jun", "Jul", "Aug", "Sep", "Oct", "Nov", "Dec"]

  /** `validDayName`: the first weekday (0 for Sunday) whose short or long
      name is exactly `s`. */
  function ValidDayName(s: string): (r: Option<int>)
    ensures r.Some? ==> 0 <= r.value < 7
    ensures r.Some? ==> s == ShortDayNames[r.value] || s == LongDayNames[r.value]
    ensures r.None? ==> forall i :: 0 <= i < 7 ==> s != ShortDayNames[i] && s != LongDayNames[i]
  {
    DayNameFrom(s, 0)
  }

  function DayNameFrom(s: string, i: nat): (r: Option<int>)
    requires i <= 7
    ensures r.Some? ==> i <= r.value < 7
    ensures r.Some? ==> s == ShortDayNames[r.value] || s == LongDayNames[r.value]
    ensures r.None? ==> forall k :: i <= k < 7 ==> s != ShortDayNames[k] && s != LongDayNames[k]
    decreases 7 - i
  {
    if i == 7 then None
    else if s == ShortDayNames[i] || s == LongDayNames[i] then Some(i)
    else DayNameFrom(s, i + 1)
  }

  /** `validMonthName`: the month (1 for January) whose short name is `s`. */
  function ValidMonthName(s: string): (r: Option<int>)
    ensures r.Some? ==> 1 <= r.value <= 12 && s == MonthNames[r.value - 1]
    ensures r.None? ==> forall i :: 0 <= i < 12 ==> s != MonthNames[i]
  {
    MonthNameFrom(s, 0)
  }

  function MonthNameFrom(s: string, i: nat): (r: Option<int>)
    requires i <= 12
    ensures r.Some? ==> i < r.value <= 12 && s == MonthNames[r.value - 1]
    ensures r.None? ==> forall k :: i <= k < 12 ==> s != MonthNames[k]
    decreases 12 - i
  {
    if i == 12 then None
    else if s == MonthNames[i] then Some(i + 1)
    else MonthNameFrom(s, i + 1)
  }

  /** The names are distinct, so each one is read back as its own index. */
  lemma NamesReadBack(k: int)
    requires 0 <= k < 7
    ensures ValidDayName(ShortDayNames[k]) == Some(k)
    ensures ValidDayName(LongDayNames[k]) == Some(k)
  {
    var a := ValidDayName(ShortDayNames[k]);
    if a.Some? {
      DayNamesDistinct(a.value, k);
    }
    var b := ValidDayName(LongDayNames[k]);
    if b.Some? {
      DayNamesDistinct(b.value, k);
    }
  }

  /** No two weekdays share a name, and no short name is a long one. */
  lemma DayNamesDistinct(i: int, j: int)
    requires 0 <= i < 7 && 0 <= j < 7
    ensures ShortDayNames[i] == ShortDayNames[j] ==> i == j
    ensures LongDayNames[i] == LongDayNames[j] ==> i == j
    ensures ShortDayNames[i] != LongDayNames[j] && LongDayNames[i] != ShortDayNames[j]
  {
  }

  lemma MonthNamesReadBack(m: int)
    requires 1 <= m <= 12
    ensures ValidMonthName(MonthNames[m - 1]) == Some(m)
  {
    var r := ValidMonthName(MonthNames[m - 1]);
    if r.Some? {
      MonthNamesDistinct(r.value - 1, m - 1);
    }
  }

  /** No two months share a name. */
  lemma MonthNamesDistinct(i: int, j: int)
    requires 0 <= i < 12 && 0 <= j < 12 && MonthNames[i] == MonthNames[j]
    ensures i == j
  {
  }

  /** `s` is `k` spaces followed by decimal digits to its end. */
  predicate Padded(s: string, k: int) {
    0 <= k <= |s| && (forall i :: 0 <= i < k ==> s[i] == ' ') && AllDigits(s[k..])
  }

  /** `validNum`: leading spaces, then decimal digits up to the end of the
      field, then the range check. A field of any other shape is
      rejected; one of this shape is accepted exactly when its digits read
      as a number in range, and reads as that number. */
  function ValidNum(s: string, lo: int, hi: int): (r: Option<int>)
    ensures r.Some? ==> lo <= r.value <= hi
    ensures r.Some? ==> forall i :: 0 <= i < |s| ==> s[i] == ' ' || IsDigit(s[i])
    ensures r.Some? ==> exists k :: Padded(s, k)
    ensures forall k :: Padded(s, k) ==>
      r == if lo <= DigitsValue(s[k..]) <= hi then Some(DigitsValue(s[k..])) else None
  {
    var i := SpaceRun(s, 0);
    var j := DigitRun(s, i);
    assert forall k | Padded(s, k) :: k == i && j == |s| && s[i..j] == s[k..] by {
      forall k | Padded(s, k)
        ensures k == i && j == |s| && s[i..j] == s[k..]
      {
        PaddedSplit(s, k);
      }
    }
    if j == |s| && lo <= DigitsValue(s[i..j]) <= hi then
      assert s[i..j] == s[i..] && Padded(s, i);
      Some(DigitsValue(s[i..j]))
    else None
  }

  /** Only one split point fits: the end of the leading spaces, after
      which the digits run to the end. */
  lemma PaddedSplit(s: string, k: int)
    requires Padded(s, k)
    ensures k == SpaceRun(s, 0) && DigitRun(s, k) == |s|
  {
    forall m | k <= m < |s|
      ensures IsDigit(s[m])
    {
      assert s[k..][m - k] == s[m];
    }
    SpaceRunReaches(s, 0, k);
    DigitRunReaches(s, k);
  }

  lemma {:induction false} SpaceRunReaches(s: string, i: nat, k: nat)
    requires i <= k <= |s| && forall m :: i <= m < k ==> s[m] == ' '
    requires k < |s| ==> s[k] != ' '
    ensures SpaceRun(s, i) == k
    decreases k - i
  {
    if i < k {
      SpaceRunReaches(s, i + 1, k);
    }
  }

  lemma {:induction false} DigitRunReaches(s: string, i: nat)
    requires i <= |s| && forall m :: i <= m < |s| ==> IsDigit(s[m])
    ensures DigitRun(s, i) == |s|
    decreases |s| - i
  {
    if i < |s| {
      DigitRunReaches(s, i + 1);
    }
  }

  /** A field of nothing but spaces reads as 0. */
  lemma ValidNumAllSpaces(k: nat, lo: int, hi: int)
    ensures ValidNum(Repeat(' ', k), lo, hi) == if lo <= 0 <= hi then Some(0) else None
  {
    var s := Repeat(' ', k);
    assert SpaceRun(s, 0) == k;
    assert s[k..k] == [];
  }

  /** A number printed by `setw(w)` with a fill of `'0'` or `' '` is read
      back by `validNum`. */
  lemma ValidNumReadsPadded(n: nat, w: nat, fill: char, lo: int, hi: int)
    requires fill == '0' || fill == ' '
    requires |Digits(n)| <= w && lo <= n <= hi
    ensures |SetW(n, w, fill)| == w
    ensures ValidNum(SetW(n, w, fill), lo, hi) == Some(n)
  {
    DigitsRoundTrip(n);
    if fill == '0' {
      ReadsZeroPadded(n, w, lo, hi);
    } else {
      ReadsSpacePadded(n, w, lo, hi);
    }
  }

  lemma ReadsZeroPadded(n: nat, w: nat, lo: int, hi: int)
    requires |Digits(n)| <= w && lo <= n <= hi
    requires AllDigits(Digits(n)) && DigitsValue(Digits(n)) == n
    ensures |SetW(n, w, '0')| == w
    ensures ValidNum(SetW(n, w, '0'), lo, hi) == Some(n)
  {
    var s := SetW(n, w, '0');
    var ds := Digits(n);
    SetWZeroRoundTrip(n, w);
    assert SpaceRun(s, 0) == 0 by {
      if |ds| < w {
        assert s[0] == '0';
      } else {
        assert s[0] == ds[0];
      }
    }
    assert DigitRun(s, 0) == |s|;
    assert s[0..|s|] == s;
  }

  lemma ReadsSpacePadded(n: nat, w: nat, lo: int, hi: int)
    requires |Digits(n)| <= w && lo <= n <= hi
    requires AllDigits(Digits(n)) && DigitsValue(Digits(n)) == n
    ensures |SetW(n, w, ' ')| == w
    ensures ValidNum(SetW(n, w, ' '), lo, hi) == Some(n)
  {
    var ds := Digits(n);
    var k := w - |ds|;
    var s := Repeat(' ', k) + ds;
    assert SetW(n, w, ' ') == s;
    assert s[k..] == ds;
    var i := SpaceRun(s, 0);
    assert i == k by {
      assert s[k] == ds[0];
    }
    var j := DigitRun(s, k);
    assert j == |s|;
    assert s[i..j] == ds;
  }

  /** Two- and four-digit fields fit their widths. */
  lemma FitsWidth(n: nat)
    ensures n < 100 ==> |Digits(n)| <= 2
    ensures n < 10000 ==> |Digits(n)| <= 4
  {
    assert Pow10(2) == 100 && Pow10(4) == 10000;
    if n < 100 {
      DigitsLength(n, 2);
    }
    if n < 10000 {
      DigitsLength(n, 4);
    }
  }

  /** `setw(w)` over a `'0'` fill, for the fixed-width numeric fields. */
  function Pad0(n: int, w: nat): string {
    SetW(n, w, '0')
  }

  lemma PadWidth(n: int, w: nat)
    requires 0 <= n
    requires (w == 2 && n < 100) || (w == 4 && n < 10000)
    ensures |Pad0(n, w)| == w
  {
    FitsWidth(n);
  }

  lemma ReadsBack(n: int, w: nat, lo: int, hi: int)
    requires 0 <= n && lo <= n <= hi
    requires (w == 2 && n < 100) || (w == 4 && n < 10000)
    ensures |Pad0(n, w)| == w && ValidNum(Pad0(n, w), lo, hi) == Some(n)
  {
    FitsWidth(n);
    ValidNumReadsPadded(n, w, '0', lo, hi);
  }

  // ---------------------------------------------------------------------
  // Storing parsed fields

  /** The wall-clock fields a parser reads, before they are stored. */
  datatype Stamp = Stamp(year: int, mon: int, mday: int, hour: int, min: int, sec: int)

  /** What every parser does once its fields are read: store the wall clock
      minus the offset as UTC, record the offset, and renormalise. The
      weekday field is overwritten (the RFC parsers store the parsed name,
      the XMLTV parser keeps the old value) but `validateDate` recomputes it
      whenever it succeeds. */
  function Store(d: EasyDate, st: Stamp, wday: int, off: int): (r: Outcome)
    requires 1 <= st.mon <= 12
    ensures Normalised(r.date) && r.date.offUtc == off
    ensures r.ok ==> WellFormed(r.date)
    ensures ToSeconds(r.date) == StampSeconds(st) - off
  {
    ValidateDate(EasyDate(st.year, st.mon, d.yday, st.mday, wday,
                          st.hour, st.min, st.sec - off, off))
  }

  /** The seconds a stamp denotes when read as UTC. */
  function StampSeconds(st: Stamp): int
    requires 1 <= st.mon <= 12
  {
    ((DayNumber(st.year, st.mon, st.mday) * 24 + st.hour) * 60 + st.min) * 60 + st.sec
  }

  /** Storing a stamp lands on the well-formed date with that instant and
      offset, whatever state the object held before. */
  lemma StoreLandsOn(d: EasyDate, st: Stamp, wday: int, off: int, e: EasyDate)
    requires 1 <= st.mon <= 12 && WellFormed(e) && e.offUtc == off
    requires StampSeconds(st) - off == ToSeconds(e)
    ensures Store(d, st, wday, off) == Outcome(e, true)
  {
    var x := EasyDate(st.year, st.mon, d.yday, st.mday, wday, st.hour, st.min, st.sec - off, off);
    assert ToSeconds(x) == ToSeconds(e);
    ValidateLandsOn(x, e);
  }


  /** Storing the fields of a well-formed date as UTC lands on that date
      with offset 0. */
  lemma StoreOwnStamp(d0: EasyDate, d: EasyDate, wday: int)
    requires WellFormed(d)
    ensures Store(d0, Stamp(d.year, d.mon, d.mday, d.hour, d.min, d.sec), wday, 0)
      == Outcome(d.(offUtc := 0), true)
  {
    var e := d.(offUtc := 0);
    var st := Stamp(d.year, d.mon, d.mday, d.hour, d.min, d.sec);
    assert WellFormed(e);
    assert StampSeconds(st) == ToSeconds(e);
    StoreLandsOn(d0, st, wday, 0, e);
  }

  /** `+HHMM` or `-HHMM` at index `at`: hours 0..12 and minutes 0..59, as
      seconds east of UTC. */
  function ParseOffset(s: string, at: nat): (r: Option<int>)
    requires at + 5 <= |s|
    ensures r.Some? ==> r.value % 60 == 0 && -46740 <= r.value <= 46740
    ensures r.Some? ==> (s[at] == '-' ==> r.value <= 0) && (s[at] == '+' ==> r.value >= 0)
  {
    if s[at] != '+' && s[at] != '-' then None
    else
      match (ValidNum(s[at + 1..at + 3], 0, 12), ValidNum(s[at + 3..at + 5], 0, 59))
      case (Some(h), Some(m)) =>
        var off := (h * 60 + m) * 60;
        Some(if s[at] == '-' then -off else off)
      case _ => None
  }

  /** The zone of the RFC forms at index `at`: a numeric offset when the
      text is long enough to hold one and it parses, otherwise the literal
      `GMT`, which means offset 0. */
  function Zone(s: string, at: nat): (r: Option<int>)
    ensures r.Some? ==> r.value % 60 == 0 && -46740 <= r.value <= 46740
    ensures at + 3 <= |s| && s[at..at + 3] == "GMT" ==> r == Some(0)
  {
    if at + 5 <= |s| && ParseOffset(s, at).Some? then ParseOffset(s, at)
    else if at + 3 <= |s| && s[at..at + 3] == "GMT" then Some(0)
    else None
  }

  function Magnitude(off: int): nat {
    if off < 0 then -off else off
  }

  /** The three pieces `toXmltv` prints for an offset: the sign after a
      space, then hours and minutes of the magnitude. */
  function OffsetSign(off: int): string {
    if off < 0 then " -" else " +"
  }

  function OffsetHours(off: int): string {
    Pad0(Magnitude(off) / 3600, 2)
  }

  function OffsetMinutes(off: int): string {
    Pad0((Magnitude(off) / 60) % 60, 2)
  }

  /** Whole minutes split into hours and minutes and joined again. */
  lemma MagnitudeSplit(a: int)
    requires 0 <= a <= 46740 && a % 60 == 0
    ensures a / 3600 <= 12 && ((a / 3600) * 60 + (a / 60) % 60) * 60 == a
  {
    var m := a / 60;
    assert a == m * 60;
    assert m == (m / 60) * 60 + m % 60;
    assert a == (m / 60) * 3600 + (m % 60) * 60;
    assert a / 3600 == m / 60;
  }

  lemma OffsetPiecesRead(off: int)
    requires -46740 <= off <= 46740 && off % 60 == 0
    ensures |OffsetHours(off)| == 2 && |OffsetMinutes(off)| == 2
    ensures ValidNum(OffsetHours(off), 0, 12) == Some(Magnitude(off) / 3600)
    ensures ValidNum(OffsetMinutes(off), 0, 59) == Some((Magnitude(off) / 60) % 60)
    ensures ((Magnitude(off) / 3600) * 60 + (Magnitude(off) / 60) % 60) * 60 == Magnitude(off)
  {
    MagnitudeSplit(Magnitude(off));
    ReadsBack(Magnitude(off) / 3600, 2, 0, 12);
    ReadsBack((Magnitude(off) / 60) % 60, 2, 0, 59);
  }

  // ---------------------------------------------------------------------
  // XMLTV: "19941106184937 +1000"

  function XmltvPieces(lt: EasyDate, off: int): seq<string> {
    [Pad0(lt.year, 4), Pad0(lt.mon, 2), Pad0(lt.mday, 2),
     Pad0(lt.hour, 2), Pad0(lt.min, 2), Pad0(lt.sec, 2),
     OffsetSign(off), OffsetHours(off), OffsetMinutes(off)]
  }

  /** `toXmltv`: the wall clock (UTC moved forward by the offset) in fixed
      width, then the offset. */
  function ToXmltv(d: EasyDate): string
    requires 1 <= d.mon <= 12
  {
    Concat(XmltvPieces(GetLocalTime(d), d.offUtc))
  }

  /** The fixed-width fields of an XMLTV date; index 14 is never looked at. */
  function XmltvFields(s: string): (r: Option<Stamp>)
    requires |s| >= 20
    ensures r.Some? ==> 1 <= r.value.mon <= 12 && 1000 <= r.value.year <= 3000
  {
    match (ValidNum(s[0..4], 1000, 3000), ValidNum(s[4..6], 1, 12), ValidNum(s[6..8], 1, 31),
           ValidNum(s[8..10], 0, 23), ValidNum(s[10..12], 0, 59), ValidNum(s[12..14], 0, 60))
    case (Some(y), Some(mo), Some(md), Some(h), Some(mi), Some(se)) => Some(Stamp(y, mo, md, h, mi, se))
    case _ => None
  }

  /** `fromXmltv`. */
  function FromXmltv(d: EasyDate, s: string): (r: Outcome)
    ensures |s| < 20 ==> r == Outcome(d, false)
    ensures r.ok ==> WellFormed(r.date)
    ensures r.ok ==> r.date.offUtc % 60 == 0 && -46740 <= r.date.offUtc <= 46740
    ensures Normalised(d) ==> Normalised(r.date)
  {
    if |s| < 20 then Outcome(d, false)
    else
      match (XmltvFields(s), ParseOffset(s, 15))
      case (Some(st), Some(off)) => Store(d, st, d.wday, off)
      case _ => Outcome(d, false)
  }

  /** The separator at index 14 is not checked: any character will do. */
  lemma XmltvIgnoresSeparator(d: EasyDate, s: string, c: char)
    requires |s| >= 20
    ensures FromXmltv(d, s[14 := c]) == FromXmltv(d, s)
  {
    var t := s[14 := c];
    assert t[..14] == s[..14];
    XmltvFieldsPrefix(s, t);
    assert t[15..20] == s[15..20];
    OffsetWindow(s, t, 15);
  }

  /** `parseOffset` reads only the five characters from `at`. */
  lemma OffsetWindow(s: string, t: string, at: nat)
    requires at + 5 <= |s| && at + 5 <= |t| && s[at..at + 5] == t[at..at + 5]
    ensures ParseOffset(s, at) == ParseOffset(t, at)
  {
    var w := s[at..at + 5];
    assert s[at] == w[0] == t[at];
    assert s[at + 1] == w[1] == t[at + 1] && s[at + 2] == w[2] == t[at + 2];
    assert s[at + 3] == w[3] == t[at + 3] && s[at + 4] == w[4] == t[at + 4];
    assert s[at + 1..at + 3] == t[at + 1..at + 3];
    assert s[at + 3..at + 5] == t[at + 3..at + 5];
  }

  /** The fields are read from the first fourteen characters alone. */
  lemma XmltvFieldsPrefix(s: string, t: string)
    requires |s| >= 20 && |t| >= 20 && s[..14] == t[..14]
    ensures XmltvFields(s) == XmltvFields(t)
  {
    assert s[0..4] == t[0..4] && s[4..6] == t[4..6] && s[6..8] == t[6..8] by {
      assert s[0..4] == s[..14][0..4] && t[0..4] == t[..14][0..4];
      assert s[4..6] == s[..14][4..6] && t[4..6] == t[..14][4..6];
      assert s[6..8] == s[..14][6..8] && t[6..8] == t[..14][6..8];
    }
    assert s[8..10] == t[8..10] && s[10..12] == t[10..12] && s[12..14] == t[12..14] by {
      assert s[8..10] == s[..14][8..10] && t[8..10] == t[..14][8..10];
      assert s[10..12] == s[..14][10..12] && t[10..12] == t[..14][10..12];
      assert s[12..14] == s[..14][12..14] && t[12..14] == t[..14][12..14];
    }
  }

  /** Where the nine pieces of an XMLTV date land. */
  lemma XmltvCut(p0: string, p1: string, p2: string, p3: string, p4: string,
                 p5: string, p6: string, p7: string, p8: string)
    requires |p0| == 4 && |p1| == 2 && |p2| == 2 && |p3| == 2 && |p4| == 2
    requires |p5| == 2 && |p6| == 2 && |p7| == 2 && |p8| == 2
    ensures var s := Concat([p0, p1, p2, p3, p4, p5, p6, p7, p8]);
      |s| == 20 && s[0..4] == p0 && s[4..6] == p1 && s[6..8] == p2 && s[8..10] == p3
      && s[10..12] == p4 && s[12..14] == p5 && s[15] == p6[1] && s[16..18] == p7
      && s[18..20] == p8
  {
    var ps := [p0, p1, p2, p3, p4, p5, p6, p7, p8];
    var s := Concat(ps);
    assert OffsetOf(ps, 1) == 4;
    assert OffsetOf(ps, 2) == 6;
    assert OffsetOf(ps, 3) == 8;
    assert OffsetOf(ps, 4) == 10;
    assert OffsetOf(ps, 5) == 12;
    assert OffsetOf(ps, 6) == 14;
    assert OffsetOf(ps, 7) == 16;
    assert OffsetOf(ps, 8) == 18;
    assert OffsetOf(ps, 9) == 20;
    ConcatLength(ps);
    PieceAt(ps, 0, 0);
    PieceAt(ps, 1, 4);
    PieceAt(ps, 2, 6);
    PieceAt(ps, 3, 8);
    PieceAt(ps, 4, 10);
    PieceAt(ps, 5, 12);
    PieceAt(ps, 6, 14);
    PieceAt(ps, 7, 16);
    PieceAt(ps, 8, 18);
    assert s[15] == s[14..16][1];
  }

  lemma XmltvFieldsRead(lt: EasyDate, off: int)
    requires 1000 <= lt.year <= 3000 && Normalised(lt)
    requires -46740 <= off <= 46740 && off % 60 == 0
    ensures |Concat(XmltvPieces(lt, off))| == 20
    ensures XmltvFields(Concat(XmltvPieces(lt, off)))
      == Some(Stamp(lt.year, lt.mon, lt.mday, lt.hour, lt.min, lt.sec))
  {
    var s := Concat(XmltvPieces(lt, off));
    ReadsBack(lt.year, 4, 1000, 3000);
    ReadsBack(lt.mon, 2, 1, 12);
    ReadsBack(lt.mday, 2, 1, 31);
    ReadsBack(lt.hour, 2, 0, 23);
    ReadsBack(lt.min, 2, 0, 59);
    ReadsBack(lt.sec, 2, 0, 60);
    OffsetPiecesRead(off);
    XmltvCut(Pad0(lt.year, 4), Pad0(lt.mon, 2), Pad0(lt.mday, 2), Pad0(lt.hour, 2),
             Pad0(lt.min, 2), Pad0(lt.sec, 2), OffsetSign(off), OffsetHours(off), OffsetMinutes(off));
    XmltvFieldsOf(s, Stamp(lt.year, lt.mon, lt.mday, lt.hour, lt.min, lt.sec));
  }

  /** The six fields of an XMLTV date that each read as the stamp's. */
  lemma XmltvFieldsOf(s: string, st: Stamp)
    requires |s| >= 20
    requires ValidNum(s[0..4], 1000, 3000) == Some(st.year)
    requires ValidNum(s[4..6], 1, 12) == Some(st.mon)
    requires ValidNum(s[6..8], 1, 31) == Some(st.mday)
    requires ValidNum(s[8..10], 0, 23) == Some(st.hour)
    requires ValidNum(s[10..12], 0, 59) == Some(st.min)
    requires ValidNum(s[12..14], 0, 60) == Some(st.sec)
    ensures XmltvFields(s) == Some(st)
  {
  }

  lemma XmltvOffsetRead(lt: EasyDate, off: int)
    requires 1000 <= lt.year <= 3000 && Normalised(lt)
    requires -46740 <= off <= 46740 && off % 60 == 0
    ensures |Concat(XmltvPieces(lt, off))| == 20
    ensures ParseOffset(Concat(XmltvPieces(lt, off)), 15) == Some(off)
  {
    var s := Concat(XmltvPieces(lt, off));
    PadWidth(lt.year, 4);
    PadWidth(lt.mon, 2);
    PadWidth(lt.mday, 2);
    PadWidth(lt.hour, 2);
    PadWidth(lt.min, 2);
    PadWidth(lt.sec, 2);
    OffsetPiecesRead(off);
    XmltvCut(Pad0(lt.year, 4), Pad0(lt.mon, 2), Pad0(lt.mday, 2), Pad0(lt.hour, 2),
             Pad0(lt.min, 2), Pad0(lt.sec, 2), OffsetSign(off), OffsetHours(off), OffsetMinutes(off));
    OffsetReadsBack(s, 15, off);
  }

  /** `parseOffset` reads back the sign, hours and minutes printed for an
      offset. */
  lemma OffsetReadsBack(s: string, at: nat, off: int)
    requires at + 5 <= |s|
    requires -46740 <= off <= 46740 && off % 60 == 0
    requires s[at] == OffsetSign(off)[1]
    requires s[at + 1..at + 3] == OffsetHours(off) && s[at + 3..at + 5] == OffsetMinutes(off)
    ensures ParseOffset(s, at) == Some(off)
  {
    OffsetPiecesRead(off);
    var a := Magnitude(off);
    var h, m := a / 3600, (a / 60) % 60;
    assert s[at] == '+' || s[at] == '-';
    assert ValidNum(s[at + 1..at + 3], 0, 12) == Some(h);
    assert ValidNum(s[at + 3..at + 5], 0, 59) == Some(m);
    assert (h * 60 + m) * 60 == a;
    OffsetFields(s, at, h, m, a);
    if off < 0 {
      assert s[at] == '-';
    } else {
      assert s[at] == '+';
    }
  }

  /** `parseOffset` on a sign and two fields that read as `h` and `m`. */
  lemma OffsetFields(s: string, at: nat, h: int, m: int, v: int)
    requires at + 5 <= |s| && (s[at] == '+' || s[at] == '-')
    requires ValidNum(s[at + 1..at + 3], 0, 12) == Some(h)
    requires ValidNum(s[at + 3..at + 5], 0, 59) == Some(m)
    requires (h * 60 + m) * 60 == v
    ensures s[at] == '+' ==> ParseOffset(s, at) == Some(v)
    ensures s[at] == '-' ==> ParseOffset(s, at) == Some(-v)
  {
  }

  /** `fromXmltv(toXmltv())` gives back the same date with the same offset,
      when the offset is a whole number of minutes of at most 12:59 either
      way, as `fromXmltv` itself produces, and the wall clock's year is
      inside 1000..3000. */
  lemma XmltvRoundTrip(d0: EasyDate, d: EasyDate)
    requires WellFormed(d)
    requires -46740 <= d.offUtc <= 46740 && d.offUtc % 60 == 0
    requires 1000 <= GetLocalTime(d).year <= 3000
    ensures FromXmltv(d0, ToXmltv(d)) == Outcome(d, true)
  {
    var lt := GetLocalTime(d);
    var s := ToXmltv(d);
    var st := Stamp(lt.year, lt.mon, lt.mday, lt.hour, lt.min, lt.sec);
    XmltvFieldsRead(lt, d.offUtc);
    XmltvOffsetRead(lt, d.offUtc);
    assert FromXmltv(d0, s) == Store(d0, st, d0.wday, d.offUtc);
    StoreLandsOn(d0, st, d0.wday, d.offUtc, d);
  }
}

=== FILE: easydate.dfy ===
/** `EasyDate`: a calendar value held as UTC fields plus a display offset.
    Every mutation renormalises the fields through `validateDate`, which
    carries and borrows from seconds up to years and then recomputes the
    day of the year and the day of the week. */
module EasyDates {
  import opened CArith
  import opened Calendar

  /** The nine fields of the C++ class. `year` .. `sec` hold UTC; `offUtc`
      (seconds east of UTC) is applied only when formatting. `yday` and
      `wday` are derived: only `ValidateDate` writes them. */
  datatype EasyDate = EasyDate(
    year: int, mon: int, yday: int, mday: int, wday: int,
    hour: int, min: int, sec: int, offUtc: int)

  /** The state of the object after a mutating call, and the `bool` the
      call returned. */
  datatype Outcome = Outcome(date: EasyDate, ok: bool)

  /** A year, month and day as the day-carry loops see them. */
  datatype Day = Day(year: int, mon: int, mday: int)

  /** Every field in its range; the year may be anything. */
  predicate Normalised(d: EasyDate) {
    ValidDay(d.year, d.mon, d.mday)
    && 0 <= d.hour < 24 && 0 <= d.min < 60 && 0 <= d.sec < 60
  }

  /** What a successful `validateDate` leaves behind: normalised fields, a
      year within the artificial 1000..3000 limit, and consistent derived
      fields. */
  predicate WellFormed(d: EasyDate) {
    Normalised(d) && 1000 <= d.year <= 3000
    && d.yday == DaysBeforeMonth(d.year, d.mon) + d.mday - 1
    && d.wday == Weekday(d.year, d.mon, d.mday)
  }

  /** Seconds since 1 January 2000 00:00:00 UTC; months 0..12 are defined. */
  function ToSeconds(d: EasyDate): int
    requires 0 <= d.mon <= 12
  {
    ((DayNumber(d.year, d.mon, d.mday) * 24 + d.hour) * 60 + d.min) * 60 + d.sec
  }

  // ---------------------------------------------------------------------
  // validateDate

  /** One clock step of `validateDate`:
      `hi += lo / base; lo = lo % base; if (lo < 0) { --hi; lo += base; }`
      with the C++ truncating operators. */
  function Carry(hi: int, lo: int, base: int): (r: (int, int))
    requires base > 0
    ensures 0 <= r.1 < base
    ensures r.0 * base + r.1 == hi * base + lo
  {
    var q, m := Quot(lo, base), Rem(lo, base);
    QuotRem(lo, base);
    if m < 0 then (hi + q - 1, m + base) else (hi + q, m)
  }

  /** The loop `while (mday > daysInMonth(year, mon))` that moves surplus
      days into the following months. */
  function CarryDays(y: int, m: int, d: int): (r: Day)
    requires 0 <= m <= 12
    ensures 0 <= r.mon <= 12 && r.mday <= DaysInMonth(r.year, r.mon)
    ensures 1 <= m ==> 1 <= r.mon
    ensures DayNumber(r.year, r.mon, r.mday) == DayNumber(y, m, d)
    decreases d, 12 - m
  {
    if d > DaysInMonth(y, m) then
      var d' := d - DaysInMonth(y, m);
      if m + 1 > 12 then
        YearStartStep(y);
        MonthsFillYear(y);
        CarryDays(y + 1, m + 1 - 12, d')
      else
        CarryDays(y, m + 1, d')
    else
      Day(y, m, d)
  }

  /** The loop `while (mday < 1)` that borrows days from the preceding
      months. A month of 0 steps back to November of the previous year. */
  function BorrowDays(y: int, m: int, d: int): (r: Day)
    requires 0 <= m <= 12 && d <= DaysInMonth(y, m)
    ensures ValidDay(r.year, r.mon, r.mday)
    ensures 1 <= m ==> DayNumber(r.year, r.mon, r.mday) == DayNumber(y, m, d)
    decreases -d
  {
    if d < 1 then
      var y' := if m - 1 < 1 then y - 1 else y;
      var m' := if m - 1 < 1 then m - 1 + 12 else m - 1;
      YearStartStep(y - 1);
      MonthsFillYear(y - 1);
      BorrowDays(y', m', d + DaysInMonth(y', m'))
    else
      Day(y, m, d)
  }

  /** The three clock steps of `validateDate`: seconds into minutes,
      minutes into hours, hours into days. */
  function NormaliseClock(d: EasyDate): (r: EasyDate)
    ensures 0 <= r.hour < 24 && 0 <= r.min < 60 && 0 <= r.sec < 60
    ensures r.year == d.year && r.mon == d.mon && r.offUtc == d.offUtc
    ensures r.yday == d.yday && r.wday == d.wday
    ensures ((r.mday * 24 + r.hour) * 60 + r.min) * 60 + r.sec
         == ((d.mday * 24 + d.hour) * 60 + d.min) * 60 + d.sec
  {
    var (min1, sec1) := Carry(d.min, d.sec, 60);
    var (hour1, min2) := Carry(d.hour, min1, 60);
    var (mday1, hour2) := Carry(d.mday, hour1, 24);
    d.(mday := mday1, hour := hour2, min := min2, sec := sec1)
  }

  /** The day steps of `validateDate`: the two day loops, then the month
      step `year += (mon - 1) / 12; mon = (mon - 1) % 12 + 1` with its
      fix-up for a negative remainder, which the loops have already made
      a no-op. */
  function NormaliseDay(y: int, m: int, d: int): (r: Day)
    requires 0 <= m <= 12
    ensures ValidDay(r.year, r.mon, r.mday)
    ensures 1 <= m ==> DayNumber(r.year, r.mon, r.mday) == DayNumber(y, m, d)
  {
    var c := CarryDays(y, m, d);
    var b := BorrowDays(c.year, c.mon, c.mday);
    var (year1, mon0) := Carry(b.year, b.mon - 1, 12);
    CarryInRange(b.year, b.mon - 1, 12);
    Day(year1, mon0 + 1, b.mday)
  }

  /** `EasyDate::validateDate`. The month must index the 13-entry month
      table; the clock fields may hold any value, negative included. The
      fields are renormalised even when the year check fails, but then
      `yday` and `wday` keep their old values. */
  function ValidateDate(d: EasyDate): (r: Outcome)
    requires 0 <= d.mon <= 12
    ensures Normalised(r.date) && r.date.offUtc == d.offUtc
    ensures r.ok <==> 1000 <= r.date.year <= 3000
    ensures r.ok ==> WellFormed(r.date)
    ensures !r.ok ==> r.date.yday == d.yday && r.date.wday == d.wday
    ensures 1 <= d.mon ==> ToSeconds(r.date) == ToSeconds(d)
  {
    var c := NormaliseClock(d);
    var day := NormaliseDay(c.year, c.mon, c.mday);
    var date := c.(year := day.year, mon := day.mon, mday := day.mday);
    KeepsInstant(d, c, day, date);
    if date.year < 1000 || date.year > 3000 then
      Outcome(date, false)
    else
      var yday := date.mday - 1 + DaysBeforeMonth(date.year, date.mon);
      var w := Rem(yday + YearStart(date.year) + 6, 7);
      Stamped(date, yday, w);
      Outcome(date.(yday := yday, wday := if w < 0 then w + 7 else w), true)
  }

  /** The carries of `validateDate` move no date in time. */
  lemma KeepsInstant(d: EasyDate, c: EasyDate, day: Day, date: EasyDate)
    requires 0 <= d.mon <= 12
    requires c == NormaliseClock(d) && day == NormaliseDay(c.year, c.mon, c.mday)
    requires date == c.(year := day.year, mon := day.mon, mday := day.mday)
    ensures 1 <= d.mon ==> ToSeconds(date) == ToSeconds(d)
  {
  }

  /** The derived fields `validateDate` computes for a normalised date in
      the year range are the ones `WellFormed` asks for. */
  lemma Stamped(date: EasyDate, yday: int, w: int)
    requires Normalised(date) && 1000 <= date.year <= 3000
    requires yday == date.mday - 1 + DaysBeforeMonth(date.year, date.mon)
    requires w == Rem(yday + YearStart(date.year) + 6, 7)
    ensures WellFormed(date.(yday := yday, wday := if w < 0 then w + 7 else w))
    ensures ToSeconds(date.(yday := yday, wday := if w < 0 then w + 7 else w)) == ToSeconds(date)
  {
    RemFixupSeven(yday + YearStart(date.year) + 6);
  }

  /** A carry step leaves a value already in range alone (for the three
      bases `validateDate` uses). */
  lemma CarryInRange(hi: int, lo: int, base: int)
    requires base == 12 || base == 24 || base == 60
    requires 0 <= lo < base
    ensures Carry(hi, lo, base) == (hi, lo)
  {
    var r := Carry(hi, lo, base);
    if base == 12 {
      assert (r.0 - hi) * 12 == lo - r.1;
    } else if base == 24 {
      assert (r.0 - hi) * 24 == lo - r.1;
    } else {
      assert (r.0 - hi) * 60 == lo - r.1;
    }
  }

  /** The clock steps leave in-range clock fields alone. */
  lemma ClockInRange(d: EasyDate)
    requires 0 <= d.hour < 24 && 0 <= d.min < 60 && 0 <= d.sec < 60
    ensures NormaliseClock(d) == d
  {
    CarryInRange(d.min, d.sec, 60);
    CarryInRange(d.hour, d.min, 60);
    CarryInRange(d.mday, d.hour, 24);
  }

  /** A date whose fields are already in range comes back with only its
      derived fields recomputed. */
  lemma ValidateNormalised(d: EasyDate)
    requires Normalised(d)
    ensures ValidateDate(d).date.year == d.year && ValidateDate(d).date.mon == d.mon
    ensures ValidateDate(d).date.mday == d.mday && ValidateDate(d).date.hour == d.hour
    ensures ValidateDate(d).date.min == d.min && ValidateDate(d).date.sec == d.sec
    ensures ValidateDate(d).ok <==> 1000 <= d.year <= 3000
  {
    ClockInRange(d);
    CarryInRange(d.year, d.mon - 1, 12);
  }

  /** Validating a well-formed date changes nothing: the operation is
      idempotent. */
  lemma ValidateIdempotent(d: EasyDate)
    requires WellFormed(d)
    ensures ValidateDate(d) == Outcome(d, true)
  {
    ValidateNormalised(d);
  }

  /** Month 0 is a real entry of the month table, holding 0 days: a date
      in month 0 with its other fields in range is read as January of the
      same year. */
  lemma MonthZeroIsJanuary(d: EasyDate)
    requires d.mon == 0 && 1 <= d.mday <= 31
    requires 0 <= d.hour < 24 && 0 <= d.min < 60 && 0 <= d.sec < 60
    ensures ValidateDate(d) == ValidateDate(d.(mon := 1))
  {
    ClockInRange(d);
    ClockInRange(d.(mon := 1));
    assert CarryDays(d.year, 0, d.mday) == CarryDays(d.year, 1, d.mday);
    assert NormaliseDay(d.year, 0, d.mday) == NormaliseDay(d.year, 1, d.mday);
  }

  /** The day of the year lies inside the year. */
  lemma YdayInYear(d: EasyDate)
    requires WellFormed(d)
    ensures 0 <= d.yday < DaysInYear(d.year)
  {
    DayNumberInYear(d.year, d.mon, d.mday);
  }

  /** The calendar fields `validateDate` leaves are those of its day
      steps applied after its clock steps, whether or not the year check
      passes. */
  lemma ValidateDayFields(d: EasyDate)
    requires 0 <= d.mon <= 12
    ensures var c := NormaliseClock(d);
      var day := NormaliseDay(c.year, c.mon, c.mday);
      var r := ValidateDate(d).date;
      r.year == day.year && r.mon == day.mon && r.mday == day.mday
      && r.hour == c.hour && r.min == c.min && r.sec == c.sec
  {
  }

  /** 29 February survives in a leap year. */
  lemma LeapDayKept(y: int)
    requires IsLeap(y)
    ensures ValidateDate(EasyDate(y, 2, 0, 29, 0, 12, 0, 0, 0)).date.mon == 2
    ensures ValidateDate(EasyDate(y, 2, 0, 29, 0, 12, 0, 0, 0)).date.mday == 29
  {
    ValidateNormalised(EasyDate(y, 2, 0, 29, 0, 12, 0, 0, 0));
  }

  /** In a common year the day loops move 29 February on to 1 March. */
  lemma RollOverDay(y: int)
    requires !IsLeap(y)
    ensures NormaliseDay(y, 2, 29) == Day(y, 3, 1)
  {
    assert CarryDays(y, 2, 29) == Day(y, 3, 1);
    CarryInRange(y, 2, 12);
  }

  /** 29 February of a common year becomes 1 March. */
  lemma LeapDayRolledOver(y: int)
    requires !IsLeap(y)
    ensures ValidateDate(EasyDate(y, 2, 0, 29, 0, 12, 0, 0, 0)).date.mon == 3
    ensures ValidateDate(EasyDate(y, 2, 0, 29, 0, 12, 0, 0, 0)).date.mday == 1
  {
    var d := EasyDate(y, 2, 0, 29, 0, 12, 0, 0, 0);
    ClockInRange(d);
    RollOverDay(y);
    ValidateDayFields(d);
  }

  lemma BorrowClock(y: int)
    ensures NormaliseClock(EasyDate(y, 1, 0, 1, 0, 0, 0, -1, 0))
      == EasyDate(y, 1, 0, 0, 0, 23, 59, 59, 0)
  {
    var d := EasyDate(y, 1, 0, 1, 0, 0, 0, -1, 0);
    BorrowOne(d.min, 60);
    BorrowOne(d.hour, 60);
    BorrowOne(d.mday, 24);
  }

  /** Carrying a lone negative second borrows one from the field above. */
  lemma BorrowOne(hi: int, base: int)
    requires base > 1
    ensures Carry(hi, -1, base) == (hi - 1, base - 1)
  {
    QuotRem(-1, base);
  }

  lemma BorrowDay(y: int)
    ensures NormaliseDay(y, 1, 0) == Day(y - 1, 12, 31)
  {
    assert CarryDays(y, 1, 0) == Day(y, 1, 0);
    assert BorrowDays(y - 1, 12, 31) == Day(y - 1, 12, 31);
    assert BorrowDays(y, 1, 0) == Day(y - 1, 12, 31);
    CarryInRange(y - 1, 11, 12);
  }

  /** A negative second count borrows across a year boundary: one second
      before 1 January of a year, 00:00:00, is 31 December of the year
      before, 23:59:59, the last day of that year. */
  lemma BorrowExample(y: int)
    requires 1001 <= y <= 3001
    ensures var r := ValidateDate(EasyDate(y, 1, 0, 1, 0, 0, 0, -1, 0));
      r.ok && r.date.year == y - 1 && r.date.mon == 12 && r.date.mday == 31
      && r.date.hour == 23 && r.date.min == 59 && r.date.sec == 59
      && r.date.yday == DaysInYear(y - 1) - 1
  {
    var d := EasyDate(y, 1, 0, 1, 0, 0, 0, -1, 0);
    BorrowClock(y);
    BorrowDay(y);
    ValidateDayFields(d);
    var r := ValidateDate(d);
    assert r.date.year == y - 1 && r.date.mon == 12 && r.date.mday == 31;
    assert r.ok;
    DaysBeforeMonthTable(y - 1, 12);
  }

  // ---------------------------------------------------------------------
  // Setters

  /** `setYear`: years outside 1000..3000 are refused and the object is left
      as it was. */
  function SetYear(d: EasyDate, year: int): (r: Outcome)
    requires 0 <= d.mon <= 12
    ensures !(1000 <= year <= 3000) ==> r == Outcome(d, false)
    ensures 1000 <= year <= 3000 && 1 <= d.mon ==>
      Normalised(r.date) && ToSeconds(r.date) == ToSeconds(d.(year := year))
  {
    if 1000 <= year <= 3000 then ValidateDate(d.(year := year)) else Outcome(d, false)
  }

  /** `setMon`. */
  function SetMon(d: EasyDate, mon: int): (r: Outcome)
    requires 0 <= mon <= 12
    ensures Normalised(r.date) && r.date.offUtc == d.offUtc
    ensures 1 <= mon ==> ToSeconds(r.date) == ToSeconds(d.(mon := mon))
  {
    ValidateDate(d.(mon := mon))
  }

  /** `setMDay`. */
  function SetMDay(d: EasyDate, mday: int): (r: Outcome)
    requires 1 <= d.mon <= 12
    ensures Normalised(r.date) && r.date.offUtc == d.offUtc
    ensures ToSeconds(r.date) == ToSeconds(d) + (mday - d.mday) * 86400
  {
    ValidateDate(d.(mday := mday))
  }

  /** `setHour`. */
  function SetHour(d: EasyDate, hour: int): (r: Outcome)
    requires 1 <= d.mon <= 12
    ensures Normalised(r.date) && r.date.offUtc == d.offUtc
    ensures ToSeconds(r.date) == ToSeconds(d) + (hour - d.hour) * 3600
  {
    ValidateDate(d.(hour := hour))
  }

  /** `setMin`. */
  function SetMin(d: EasyDate, min: int): (r: Outcome)
    requires 1 <= d.mon <= 12
    ensures Normalised(r.date) && r.date.offUtc == d.offUtc
    ensures ToSeconds(r.date) == ToSeconds(d) + (min - d.min) * 60
  {
    ValidateDate(d.(min := min))
  }

  /** `setSec`. */
  function SetSec(d: EasyDate, sec: int): (r: Outcome)
    requires 1 <= d.mon <= 12
    ensures Normalised(r.date) && r.date.offUtc == d.offUtc
    ensures ToSeconds(r.date) == ToSeconds(d) + (sec - d.sec)
  {
    ValidateDate(d.(sec := sec))
  }

  /** `setOffUtc`: only offsets within twelve hours either way are taken,
      and nothing but the offset changes. */
  function SetOffUtc(d: EasyDate, offUtc: int): (r: Outcome)
    ensures r.ok <==> -43200 <= offUtc <= 43200
    ensures r.date == if r.ok then d.(offUtc := offUtc) else d
  {
    if -43200 <= offUtc <= 43200 then Outcome(d.(offUtc := offUtc), true)
    else Outcome(d, false)
  }

  /** `setTime`. */
  function SetTime(d: EasyDate, year: int, mon: int, mday: int, hour: int, min: int, sec: int): (r: Outcome)
    requires 0 <= mon <= 12
    ensures Normalised(r.date) && r.date.offUtc == d.offUtc
    ensures 1 <= mon ==>
      ToSeconds(r.date) == ((DayNumber(year, mon, mday) * 24 + hour) * 60 + min) * 60 + sec
  {
    ValidateDate(d.(year := year, mon := mon, mday := mday, hour := hour, min := min, sec := sec))
  }

  /** `getLocalTime`: a copy moved forward by the offset, for printing the
      wall clock. */
  function GetLocalTime(d: EasyDate): (r: EasyDate)
    requires 1 <= d.mon <= 12
    ensures Normalised(r) && r.offUtc == d.offUtc
    ensures ToSeconds(r) == ToSeconds(d) + d.offUtc
  {
    SetSec(d, d.sec + d.offUtc).date
  }

  // ---------------------------------------------------------------------
  // Comparison

  /** `operator==`: the six UTC fields; the offset and the derived fields
      do not take part. On normalised dates it holds exactly when both
      denote the same instant, whatever offsets they print with. */
  function Eq(a: EasyDate, b: EasyDate): (r: bool)
    ensures Normalised(a) && Normalised(b) ==> (r <==> ToSeconds(a) == ToSeconds(b))
  {
    var same := a.year == b.year && a.mon == b.mon && a.mday == b.mday
      && a.hour == b.hour && a.min == b.min && a.sec == b.sec;
    assert Normalised(a) && Normalised(b) && !same ==> ToSeconds(a) != ToSeconds(b) by {
      if Normalised(a) && Normalised(b) && !same {
        assert Less(a, b) || Less(b, a);
      }
    }
    same
  }

  /** `operator<`: lexicographic on year, month, day, hour, minute, second,
      which on normalised dates is the order of their instants. */
  function Less(a: EasyDate, b: EasyDate): (r: bool)
    ensures Normalised(a) && Normalised(b) ==> (r <==> ToSeconds(a) < ToSeconds(b))
  {
    var before :=
      a.year < b.year || (a.year == b.year &&
      (a.mon < b.mon || (a.mon == b.mon &&
      (a.mday < b.mday || (a.mday == b.mday &&
      (a.hour < b.hour || (a.hour == b.hour &&
      (a.min < b.min || (a.min == b.min && a.sec < b.sec)))))))));
    assert Normalised(a) && Normalised(b) ==> (before <==> ToSeconds(a) < ToSeconds(b)) by {
      if Normalised(a) && Normalised(b) {
        var n, n' := DayNumber(a.year, a.mon, a.mday), DayNumber(b.year, b.mon, b.mday);
        if DayBefore(a.year, a.mon, a.mday, b.year, b.mon, b.mday) {
          DayNumberMonotone(a.year, a.mon, a.mday, b.year, b.mon, b.mday);
          ClockOrder(n, a.hour, a.min, a.sec, n', b.hour, b.min, b.sec);
        } else if DayBefore(b.year, b.mon, b.mday, a.year, a.mon, a.mday) {
          DayNumberMonotone(b.year, b.mon, b.mday, a.year, a.mon, a.mday);
          ClockOrder(n', b.hour, b.min, b.sec, n, a.hour, a.min, a.sec);
        } else {
          assert n == n';
          if before {
            ClockOrder(n, a.hour, a.min, a.sec, n', b.hour, b.min, b.sec);
          } else if (a.hour, a.min, a.sec) != (b.hour, b.min, b.sec) {
            ClockOrder(n', b.hour, b.min, b.sec, n, a.hour, a.min, a.sec);
          }
        }
      }
    }
    before
  }

  /** `operator>`, written out field by field in the source: `<` with its
      operands turned round. */
  function Greater(a: EasyDate, b: EasyDate): (r: bool)
    ensures r <==> Less(b, a)
    ensures Normalised(a) && Normalised(b) ==> (r <==> ToSeconds(a) > ToSeconds(b))
  {
    a.year > b.year || (a.year == b.year &&
    (a.mon > b.mon || (a.mon == b.mon &&
    (a.mday > b.mday || (a.mday == b.mday &&
    (a.hour > b.hour || (a.hour == b.hour &&
    (a.min > b.min || (a.min == b.min && a.sec > b.sec)))))))))
  }

  /** The inline operators `!=`, `<=`, `>=` of the header: `!=` is `<` or
      `>`, `<=` is `<` or `==`, and `>=` is `>` or `==`. */
  function NotEq(a: EasyDate, b: EasyDate): (r: bool)
    ensures r <==> Less(a, b) || Less(b, a)
    ensures Normalised(a) && Normalised(b) ==> (r <==> ToSeconds(a) != ToSeconds(b))
  {
    !Eq(a, b)
  }

  function LessEq(a: EasyDate, b: EasyDate): (r: bool)
    ensures r <==> Less(a, b) || Eq(a, b)
    ensures Normalised(a) && Normalised(b) ==> (r <==> ToSeconds(a) <= ToSeconds(b))
  {
    !Greater(a, b)
  }

  function GreaterEq(a: EasyDate, b: EasyDate): (r: bool)
    ensures r <==> Less(b, a) || Eq(a, b)
    ensures Normalised(a) && Normalised(b) ==> (r <==> ToSeconds(a) >= ToSeconds(b))
  {
    !Less(a, b)
  }

  /** Exactly one of `<`, `==`, `>` holds, and `>` is `<` turned round. */
  lemma Trichotomy(a: EasyDate, b: EasyDate)
    ensures Less(a, b) || Eq(a, b) || Greater(a, b)
    ensures !(Less(a, b) && Eq(a, b)) && !(Less(a, b) && Greater(a, b))
    ensures !(Eq(a, b) && Greater(a, b))
    ensures Greater(a, b) <==> Less(b, a)
  {
  }

  /** The derived operators: `<=` is `<` or `==`, `>=` is `>` or `==`. */
  lemma DerivedOperators(a: EasyDate, b: EasyDate)
    ensures LessEq(a, b) <==> Less(a, b) || Eq(a, b)
    ensures GreaterEq(a, b) <==> Greater(a, b) || Eq(a, b)
    ensures NotEq(a, b) <==> Less(a, b) || Greater(a, b)
  {
    Trichotomy(a, b);
  }

  /** Lexicographic order on six fields with in-range clock values. */
  lemma ClockOrder(n: int, h: int, mi: int, s: int, n': int, h': int, mi': int, s': int)
    requires 0 <= h < 24 && 0 <= mi < 60 && 0 <= s < 60
    requires 0 <= h' < 24 && 0 <= mi' < 60 && 0 <= s' < 60
    requires n < n' || (n == n' && (h < h' || (h == h' && (mi < mi' || (mi == mi' && s < s')))))
    ensures ((n * 24 + h) * 60 + mi) * 60 + s < ((n' * 24 + h') * 60 + mi') * 60 + s'
  {
  }

  /** The three comparisons on normalised dates together, for callers
      that need them at once. */
  lemma CompareBySeconds(a: EasyDate, b: EasyDate)
    requires Normalised(a) && Normalised(b)
    ensures Less(a, b) <==> ToSeconds(a) < ToSeconds(b)
    ensures Eq(a, b) <==> ToSeconds(a) == ToSeconds(b)
    ensures Greater(a, b) <==> ToSeconds(a) > ToSeconds(b)
  {
  }

  /** A well-formed date is fixed by its instant and its offset. */
  lemma WellFormedUnique(a: EasyDate, b: EasyDate)
    requires WellFormed(a) && WellFormed(b)
    requires ToSeconds(a) == ToSeconds(b) && a.offUtc == b.offUtc
    ensures a == b
  {
    CompareBySeconds(a, b);
  }

  /** Validation lands on the unique well-formed date with the instant and
      offset it was given, provided that date's year is in range. */
  lemma ValidateLandsOn(d: EasyDate, e: EasyDate)
    requires 1 <= d.mon <= 12 && WellFormed(e)
    requires ToSeconds(d) == ToSeconds(e) && d.offUtc == e.offUtc
    ensures ValidateDate(d) == Outcome(e, true)
  {
    var r := ValidateDate(d).date;
    CompareBySeconds(r, e);
  }
}

=== FILE: httpdates.dfy ===
/** The three HTTP-date forms of section 3.3.1 of RFC 2616 as `EasyDate`
    writes and reads them. */
module HttpDates {
  // RFC 822/1123 ("Sun, 06 Nov 1994 08:49:37 GMT"), RFC 850 ("Sunday,
  // 06-Nov-94 08:49:37 GMT") and the C `asctime` layout ("Sun Nov  6
  // 08:49:37 1994"). The writers print the stored UTC fields; the readers
  // check fixed character positions and store through `validateDate`.

  import opened Wrappers
  import opened CArith
  import opened CText
  import opened Calendar
  import opened EasyDates
  import opened DateCodecs

  /** `getWDayName`, `getWDayLongName` and `getMonName` index their tables
      with the stored fields; outside these ranges the C++ reads past the
      tables. */
  predicate Nameable(d: EasyDate) {
    0 <= d.wday < 7 && 1 <= d.mon <= 12
  }

  function WDayName(d: EasyDate): string
    requires Nameable(d)
  {
    ShortDayNames[d.wday]
  }

  function WDayLongName(d: EasyDate): string
    requires Nameable(d)
  {
    LongDayNames[d.wday]
  }

  function MonName(d: EasyDate): string
    requires Nameable(d)
  {
    MonthNames[d.mon - 1]
  }

  lemma WellFormedNameable(d: EasyDate)
    requires WellFormed(d)
    ensures Nameable(d)
    ensures |WDayName(d)| == 3 && |MonName(d)| == 3
  {
  }

  /** A number printed by `setw(2)` over a `' '` fill is read back. */
  lemma ReadsBackSpaced(n: int, lo: int, hi: int)
    requires 0 <= n < 100 && lo <= n <= hi
    ensures |SetW(n, 2, ' ')| == 2 && ValidNum(SetW(n, 2, ' '), lo, hi) == Some(n)
  {
    FitsWidth(n);
    ValidNumReadsPadded(n, 2, ' ', lo, hi);
  }

  // ---------------------------------------------------------------------
  // RFC 822 / RFC 1123: "Sun, 06 Nov 1994 08:49:37 GMT"

  /** `toRfc822`: the stored UTC fields, always labelled `GMT`; the
      `tzName` flag is accepted and ignored. */
  function ToRfc822(d: EasyDate, tzName: bool): string
    requires Nameable(d)
  {
    Concat([WDayName(d), ", ", Pad0(d.mday, 2), " ", MonName(d), " ", Pad0(d.year, 4), " ",
            Pad0(d.hour, 2), ":", Pad0(d.min, 2), ":", Pad0(d.sec, 2), " GMT"])
  }

  /** The fixed positions `fromRfc822` checks up to the blank before the
      zone: the weekday it names and the wall-clock fields. */
  function Rfc822Fields(s: string): (r: Option<(int, Stamp)>)
    requires |s| >= 26
    ensures r.Some? ==> 0 <= r.value.0 < 7 && 1 <= r.value.1.mon <= 12
    ensures r.Some? ==> 1000 <= r.value.1.year <= 3000
  {
    if s[3] != ',' || s[4] != ' ' || s[7] != ' ' || s[11] != ' ' || s[16] != ' '
       || s[19] != ':' || s[22] != ':' || s[25] != ' ' then None
    else
      match (ValidDayName(s[0..3]), ValidNum(s[5..7], 1, 31), ValidMonthName(s[8..11]),
             ValidNum(s[12..16], 1000, 3000), ValidNum(s[17..19], 0, 23),
             ValidNum(s[20..22], 0, 59), ValidNum(s[23..25], 0, 60))
      case (Some(w), Some(md), Some(mo), Some(y), Some(h), Some(mi), Some(se)) =>
        Some((w, Stamp(y, mo, md, h, mi, se)))
      case _ => None
  }

  /** `fromRfc822`: the fields, then a numeric zone at index 26 or `GMT`;
      the parsed weekday is stored until `validateDate` recomputes it. */
  function FromRfc822(d: EasyDate, s: string): (r: Outcome)
    ensures |s| < 26 ==> r == Outcome(d, false)
    ensures r.ok ==> WellFormed(r.date)
    ensures r.ok ==> r.date.offUtc % 60 == 0 && -46740 <= r.date.offUtc <= 46740
  {
    if |s| < 26 then Outcome(d, false)
    else
      match (Rfc822Fields(s), Zone(s, 26))
      case (Some((w, st)), Some(off)) => Store(d, st, w, off)
      case _ => Outcome(d, false)
  }

  /** Where the pieces of an RFC 822 date land. */
  lemma Rfc822Cut(p0: string, p2: string, p4: string, p6: string, p8: string,
                  p10: string, p12: string)
    requires |p0| == 3 && |p2| == 2 && |p4| == 3 && |p6| == 4
    requires |p8| == 2 && |p10| == 2 && |p12| == 2
    ensures var s := Concat([p0, ", ", p2, " ", p4, " ", p6, " ", p8, ":", p10, ":", p12, " GMT"]);
      |s| == 29 && s[0..3] == p0 && s[3] == ',' && s[4] == ' ' && s[5..7] == p2
      && s[7] == ' ' && s[8..11] == p4 && s[11] == ' ' && s[12..16] == p6
      && s[16] == ' ' && s[17..19] == p8 && s[19] == ':' && s[20..22] == p10
      && s[22] == ':' && s[23..25] == p12 && s[25] == ' ' && s[26..29] == "GMT"
  {
    var ps := [p0, ", ", p2, " ", p4, " ", p6, " ", p8, ":", p10, ":", p12, " GMT"];
    var s := Concat(ps);
    assert OffsetOf(ps, 1) == 3;
    assert OffsetOf(ps, 2) == 5;
    assert OffsetOf(ps, 3) == 7;
    assert OffsetOf(ps, 4) == 8;
    assert OffsetOf(ps, 5) == 11;
    assert OffsetOf(ps, 6) == 12;
    assert OffsetOf(ps, 7) == 16;
    assert OffsetOf(ps, 8) == 17;
    assert OffsetOf(ps, 9) == 19;
    assert OffsetOf(ps, 10) == 20;
    assert OffsetOf(ps, 11) == 22;
    assert OffsetOf(ps, 12) == 23;
    assert OffsetOf(ps, 13) == 25;
    assert OffsetOf(ps, 14) == 29;
    ConcatLength(ps);
    PieceAt(ps, 0, 0);
    PieceAt(ps, 1, 3);
    PieceAt(ps, 2, 5);
    PieceAt(ps, 3, 7);
    PieceAt(ps, 4, 8);
    PieceAt(ps, 5, 11);
    PieceAt(ps, 6, 12);
    PieceAt(ps, 7, 16);
    PieceAt(ps, 8, 17);
    PieceAt(ps, 9, 19);
    PieceAt(ps, 10, 20);
    PieceAt(ps, 11, 22);
    PieceAt(ps, 12, 23);
    PieceAt(ps, 13, 25);
    assert s[3] == s[3..5][0] && s[4] == s[3..5][1];
    assert s[25] == s[25..29][0] && s[26..29] == s[25..29][1..];
  }

  lemma Rfc822Read(d: EasyDate, tzName: bool)
    requires WellFormed(d)
    ensures Nameable(d) && |ToRfc822(d, tzName)| == 29
    ensures Rfc822Fields(ToRfc822(d, tzName))
      == Some((d.wday, Stamp(d.year, d.mon, d.mday, d.hour, d.min, d.sec)))
    ensures Zone(ToRfc822(d, tzName), 26) == Some(0)
  {
    FieldsReadBack(d);
    Rfc822PiecesRead(WDayName(d), Pad0(d.mday, 2), MonName(d), Pad0(d.year, 4),
                     Pad0(d.hour, 2), Pad0(d.min, 2), Pad0(d.sec, 2),
                     d.wday, Stamp(d.year, d.mon, d.mday, d.hour, d.min, d.sec));
  }

  /** Each field of a well-formed date, printed the way the writers print
      it, reads back as that field. */
  lemma FieldsReadBack(d: EasyDate)
    requires WellFormed(d)
    ensures Nameable(d) && |WDayName(d)| == 3 && |MonName(d)| == 3
    ensures ValidDayName(WDayName(d)) == Some(d.wday) && ValidMonthName(MonName(d)) == Some(d.mon)
    ensures |Pad0(d.mday, 2)| == 2 && ValidNum(Pad0(d.mday, 2), 1, 31) == Some(d.mday)
    ensures |SetW(d.mday, 2, ' ')| == 2 && ValidNum(SetW(d.mday, 2, ' '), 1, 31) == Some(d.mday)
    ensures |Pad0(d.year, 4)| == 4 && ValidNum(Pad0(d.year, 4), 1000, 3000) == Some(d.year)
    ensures |Pad0(d.hour, 2)| == 2 && ValidNum(Pad0(d.hour, 2), 0, 23) == Some(d.hour)
    ensures |Pad0(d.min, 2)| == 2 && ValidNum(Pad0(d.min, 2), 0, 59) == Some(d.min)
    ensures |Pad0(d.sec, 2)| == 2 && ValidNum(Pad0(d.sec, 2), 0, 60) == Some(d.sec)
  {
    WellFormedNameable(d);
    NamesReadBack(d.wday);
    MonthNamesReadBack(d.mon);
    NumbersReadBack(d.mday, d.year, d.hour, d.min, d.sec);
  }

  lemma NumbersReadBack(mday: int, year: int, hour: int, min: int, sec: int)
    requires 1 <= mday <= 31 && 1000 <= year <= 3000
    requires 0 <= hour < 24 && 0 <= min < 60 && 0 <= sec < 60
    ensures |Pad0(mday, 2)| == 2 && ValidNum(Pad0(mday, 2), 1, 31) == Some(mday)
    ensures |SetW(mday, 2, ' ')| == 2 && ValidNum(SetW(mday, 2, ' '), 1, 31) == Some(mday)
    ensures |Pad0(year, 4)| == 4 && ValidNum(Pad0(year, 4), 1000, 3000) == Some(year)
    ensures |Pad0(hour, 2)| == 2 && ValidNum(Pad0(hour, 2), 0, 23) == Some(hour)
    ensures |Pad0(min, 2)| == 2 && ValidNum(Pad0(min, 2), 0, 59) == Some(min)
    ensures |Pad0(sec, 2)| == 2 && ValidNum(Pad0(sec, 2), 0, 60) == Some(sec)
  {
    ReadsBack(mday, 2, 1, 31);
    ReadsBackSpaced(mday, 1, 31);
    ReadsBack(year, 4, 1000, 3000);
    ReadsBack(hour, 2, 0, 23);
    ReadsBack(min, 2, 0, 59);
    ReadsBack(sec, 2, 0, 60);
  }

  /** The pieces `toRfc822` prints, each reading as the stamp's field,
      read back as the stamp with zone `GMT`. */
  lemma Rfc822PiecesRead(p0: string, p2: string, p4: string, p6: string, p8: string,
                         p10: string, p12: string, w: int, st: Stamp)
    requires |p0| == 3 && |p2| == 2 && |p4| == 3 && |p6| == 4
    requires |p8| == 2 && |p10| == 2 && |p12| == 2
    requires ValidDayName(p0) == Some(w) && ValidNum(p2, 1, 31) == Some(st.mday)
    requires ValidMonthName(p4) == Some(st.mon) && ValidNum(p6, 1000, 3000) == Some(st.year)
    requires ValidNum(p8, 0, 23) == Some(st.hour) && ValidNum(p10, 0, 59) == Some(st.min)
    requires ValidNum(p12, 0, 60) == Some(st.sec)
    ensures var s := Concat([p0, ", ", p2, " ", p4, " ", p6, " ", p8, ":", p10, ":", p12, " GMT"]);
      |s| == 29 && Rfc822Fields(s) == Some((w, st)) && Zone(s, 26) == Some(0)
  {
    Rfc822Cut(p0, p2, p4, p6, p8, p10, p12);
    Rfc822FieldsOf(Concat([p0, ", ", p2, " ", p4, " ", p6, " ", p8, ":", p10, ":", p12, " GMT"]), w, st);
  }

  /** Separators in place and every field reading as the stamp's. */
  lemma Rfc822FieldsOf(s: string, w: int, st: Stamp)
    requires |s| >= 26
    requires s[3] == ',' && s[4] == ' ' && s[7] == ' ' && s[11] == ' ' && s[16] == ' '
    requires s[19] == ':' && s[22] == ':' && s[25] == ' '
    requires ValidDayName(s[0..3]) == Some(w) && ValidNum(s[5..7], 1, 31) == Some(st.mday)
    requires ValidMonthName(s[8..11]) == Some(st.mon) && ValidNum(s[12..16], 1000, 3000) == Some(st.year)
    requires ValidNum(s[17..19], 0, 23) == Some(st.hour) && ValidNum(s[20..22], 0, 59) == Some(st.min)
    requires ValidNum(s[23..25], 0, 60) == Some(st.sec)
    ensures Rfc822Fields(s) == Some((w, st))
  {
  }

  /** `fromRfc822(toRfc822())` gives back the same instant, now labelled
      with offset 0. */
  lemma Rfc822RoundTrip(d0: EasyDate, d: EasyDate, tzName: bool)
    requires WellFormed(d)
    ensures Nameable(d)
    ensures FromRfc822(d0, ToRfc822(d, tzName)) == Outcome(d.(offUtc := 0), true)
  {
    var s := ToRfc822(d, tzName);
    var st := Stamp(d.year, d.mon, d.mday, d.hour, d.min, d.sec);
    Rfc822Read(d, tzName);
    assert FromRfc822(d0, s) == Store(d0, st, d.wday, 0);
    StoreOwnStamp(d0, d, d.wday);
  }

  /** The weekday name is checked against the table but not against the
      date: any other name reads the same. */
  lemma Rfc822IgnoresDayName(d: EasyDate, s: string, k: int)
    requires 0 <= k < 7 && FromRfc822(d, s).ok
    ensures FromRfc822(d, ShortDayNames[k] + s[3..]) == FromRfc822(d, s)
  {
    var t := ShortDayNames[k] + s[3..];
    RenamedFields(s, k);
    RenamedZone(s, k);
    match (Rfc822Fields(s), Zone(s, 26))
    case (Some((w, st)), Some(off)) =>
      StoreLandsOn(d, st, k, off, FromRfc822(d, s).date);
    case _ =>
  }

  lemma RenamedFields(s: string, k: int)
    requires 0 <= k < 7 && |s| >= 26
    ensures var t := ShortDayNames[k] + s[3..];
      |t| == |s| && (Rfc822Fields(s).Some? ==> Rfc822Fields(t) == Some((k, Rfc822Fields(s).value.1)))
  {
    var t := ShortDayNames[k] + s[3..];
    assert t[0..3] == ShortDayNames[k];
    assert forall i :: 3 <= i < |s| ==> t[i] == s[i];
    assert t[5..7] == s[5..7] && t[8..11] == s[8..11] && t[12..16] == s[12..16];
    assert t[17..19] == s[17..19] && t[20..22] == s[20..22] && t[23..25] == s[23..25];
    NamesReadBack(k);
  }

  lemma RenamedZone(s: string, k: int)
    requires 0 <= k < 7 && |s| >= 26
    ensures Zone(ShortDayNames[k] + s[3..], 26) == Zone(s, 26)
  {
    var t := ShortDayNames[k] + s[3..];
    assert forall i :: 3 <= i < |s| ==> t[i] == s[i];
    if |s| >= 31 {
      assert t[27..29] == s[27..29] && t[29..31] == s[29..31];
    }
    if |s| >= 29 {
      assert t[26..29] == s[26..29];
    }
  }

  // ---------------------------------------------------------------------
  // asctime: "Sun Nov  6 08:49:37 1994"

  /** `toAsctime`: the stored UTC fields, the day of the month padded with
      a blank, everything else with `'0'`. */
  function ToAsctime(d: EasyDate): string
    requires Nameable(d)
  {
    Concat([WDayName(d), " ", MonName(d), " ", SetW(d.mday, 2, ' '), " ", Pad0(d.hour, 2), ":",
            Pad0(d.min, 2), ":", Pad0(d.sec, 2), " ", Pad0(d.year, 4)])
  }

  function AsctimeFields(s: string): (r: Option<(int, Stamp)>)
    requires |s| >= 24
    ensures r.Some? ==> 0 <= r.value.0 < 7 && 1 <= r.value.1.mon <= 12
    ensures r.Some? ==> 1000 <= r.value.1.year <= 3000
  {
    if s[3] != ' ' || s[7] != ' ' || s[10] != ' ' || s[13] != ':' || s[16] != ':'
       || s[19] != ' ' then None
    else
      match (ValidDayName(s[0..3]), ValidMonthName(s[4..7]), ValidNum(s[8..10], 1, 31),
             ValidNum(s[11..13], 0, 23), ValidNum(s[14..16], 0, 59),
             ValidNum(s[17..19], 0, 60), ValidNum(s[20..24], 1000, 3000))
      case (Some(w), Some(mo), Some(md), Some(h), Some(mi), Some(se), Some(y)) =>
        Some((w, Stamp(y, mo, md, h, mi, se)))
      case _ => None
  }

  /** `fromAsctime`: the layout carries no zone, so the offset becomes 0. */
  function FromAsctime(d: EasyDate, s: string): (r: Outcome)
    ensures |s| < 24 ==> r == Outcome(d, false)
    ensures r.ok ==> WellFormed(r.date) && r.date.offUtc == 0
  {
    if |s| < 24 then Outcome(d, false)
    else
      match AsctimeFields(s)
      case Some((w, st)) => Store(d, st, w, 0)
      case None => Outcome(d, false)
  }

  lemma AsctimeCut(p0: string, p2: string, p4: string, p6: string, p8: string,
                   p10: string, p12: string)
    requires |p0| == 3 && |p2| == 3 && |p4| == 2 && |p6| == 2
    requires |p8| == 2 && |p10| == 2 && |p12| == 4
    ensures var s := Concat([p0, " ", p2, " ", p4, " ", p6, ":", p8, ":", p10, " ", p12]);
      |s| == 24 && s[0..3] == p0 && s[3] == ' ' && s[4..7] == p2 && s[7] == ' '
      && s[8..10] == p4 && s[10] == ' ' && s[11..13] == p6 && s[13] == ':'
      && s[14..16] == p8 && s[16] == ':' && s[17..19] == p10 && s[19] == ' '
      && s[20..24] == p12
  {
    var ps := [p0, " ", p2, " ", p4, " ", p6, ":", p8, ":", p10, " ", p12];
    var s := Concat(ps);
    assert OffsetOf(ps, 1) == 3;
    assert OffsetOf(ps, 2) == 4;
    assert OffsetOf(ps, 3) == 7;
    assert OffsetOf(ps, 4) == 8;
    assert OffsetOf(ps, 5) == 10;
    assert OffsetOf(ps, 6) == 11;
    assert OffsetOf(ps, 7) == 13;
    assert OffsetOf(ps, 8) == 14;
    assert OffsetOf(ps, 9) == 16;
    assert OffsetOf(ps, 10) == 17;
    assert OffsetOf(ps, 11) == 19;
    assert OffsetOf(ps, 12) == 20;
    assert OffsetOf(ps, 13) == 24;
    ConcatLength(ps);
    PieceAt(ps, 0, 0);
    PieceAt(ps, 1, 3);
    PieceAt(ps, 2, 4);
    PieceAt(ps, 3, 7);
    PieceAt(ps, 4, 8);
    PieceAt(ps, 5, 10);
    PieceAt(ps, 6, 11);
    PieceAt(ps, 7, 13);
    PieceAt(ps, 8, 14);
    PieceAt(ps, 9, 16);
    PieceAt(ps, 10, 17);
    PieceAt(ps, 11, 19);
    PieceAt(ps, 12, 20);
  }

  lemma AsctimeRead(d: EasyDate)
    requires WellFormed(d)
    ensures Nameable(d) && |ToAsctime(d)| == 24
    ensures AsctimeFields(ToAsctime(d))
      == Some((d.wday, Stamp(d.year, d.mon, d.mday, d.hour, d.min, d.sec)))
  {
    FieldsReadBack(d);
    AsctimePiecesRead(WDayName(d), MonName(d), SetW(d.mday, 2, ' '), Pad0(d.hour, 2),
                      Pad0(d.min, 2), Pad0(d.sec, 2), Pad0(d.year, 4),
                      d.wday, Stamp(d.year, d.mon, d.mday, d.hour, d.min, d.sec));
  }

  /** The pieces `toAsctime` prints, each reading as the stamp's field,
      read back as the stamp. */
  lemma AsctimePiecesRead(p0: string, p2: string, p4: string, p6: string, p8: string,
                          p10: string, p12: string, w: int, st: Stamp)
    requires |p0| == 3 && |p2| == 3 && |p4| == 2 && |p6| == 2
    requires |p8| == 2 && |p10| == 2 && |p12| == 4
    requires ValidDayName(p0) == Some(w) && ValidMonthName(p2) == Some(st.mon)
    requires ValidNum(p4, 1, 31) == Some(st.mday) && ValidNum(p6, 0, 23) == Some(st.hour)
    requires ValidNum(p8, 0, 59) == Some(st.min) && ValidNum(p10, 0, 60) == Some(st.sec)
    requires ValidNum(p12, 1000, 3000) == Some(st.year)
    ensures var s := Concat([p0, " ", p2, " ", p4, " ", p6, ":", p8, ":", p10, " ", p12]);
      |s| == 24 && AsctimeFields(s) == Some((w, st))
  {
    AsctimeCut(p0, p2, p4, p6, p8, p10, p12);
    AsctimeFieldsOf(Concat([p0, " ", p2, " ", p4, " ", p6, ":", p8, ":", p10, " ", p12]), w, st);
  }

  /** Separators in place and every field reading as the stamp's. */
  lemma AsctimeFieldsOf(s: string, w: int, st: Stamp)
    requires |s| >= 24
    requires s[3] == ' ' && s[7] == ' ' && s[10] == ' ' && s[13] == ':' && s[16] == ':' && s[19] == ' '
    requires ValidDayName(s[0..3]) == Some(w) && ValidMonthName(s[4..7]) == Some(st.mon)
    requires ValidNum(s[8..10], 1, 31) == Some(st.mday) && ValidNum(s[11..13], 0, 23) == Some(st.hour)
    requires ValidNum(s[14..16], 0, 59) == Some(st.min) && ValidNum(s[17..19], 0, 60) == Some(st.sec)
    requires ValidNum(s[20..24], 1000, 3000) == Some(st.year)
    ensures AsctimeFields(s) == Some((w, st))
  {
  }

  /** `fromAsctime(toAsctime())` gives back the same instant with offset 0. */
  lemma AsctimeRoundTrip(d0: EasyDate, d: EasyDate)
    requires WellFormed(d)
    ensures Nameable(d)
    ensures FromAsctime(d0, ToAsctime(d)) == Outcome(d.(offUtc := 0), true)
  {
    var st := Stamp(d.year, d.mon, d.mday, d.hour, d.min, d.sec);
    AsctimeRead(d);
    assert FromAsctime(d0, ToAsctime(d)) == Store(d0, st, d.wday, 0);
    StoreOwnStamp(d0, d, d.wday);
  }

  // ---------------------------------------------------------------------
  // RFC 850 / RFC 1036: "Sunday, 06-Nov-94 08:49:37 GMT"

  /** What follows the long weekday name, with the two-digit year `yy`. */
  function Rfc850After(d: EasyDate, yy: int): string
    requires Nameable(d)
  {
    Concat([", ", Pad0(d.mday, 2), "-", MonName(d), "-", Pad0(yy, 2), " ", Pad0(d.hour, 2), ":",
            Pad0(d.min, 2), ":", Pad0(d.sec, 2), " GMT"])
  }

  /** `toRfc850` as written: the year printed is `m_year % 10`, one digit
      padded to two, so the decade and century are lost. */
  function ToRfc850(d: EasyDate): string
    requires Nameable(d)
  {
    WDayLongName(d) + Rfc850After(d, Rem(d.year, 10))
  }

  /** The writer as evidently intended: the last two digits of the year. */
  function ToRfc850Fixed(d: EasyDate): string
    requires Nameable(d)
  {
    WDayLongName(d) + Rfc850After(d, Rem(d.year, 100))
  }

  /** The fixed positions of `fromRfc850`, counted from the comma: two-digit
      years are read as 1900 + `yy`. */
  function Rfc850Fields(t: string): (r: Option<Stamp>)
    requires |t| >= 21
    ensures r.Some? ==> 1 <= r.value.mon <= 12 && 1900 <= r.value.year <= 1999
  {
    if t[0] != ',' || t[1] != ' ' || t[4] != '-' || t[8] != '-' || t[11] != ' '
       || t[14] != ':' || t[17] != ':' || t[20] != ' ' then None
    else
      match (ValidNum(t[2..4], 1, 31), ValidMonthName(t[5..8]), ValidNum(t[9..11], 0, 99),
             ValidNum(t[12..14], 0, 23), ValidNum(t[15..17], 0, 59), ValidNum(t[18..20], 0, 60))
      case (Some(md), Some(mo), Some(yy), Some(h), Some(mi), Some(se)) =>
        Some(Stamp(1900 + yy, mo, md, h, mi, se))
      case _ => None
  }

  /** `fromRfc850` as written: the weekday name must be everything before
      the first comma, but the fixed positions are checked from index 0 of
      the whole text, where a comma is also demanded. */
  function FromRfc850(d: EasyDate, s: string): (r: Outcome)
    ensures r.ok ==> WellFormed(r.date)
  {
    match FindChar(s, ',', 0)
    case None => Outcome(d, false)
    case Some(pos) =>
      match ValidDayName(s[..pos])
      case None => Outcome(d, false)
      case Some(w) =>
        if |s| < 21 then Outcome(d, false)
        else
          match (Rfc850Fields(s), Zone(s, 21))
          case (Some(st), Some(off)) => Store(d, st, w, off)
          case _ => Outcome(d, false)
  }

  /** Reading RFC 850 as written always fails and leaves the date alone: a
      comma at index 0 makes the weekday name empty. */
  lemma FromRfc850NeverSucceeds(d: EasyDate, s: string)
    ensures FromRfc850(d, s) == Outcome(d, false)
  {
    match FindChar(s, ',', 0)
    case None =>
    case Some(pos) =>
      if pos == 0 {
        assert s[..pos] == "" && ValidDayName("") == None;
      } else if |s| >= 21 {
        assert s[0] != ',';
        assert Rfc850Fields(s) == None;
      }
  }

  /** The reader as evidently intended: the fixed positions counted from
      the comma that ends the weekday name. */
  function FromRfc850Fixed(d: EasyDate, s: string): (r: Outcome)
    ensures r.ok ==> WellFormed(r.date)
    ensures r.ok ==> r.date.offUtc % 60 == 0 && -46740 <= r.date.offUtc <= 46740
  {
    match FindChar(s, ',', 0)
    case None => Outcome(d, false)
    case Some(pos) =>
      match ValidDayName(s[..pos])
      case None => Outcome(d, false)
      case Some(w) =>
        if |s[pos..]| < 21 then Outcome(d, false)
        else
          match (Rfc850Fields(s[pos..]), Zone(s[pos..], 21))
          case (Some(st), Some(off)) => Store(d, st, w, off)
          case _ => Outcome(d, false)
  }

  lemma Rfc850Cut(p1: string, p3: string, p5: string, p7: string, p9: string, p11: string)
    requires |p1| == 2 && |p3| == 3 && |p5| == 2 && |p7| == 2 && |p9| == 2 && |p11| == 2
    ensures var t := Concat([", ", p1, "-", p3, "-", p5, " ", p7, ":", p9, ":", p11, " GMT"]);
      |t| == 24 && t[0] == ',' && t[1] == ' ' && t[2..4] == p1 && t[4] == '-'
      && t[5..8] == p3 && t[8] == '-' && t[9..11] == p5 && t[11] == ' '
      && t[12..14] == p7 && t[14] == ':' && t[15..17] == p9 && t[17] == ':'
      && t[18..20] == p11 && t[20] == ' ' && t[21..24] == "GMT"
  {
    var ps := [", ", p1, "-", p3, "-", p5, " ", p7, ":", p9, ":", p11, " GMT"];
    var t := Concat(ps);
    assert OffsetOf(ps, 1) == 2;
    assert OffsetOf(ps, 2) == 4;
    assert OffsetOf(ps, 3) == 5;
    assert OffsetOf(ps, 4) == 8;
    assert OffsetOf(ps, 5) == 9;
    assert OffsetOf(ps, 6) == 11;
    assert OffsetOf(ps, 7) == 12;
    assert OffsetOf(ps, 8) == 14;
    assert OffsetOf(ps, 9) == 15;
    assert OffsetOf(ps, 10) == 17;
    assert OffsetOf(ps, 11) == 18;
    assert OffsetOf(ps, 12) == 20;
    assert OffsetOf(ps, 13) == 24;
    ConcatLength(ps);
    PieceAt(ps, 0, 0);
    PieceAt(ps, 1, 2);
    PieceAt(ps, 2, 4);
    PieceAt(ps, 3, 5);
    PieceAt(ps, 4, 8);
    PieceAt(ps, 5, 9);
    PieceAt(ps, 6, 11);
    PieceAt(ps, 7, 12);
    PieceAt(ps, 8, 14);
    PieceAt(ps, 9, 15);
    PieceAt(ps, 10, 17);
    PieceAt(ps, 11, 18);
    PieceAt(ps, 12, 20);
    assert t[0] == t[0..2][0] && t[1] == t[0..2][1];
    assert t[20] == t[20..24][0] && t[21..24] == t[20..24][1..];
  }

  /** The tail after the weekday name, read from its comma. */
  lemma Rfc850AfterRead(d: EasyDate, yy: int)
    requires WellFormed(d) && 0 <= yy <= 99
    ensures Nameable(d) && |Rfc850After(d, yy)| == 24 && Rfc850After(d, yy)[0] == ','
    ensures Rfc850Fields(Rfc850After(d, yy))
      == Some(Stamp(1900 + yy, d.mon, d.mday, d.hour, d.min, d.sec))
    ensures Zone(Rfc850After(d, yy), 21) == Some(0)
  {
    FieldsReadBack(d);
    ReadsBack(yy, 2, 0, 99);
    var st := Stamp(1900 + yy, d.mon, d.mday, d.hour, d.min, d.sec);
    assert ValidNum(Pad0(yy, 2), 0, 99) == Some(st.year - 1900);
    assert |Pad0(d.mday, 2)| == 2 && |MonName(d)| == 3 && |Pad0(yy, 2)| == 2;
    assert |Pad0(d.hour, 2)| == 2 && |Pad0(d.min, 2)| == 2 && |Pad0(d.sec, 2)| == 2;
    assert ValidNum(Pad0(d.mday, 2), 1, 31) == Some(st.mday);
    assert ValidMonthName(MonName(d)) == Some(st.mon);
    assert ValidNum(Pad0(d.hour, 2), 0, 23) == Some(st.hour);
    assert ValidNum(Pad0(d.min, 2), 0, 59) == Some(st.min);
    assert ValidNum(Pad0(d.sec, 2), 0, 60) == Some(st.sec);
    Rfc850PiecesRead(Pad0(d.mday, 2), MonName(d), Pad0(yy, 2), Pad0(d.hour, 2),
                     Pad0(d.min, 2), Pad0(d.sec, 2), st);
  }

  /** The pieces `toRfc850` prints after the weekday, each reading as the
      stamp's field, read back as the stamp with zone `GMT`. */
  lemma Rfc850PiecesRead(p1: string, p3: string, p5: string, p7: string, p9: string, p11: string,
                         st: Stamp)
    requires |p1| == 2 && |p3| == 3 && |p5| == 2 && |p7| == 2 && |p9| == 2 && |p11| == 2
    requires ValidNum(p1, 1, 31) == Some(st.mday) && ValidMonthName(p3) == Some(st.mon)
    requires ValidNum(p5, 0, 99) == Some(st.year - 1900)
    requires ValidNum(p7, 0, 23) == Some(st.hour) && ValidNum(p9, 0, 59) == Some(st.min)
    requires ValidNum(p11, 0, 60) == Some(st.sec)
    ensures var t := Concat([", ", p1, "-", p3, "-", p5, " ", p7, ":", p9, ":", p11, " GMT"]);
      |t| == 24 && t[0] == ',' && Rfc850Fields(t) == Some(st) && Zone(t, 21) == Some(0)
  {
    Rfc850Cut(p1, p3, p5, p7, p9, p11);
    var t := Concat([", ", p1, "-", p3, "-", p5, " ", p7, ":", p9, ":", p11, " GMT"]);
    Rfc850FieldsOf(t, st);
  }

  /** Separators in place and every field reading as the stamp's. */
  lemma Rfc850FieldsOf(t: string, st: Stamp)
    requires |t| >= 21
    requires t[0] == ',' && t[1] == ' ' && t[4] == '-' && t[8] == '-' && t[11] == ' '
    requires t[14] == ':' && t[17] == ':' && t[20] == ' '
    requires ValidNum(t[2..4], 1, 31) == Some(st.mday) && ValidMonthName(t[5..8]) == Some(st.mon)
    requires ValidNum(t[9..11], 0, 99) == Some(st.year - 1900)
    requires ValidNum(t[12..14], 0, 23) == Some(st.hour) && ValidNum(t[15..17], 0, 59) == Some(st.min)
    requires ValidNum(t[18..20], 0, 60) == Some(st.sec)
    ensures Rfc850Fields(t) == Some(st)
  {
  }

  /** No long weekday name holds a comma, so the first comma of the text
      is the one that follows the name. */
  lemma FirstCommaAfterName(w: int, t: string)
    requires 0 <= w < 7 && |t| > 0 && t[0] == ','
    ensures FindChar(LongDayNames[w] + t, ',', 0) == Some(|LongDayNames[w]|)
    ensures (LongDayNames[w] + t)[..|LongDayNames[w]|] == LongDayNames[w]
    ensures (LongDayNames[w] + t)[|LongDayNames[w]|..] == t
  {
    NoCommaInLongName(w);
    CommaAfter(LongDayNames[w], t);
  }

  lemma CommaAfter(name: string, t: string)
    requires ',' !in name && |t| > 0 && t[0] == ','
    ensures FindChar(name + t, ',', 0) == Some(|name|)
    ensures (name + t)[..|name|] == name && (name + t)[|name|..] == t
  {
    assert t == [','] + t[1..];
    assert name + t == name + [','] + t[1..];
    FindCharAfter(name, ',', t[1..]);
  }

  lemma NoCommaInLongName(w: int)
    requires 0 <= w < 7
    ensures ',' !in LongDayNames[w]
  {
  }

  /** What the intended reader makes of a text written by either writer:
      the stamp with year 1900 + `yy`, offset 0 and the written weekday. */
  lemma Rfc850Reads(d0: EasyDate, d: EasyDate, yy: int)
    requires WellFormed(d) && 0 <= yy <= 99
    ensures Nameable(d)
    ensures FromRfc850Fixed(d0, WDayLongName(d) + Rfc850After(d, yy))
      == Store(d0, Stamp(1900 + yy, d.mon, d.mday, d.hour, d.min, d.sec), d.wday, 0)
  {
    Rfc850AfterRead(d, yy);
    NamesReadBack(d.wday);
    FirstCommaAfterName(d.wday, Rfc850After(d, yy));
  }

  /** With the intended writer and reader, a date of the twentieth century
      survives the round trip (with offset 0). */
  lemma Rfc850FixedRoundTrip(d0: EasyDate, d: EasyDate)
    requires WellFormed(d) && 1900 <= d.year <= 1999
    ensures Nameable(d)
    ensures FromRfc850Fixed(d0, ToRfc850Fixed(d)) == Outcome(d.(offUtc := 0), true)
  {
    var yy := d.year - 1900;
    assert Rem(d.year, 100) == yy;
    assert ToRfc850Fixed(d) == WDayLongName(d) + Rfc850After(d, yy);
    Rfc850Reads(d0, d, yy);
    StoreOwnStamp(d0, d, d.wday);
  }

  /** An earlier day at the same time of day is an earlier instant. */
  lemma EarlierDaySameClock(a: int, b: int, h: int, m: int, s: int)
    requires a < b
    ensures ((a * 24 + h) * 60 + m) * 60 + s < ((b * 24 + h) * 60 + m) * 60 + s
  {
    assert (b * 24 + h) - (a * 24 + h) == (b - a) * 24;
  }

  /** The same month and day in an earlier year come earlier, even when
      only one of the two years is a leap year. */
  lemma EarlierYearSameDay(y: int, y': int, m: int, md: int)
    requires y < y' && 1 <= m <= 12
    ensures DayNumber(y, m, md) < DayNumber(y', m, md)
  {
    YearStartMonotone(y, y');
    DaysBeforeMonthTable(y, m);
    DaysBeforeMonthTable(y', m);
  }

  /** Written as the source writes it, every date from 1910 to 1999 comes
      back decades too early: only `year % 10` reaches the text. */
  lemma Rfc850LosesDecade(d0: EasyDate, d: EasyDate)
    requires WellFormed(d) && 1910 <= d.year <= 1999
    ensures Nameable(d)
    ensures var r := FromRfc850Fixed(d0, ToRfc850(d));
      1 <= r.date.mon <= 12 && ToSeconds(r.date) < ToSeconds(d)
  {
    var yy := Rem(d.year, 10);
    var st := Stamp(1900 + yy, d.mon, d.mday, d.hour, d.min, d.sec);
    Rfc850Reads(d0, d, yy);
    EarlierYearSameDay(1900 + yy, d.year, d.mon, d.mday);
    EarlierDaySameClock(DayNumber(1900 + yy, d.mon, d.mday), DayNumber(d.year, d.mon, d.mday),
                        d.hour, d.min, d.sec);
  }

  /** The date of the RFC 2616 example, 1994-11-06 08:49:37 UTC. */
  const Sample1994 := EasyDate(1994, 11, 309, 6, 0, 8, 49, 37, 0)

  lemma Sample1994WellFormed()
    ensures WellFormed(Sample1994)
  {
    assert DaysBeforeMonth(1994, 11) == 304 by {
      DaysBeforeMonthTable(1994, 11);
    }
    assert Weekday(1994, 11, 6) == 0 by {
      WeekdayExamples();
    }
    assert DaysInMonth(1994, 11) == 30;
  }

  lemma Sample1994LosesDecade(d0: EasyDate)
    ensures WellFormed(Sample1994)
    ensures FromRfc850Fixed(d0, ToRfc850(Sample1994)).date != Sample1994
  {
    Sample1994WellFormed();
    Rfc850LosesDecade(d0, Sample1994);
  }
}

=== FILE: httpfetch.dfy ===
/** The decisions of the caching HTTP client `HttpFetch`. */
module HttpCache {
  // Which mirror to ask, when a cached copy is fresh enough to skip the
  // transfer, which conditional request headers to send (If-Modified-Since
  // and If-None-Match, sections 14.25 and 14.26 of RFC 2616), how the
  // outcome of a transfer is classified (304 Not Modified, section 10.3.5),
  // how the cached header files are read back, and which directory entries
  // count as cached files. The transfer itself, the random draw, the clock
  // and the file system are inputs.

  import opened Wrappers
  import opened CText
  import opened EasyDates
  import opened HttpDates

  // ---------------------------------------------------------------------
  // Mirror selection

  /** The mirror chosen and the pause, in milliseconds, requested before
      the transfer. */
  datatype Choice = Choice(base: string, delayMs: int)

  predicate Distinct(s: seq<string>) {
    forall i, j :: 0 <= i < j < |s| ==> s[i] != s[j]
  }

  /** `selectNextBase`. `draw` is the random number; `prev` is the mirror
      chosen last time, empty before the first choice. An empty list ends
      the process, which is `None` here. */
  function SelectNextBase(base: seq<string>, prev: string, draw: nat): (r: Option<Choice>)
    ensures r.None? <==> |base| == 0
    ensures r.Some? ==> r.value.base in base
    ensures r.Some? ==> r.value.delayMs == if |base| == 1 then 1000 else 500
  {
    if |base| > 1 then
      var m := draw % |base|;
      if prev == "" then Some(Choice(base[m], 500))
      else if base[m] == prev then Some(Choice(base[(m + 1) % |base|], 500))
      else Some(Choice(base[m], 500))
    else if |base| == 1 then Some(Choice(base[0], 1000))
    else None
  }

  /** The first choice is the draw itself, so every mirror can be the
      first one asked. */
  lemma FirstChoiceIsDraw(base: seq<string>, i: nat)
    requires i < |base|
    ensures SelectNextBase(base, "", i) == Some(Choice(base[i], if |base| == 1 then 1000 else 500))
  {
  }

  /** Among distinct mirrors, a later choice never repeats the one before:
      a draw that would repeat it moves on to the next mirror. */
  lemma NextChoiceDiffers(base: seq<string>, prev: string, draw: nat)
    requires |base| > 1 && Distinct(base) && prev != ""
    ensures SelectNextBase(base, prev, draw).value.base != prev
  {
    var n := |base|;
    var m := draw % n;
    if base[m] == prev {
      var m' := (m + 1) % n;
      assert m' != m;
      if m' < m {
        assert base[m'] != base[m];
      } else {
        assert base[m] != base[m'];
      }
    }
  }

  // ---------------------------------------------------------------------
  // Cached header files

  /** The lines `std::getline` reads from a file: the text cut at every
      newline, the piece after the last newline included. */
  function Lines(text: string): (r: seq<string>)
    ensures |r| >= 1
    ensures forall i :: 0 <= i < |r| ==> '\n' !in r[i]
    decreases |text|
  {
    match FindChar(text, '\n', 0)
    case None => [text]
    case Some(p) => [text[..p]] + Lines(text[p + 1..])
  }

  /** Lines joined again with newlines. */
  function JoinLines(ls: seq<string>): string
    requires |ls| >= 1
    decreases |ls|
  {
    if |ls| == 1 then ls[0] else ls[0] + "\n" + JoinLines(ls[1..])
  }

  /** Cutting into lines loses nothing. */
  lemma {:induction false} LinesRoundTrip(text: string)
    ensures JoinLines(Lines(text)) == text
    decreases |text|
  {
    match FindChar(text, '\n', 0)
    case None =>
    case Some(p) =>
      var rest := Lines(text[p + 1..]);
      LinesRoundTrip(text[p + 1..]);
      assert Lines(text)[1..] == rest;
      assert text == text[..p] + "\n" + text[p + 1..];
  }

  /** One line of a header file as a key and a value: the line is cut at
      its first carriage return and split at its first ": "; a status line
      starting "HTTP/" without ": " is filed under "HTTP", valued by the
      text after the slash. Other lines are skipped. */
  function LineEntry(line: string): (r: Option<(string, string)>)
  {
    var l := CutAt(line, '\r');
    match FindSub(l, ": ", 0)
    case Some(p) => Some((l[..p], l[p + 2..]))
    case None => if StartsWith(l, "HTTP/") then Some((l[..4], l[5..])) else None
  }

  /** An entry is either the text before and after the first ": " of the
      line up to its carriage return, or, for a status line without ": ",
      the key "HTTP" and the text after "HTTP/"; a line is skipped exactly
      when it is neither. */
  lemma LineEntryMeans(line: string)
    ensures var l := CutAt(line, '\r'); var r := LineEntry(line);
      r.Some? ==>
        ((l == r.value.0 + ": " + r.value.1 && FindSub(l, ": ", 0) == Some(|r.value.0|))
         || (r.value.0 == "HTTP" && l == "HTTP/" + r.value.1 && FindSub(l, ": ", 0).None?))
    ensures LineEntry(line).None? <==>
      FindSub(CutAt(line, '\r'), ": ", 0).None? && !StartsWith(CutAt(line, '\r'), "HTTP/")
  {
    var l := CutAt(line, '\r');
    match FindSub(l, ": ", 0)
    case Some(p) =>
      assert l == l[..p] + ": " + l[p + 2..];
    case None =>
      if StartsWith(l, "HTTP/") {
        assert l == "HTTP/" + l[5..];
      }
  }

  /** A header line as a server sends it, "Key: value" and a carriage
      return, reads back as its key and value. */
  lemma EntryRoundTrip(key: string, value: string)
    requires ':' !in key && '\r' !in key && '\r' !in value
    ensures LineEntry(key + ": " + value + "\r") == Some((key, value))
  {
    var l := key + ": " + value;
    CutAtFirst(l, '\r', "");
    assert l + "\r" == l + ['\r'] + "";
    SplitsAtKey(key, value);
  }

  /** A line without a carriage return splits at its first ": ". */
  lemma EntryFound(key: string, value: string)
    requires ':' !in key && '\r' !in key && '\r' !in value
    ensures LineEntry(key + ": " + value) == Some((key, value))
  {
    CutAtAbsent(key + ": " + value, '\r');
    SplitsAtKey(key, value);
  }

  lemma SplitsAtKey(key: string, value: string)
    requires ':' !in key
    ensures var l := key + ": " + value;
      FindSub(l, ": ", 0) == Some(|key|) && l[..|key|] == key && l[|key| + 2..] == value
  {
    var l := key + ": " + value;
    forall k | 0 <= k < |key|
      ensures !OccursAt(l, ": ", k)
    {
      assert l[k] == key[k];
    }
    assert OccursAt(l, ": ", |key|);
    assert l[..|key|] == key && l[|key| + 2..] == value;
  }

  /** The entries of a header file, line by line; `None` for a skipped
      line. */
  function Entries(ls: seq<string>): (es: seq<Option<(string, string)>>)
    ensures |es| == |ls|
  {
    if |ls| == 0 then [] else [LineEntry(ls[0])] + Entries(ls[1..])
  }

  predicate Keyed(e: Option<(string, string)>, key: string) {
    e.Some? && e.value.0 == key
  }

  /** The first entry filed under `key`. */
  function FirstWith(es: seq<Option<(string, string)>>, key: string, from: nat): (r: Option<nat>)
    ensures r.Some? ==> from <= r.value < |es| && Keyed(es[r.value], key)
    ensures r.Some? ==> forall i :: from <= i < r.value ==> !Keyed(es[i], key)
    ensures r.None? ==> forall i :: from <= i < |es| ==> !Keyed(es[i], key)
    decreases |es| - from
  {
    if from >= |es| then None
    else if Keyed(es[from], key) then Some(from)
    else FirstWith(es, key, from + 1)
  }

  /** `getHeader`: `None` when the header file does not open. Otherwise the
      value of the first line filed under `hdr`; when there is none the
      call still succeeds and leaves `value` as it was. */
  function GetHeader(file: Option<string>, hdr: string, value: string): (r: Option<string>)
    ensures r.Some? <==> file.Some?
    ensures file.Some? ==> var es := Entries(Lines(file.value));
      match FirstWith(es, hdr, 0)
      case None => r.value == value
      case Some(i) => r.value == es[i].value.1
  {
    match file
    case None => None
    case Some(text) =>
      var es := Entries(Lines(text));
      match FirstWith(es, hdr, 0)
      case None => Some(value)
      case Some(i) => Some(es[i].value.1)
  }

  /** The last entry filed under `key` among the first `n`. */
  function LastWith(es: seq<Option<(string, string)>>, key: string, n: nat): (r: Option<nat>)
    requires n <= |es|
    ensures r.Some? ==> r.value < n && Keyed(es[r.value], key)
    ensures r.Some? ==> forall i :: r.value < i < n ==> !Keyed(es[i], key)
    ensures r.None? ==> forall i :: 0 <= i < n ==> !Keyed(es[i], key)
  {
    if n == 0 then None
    else if Keyed(es[n - 1], key) then Some(n - 1)
    else LastWith(es, key, n - 1)
  }

  /** The loop of `getHeaders` over the first `n` entries: each is stored
      in a map, so a later line with the same key overwrites an earlier
      one. */
  function HeaderMap(es: seq<Option<(string, string)>>, n: nat): (m: map<string, string>)
    requires n <= |es|
  {
    if n == 0 then map[]
    else match es[n - 1]
      case None => HeaderMap(es, n - 1)
      case Some(e) => HeaderMap(es, n - 1)[e.0 := e.1]
  }

  /** The map holds exactly the keys some entry is filed under, each with
      the value of its last entry. */
  lemma {:induction false} HeaderMapLast(es: seq<Option<(string, string)>>, n: nat, key: string)
    requires n <= |es|
    ensures key in HeaderMap(es, n) <==> LastWith(es, key, n).Some?
    ensures key in HeaderMap(es, n) ==> HeaderMap(es, n)[key] == es[LastWith(es, key, n).value].value.1
  {
    if n > 0 {
      HeaderMapLast(es, n - 1, key);
    }
  }

  /** `getHeaders`: when the header file opens, the map is cleared and
      refilled; otherwise the call fails and the map is left alone. */
  function GetHeaders(file: Option<string>, headers: map<string, string>): (r: (bool, map<string, string>))
    ensures r.0 <==> file.Some?
    ensures file.None? ==> r.1 == headers
    ensures file.Some? ==> var es := Entries(Lines(file.value));
      forall key :: key in r.1 <==> LastWith(es, key, |es|).Some?
  {
    match file
    case None => (false, headers)
    case Some(text) =>
      var es := Entries(Lines(text));
      forall key
        ensures key in HeaderMap(es, |es|) <==> LastWith(es, key, |es|).Some?
      {
        HeaderMapLast(es, |es|, key);
      }
      (true, HeaderMap(es, |es|))
  }

  /** At most one entry is filed under `key`. */
  predicate KeyOnce(es: seq<Option<(string, string)>>, key: string) {
    forall i, j :: 0 <= i < j < |es| && Keyed(es[i], key) ==> !Keyed(es[j], key)
  }

  /** With at most one entry under `key`, the first such entry is the
      last. */
  lemma FirstIsLast(es: seq<Option<(string, string)>>, key: string)
    requires KeyOnce(es, key)
    ensures FirstWith(es, key, 0) == LastWith(es, key, |es|)
  {
    var first := FirstWith(es, key, 0);
    var last := LastWith(es, key, |es|);
    if first.Some? && last.Some? && first.value < last.value {
      assert false;
    }
  }

  /** `getHeader` takes the first line with a key and `getHeaders` the
      last; when only one line carries the key, they agree. */
  lemma HeaderLookupsAgree(text: string, key: string, value: string)
    requires KeyOnce(Entries(Lines(text)), key)
    ensures var m := GetHeaders(Some(text), map[]).1;
      key in m ==> GetHeader(Some(text), key, value) == Some(m[key])
  {
    var es := Entries(Lines(text));
    HeaderMapLast(es, |es|, key);
    FirstIsLast(es, key);
  }

  lemma TwoLines(first: string, second: string)
    requires '\n' !in first && '\n' !in second
    ensures Lines(first + "\n" + second) == [first, second]
  {
    var text := first + "\n" + second;
    assert text == first + ['\n'] + second;
    FindCharAfter(first, '\n', second);
    assert text[..|first|] == first && text[|first| + 1..] == second;
    FindCharAbsent(second, '\n');
  }

  /** A header file with the key on two lines: the two lookups differ. */
  lemma FirstAndLastDiffer(key: string, a: string, b: string)
    requires ':' !in key && '\r' !in key && '\n' !in key
    requires '\r' !in a && '\n' !in a && '\r' !in b && '\n' !in b
    ensures var text := key + ": " + a + "\n" + key + ": " + b;
      var m := GetHeaders(Some(text), map[]).1;
      GetHeader(Some(text), key, "") == Some(a) && key in m && m[key] == b
  {
    var first := key + ": " + a;
    var second := key + ": " + b;
    assert key + ": " + a + "\n" + key + ": " + b == first + "\n" + second;
    TwoLines(first, second);
    var ls := [first, second];
    EntryFound(key, a);
    EntryFound(key, b);
    var es := Entries(ls);
    EntriesOfTwo(first, second);
    assert es == [Some((key, a)), Some((key, b))];
    assert FirstWith(es, key, 0) == Some(0);
    assert LastWith(es, key, 2) == Some(1);
    HeaderMapLast(es, 2, key);
  }

  lemma EntriesOfTwo(first: string, second: string)
    ensures Entries([first, second]) == [LineEntry(first), LineEntry(second)]
  {
    assert [first, second][1..] == [second];
    assert Entries([second]) == [LineEntry(second)];
  }

  // ---------------------------------------------------------------------
  // fetchFile

  /** Moving a date on one hour with `setHour` and comparing it with
      `operator>` compares instants: the date plus 3600 seconds is strictly
      after `now`. */
  lemma HourLaterMeans(d: EasyDate, now: EasyDate)
    requires Normalised(d) && Normalised(now)
    ensures Greater(SetHour(d, d.hour + 1).date, now) <==> ToSeconds(d) + 3600 > ToSeconds(now)
  {
    CompareBySeconds(SetHour(d, d.hour + 1).date, now);
  }

  /** The cached copy is fresh: its Date header reads as an RFC 822 date
      and is fresh. The date object starts from `now`, as the C++ object
      does. */
  function RecentlyCached(headers: map<string, string>, now: EasyDate): (r: bool)
    ensures Normalised(now) ==>
      (r <==> ("Date" in headers && FromRfc822(now, headers["Date"]).ok
               && ToSeconds(now) < ToSeconds(FromRfc822(now, headers["Date"]).date) + 3600))
  {
    "Date" in headers
    && var p := FromRfc822(now, headers["Date"]);
    p.ok && (assert Normalised(now) ==> Normalised(p.date); Greater(SetHour(p.date, p.date.hour + 1).date, now))
  }

  const AcceptEncoding := "Accept-Encoding: gzip, deflate, x-gzip, x-deflate, identity"
  const CacheControl := "Cache-Control: no-cache"
  const Pragma := "Pragma: no-cache"

  /** The conditional headers for the cached headers of the file, if any. */
  function Conditionals(cached: Option<map<string, string>>): (r: seq<string>)
    ensures |r| <= 2
  {
    match cached
    case None => []
    case Some(h) =>
      (if "Last-Modified" in h then ["If-Modified-Since: " + h["Last-Modified"]] else [])
      + (if "ETag" in h then ["If-None-Match: " + h["ETag"]] else [])
  }

  /** The request headers of `fetchFile`, in the order they are appended. */
  function RequestHeaders(cached: Option<map<string, string>>): (r: seq<string>)
    ensures 3 <= |r| <= 5
    ensures r[0] == AcceptEncoding && r[|r| - 2] == CacheControl && r[|r| - 1] == Pragma
  {
    [AcceptEncoding] + Conditionals(cached) + [CacheControl, Pragma]
  }

  /** The cached validators travel verbatim: If-Modified-Since carries the
      cached Last-Modified and comes first, If-None-Match carries the cached
      ETag, and each is sent exactly when its header was cached. */
  lemma RequestCarriesValidators(cached: Option<map<string, string>>)
    ensures var r := RequestHeaders(cached);
      var lm := cached.Some? && "Last-Modified" in cached.value;
      var et := cached.Some? && "ETag" in cached.value;
      |r| == 3 + (if lm then 1 else 0) + (if et then 1 else 0)
      && (lm ==> r[1] == "If-Modified-Since: " + cached.value["Last-Modified"])
      && (et ==> r[if lm then 2 else 1] == "If-None-Match: " + cached.value["ETag"])
  {
  }

  /** What the transfer reported. */
  datatype Transfer =
    | Completed(status: Option<int>)   // curl succeeded; the status, if curl could report it
    | HttpError                        // curl reported a status of 400 or more
    | Failed                           // curl failed for another reason

  /** What one call of `fetchFile` did. */
  datatype FetchStep =
    | NotReady                          // the cache directory or the curl handle could not be set up
    | NoMirror                          // the mirror list was empty: the process ends
    | Fresh(choice: Choice)             // recently cached: success without a transfer
    | Sent(choice: Choice, request: seq<string>, ok: bool, saved: bool)

  predicate Succeeded(s: FetchStep) {
    s.Fresh? || (s.Sent? && s.ok)
  }

  /** `fetchFile`. `ready` says whether the cache directory and the curl
      handle could be set up; `headerFile` is the text of the cached header
      file, if it opens; `saveOk` says whether the two cache files could be
      written. */
  function FetchFile(ready: bool, base: seq<string>, prev: string, draw: nat,
                     headerFile: Option<string>, now: EasyDate,
                     transfer: Transfer, saveOk: bool): (r: FetchStep)
    ensures r.NotReady? <==> !ready
    ensures r.NoMirror? <==> ready && |base| == 0
    ensures r.Fresh? || r.Sent? ==> Some(r.choice) == SelectNextBase(base, prev, draw)
    ensures r.Fresh? <==> ready && |base| > 0 && headerFile.Some?
                          && RecentlyCached(GetHeaders(headerFile, map[]).1, now)
    ensures r.Sent? ==> r.request == RequestHeaders(if headerFile.Some? then Some(GetHeaders(headerFile, map[]).1) else None)
    ensures r.Sent? ==> r.saved ==> r.ok
    ensures r.Sent? ==> (r.ok && r.saved <==> transfer.Completed? && transfer.status.Some?
                                              && transfer.status.value < 300 && saveOk)
    ensures r.Sent? ==> (r.ok && !r.saved <==> transfer == Completed(Some(304)))
  {
    if !ready then NotReady
    else match SelectNextBase(base, prev, draw)
      case None => NoMirror
      case Some(choice) =>
        var cached := if headerFile.Some? then Some(GetHeaders(headerFile, map[]).1) else None;
        if cached.Some? && RecentlyCached(cached.value, now) then Fresh(choice)
        else
          var request := RequestHeaders(cached);
          match transfer
          case Completed(Some(status)) =>
            if status < 300 then Sent(choice, request, saveOk, saveOk)
            else if status == 304 then Sent(choice, request, true, false)
            else Sent(choice, request, false, false)
          case _ => Sent(choice, request, false, false)
  }

  /** A file whose header file does not open is always transferred, and
      the request carries no conditional header. */
  lemma UncachedAlwaysSent(base: seq<string>, prev: string, draw: nat, now: EasyDate,
                           transfer: Transfer, saveOk: bool)
    requires |base| > 0
    ensures var r := FetchFile(true, base, prev, draw, None, now, transfer, saveOk);
      r.Sent? && r.request == [AcceptEncoding, CacheControl, Pragma]
  {
  }

  // ---------------------------------------------------------------------
  // listCacheFiles

  /** A directory entry is listed unless its first ".header" ends the
      name. */
  predicate KeepName(name: string) {
    match FindSub(name, ".header", 0)
    case None => true
    case Some(p) => p != |name| - 7
  }

  /** A name is left out exactly when it ends with ".header" and contains
      no earlier ".header". */
  lemma KeepNameMeans(name: string)
    ensures !KeepName(name) <==>
      |name| >= 7 && OccursAt(name, ".header", |name| - 7)
      && forall k :: 0 <= k < |name| - 7 ==> !OccursAt(name, ".header", k)
  {
  }

  /** The header file of a cached file is left out, but the header file
      of a cached header file is listed. */
  lemma DoubleHeaderListed(name: string)
    requires '.' !in name
    ensures !KeepName(name + ".header")
    ensures KeepName(name + ".header" + ".header")
  {
    HeaderFoundAfter(name, "");
    assert name + ".header" + "" == name + ".header";
    HeaderFoundAfter(name, ".header");
  }

  lemma HeaderFoundAfter(name: string, rest: string)
    requires '.' !in name
    ensures FindSub(name + ".header" + rest, ".header", 0) == Some(|name|)
  {
    var s := name + ".header" + rest;
    forall k | 0 <= k < |name|
      ensures !OccursAt(s, ".header", k)
    {
      assert s[k] == name[k] && name[k] in name;
    }
    assert s[|name|..|name| + 7] == ".header";
    assert OccursAt(s, ".header", |name|);
  }

  function KeptNames(names: seq<string>): (r: seq<string>)
    ensures forall x :: x in r <==> x in names && KeepName(x)
    ensures multiset(r) <= multiset(names)
  {
    if |names| == 0 then []
    else
      assert names == [names[0]] + names[1..];
      (if KeepName(names[0]) then [names[0]] else []) + KeptNames(names[1..])
  }

  predicate Sorted(s: seq<string>) {
    forall i :: 0 <= i < |s| - 1 ==> StrLessEq(s[i], s[i + 1])
  }

  /** Adjacent order gives order between any two positions. */
  lemma {:induction false} SortedPairs(s: seq<string>, i: nat, j: nat)
    requires Sorted(s) && i <= j < |s|
    ensures StrLessEq(s[i], s[j])
    decreases j - i
  {
    if i < j {
      SortedPairs(s, i + 1, j);
      if StrLess(s[i], s[i + 1]) && StrLess(s[i + 1], s[j]) {
        StrLessTransitive(s[i], s[i + 1], s[j]);
      }
    }
  }

  function InsertName(x: string, s: seq<string>): (r: seq<string>)
    requires Sorted(s)
    ensures Sorted(r) && multiset(r) == multiset(s) + multiset{x}
    ensures |r| == |s| + 1 && (r[0] == x || (|s| > 0 && r[0] == s[0]))
  {
    if |s| == 0 then [x]
    else if StrLessEq(x, s[0]) then [x] + s
    else
      var rest := InsertName(x, s[1..]);
      StrLessTotal(x, s[0]);
      assert s == [s[0]] + s[1..];
      [s[0]] + rest
  }

  /** `std::sort` on the names. */
  function SortNames(s: seq<string>): (r: seq<string>)
    ensures Sorted(r) && multiset(r) == multiset(s)
  {
    if |s| == 0 then []
    else
      assert s == s[..|s| - 1] + [s[|s| - 1]];
      InsertName(s[|s| - 1], SortNames(s[..|s| - 1]))
  }

  /** `listCacheFiles`: the kept directory entries are appended to `files`,
      which is not cleared, and the whole vector is sorted. `dir` is `None`
      when the cache directory does not open. */
  function ListCacheFiles(files: seq<string>, dir: Option<seq<string>>): (r: seq<string>)
    ensures Sorted(r)
    ensures dir.None? ==> multiset(r) == multiset(files)
    ensures dir.Some? ==> multiset(r) == multiset(files) + multiset(KeptNames(dir.value))
  {
    match dir
    case None => SortNames(files)
    case Some(names) => SortNames(files + KeptNames(names))
  }

  /** Two sorted arrangements of the same names start with the same name:
      each head is no greater than the other. */
  lemma SortedHeads(a: seq<string>, b: seq<string>)
    requires Sorted(a) && Sorted(b) && multiset(a) == multiset(b) && |a| > 0
    ensures |b| > 0 && a[0] == b[0]
  {
    assert |b| > 0 by {
      assert |multiset(b)| == |multiset(a)|;
    }
    assert a[0] in multiset(b);
    assert b[0] in multiset(a);
    var i :| 0 <= i < |b| && b[i] == a[0];
    var j :| 0 <= j < |a| && a[j] == b[0];
    SortedPairs(b, 0, i);
    SortedPairs(a, 0, j);
    if a[0] != b[0] {
      StrLessAsymmetric(a[0], b[0]);
      assert false;
    }
  }

  /** Removing the head removes one copy of it from the multiset. */
  lemma TailMultiset(a: seq<string>)
    requires |a| > 0
    ensures multiset(a[1..]) == multiset(a) - multiset{a[0]}
  {
    assert a == [a[0]] + a[1..];
    assert multiset(a) == multiset{a[0]} + multiset(a[1..]);
  }

  /** Sorting twice is sorting once: a sorted list is the only sorted
      arrangement of its names. */
  lemma {:induction false} SortedUnique(a: seq<string>, b: seq<string>)
    requires Sorted(a) && Sorted(b) && multiset(a) == multiset(b)
    ensures a == b
    decreases |a|
  {
    if |a| > 0 {
      SortedHeads(a, b);
      TailMultiset(a);
      TailMultiset(b);
      assert Sorted(a[1..]) && Sorted(b[1..]);
      SortedUnique(a[1..], b[1..]);
      assert a == [a[0]] + a[1..] && b == [b[0]] + b[1..];
    } else {
      assert |multiset(b)| == 0;
    }
  }
}

=== FILE: merge.dfy ===
/** The programme merge of `Channel::addProgram`: a new programme is fitted
    into a list kept in order of start time, and the programmes already in
    the list take priority. */
module ProgramMerge {

  // The candidate is dropped when an existing programme covers it, trimmed
  // at its start or its stop when one end clashes, and split in two around
  // an existing programme it straddles; the front part of a split is added
  // recursively and the scan goes on with the back part. What is left is
  // inserted before the first programme that starts strictly later.
  //
  // Times are whole seconds here; the channel model shows that the
  // `EasyDate` comparisons the source uses order programmes exactly as
  // their seconds do.

  /** A programme on the air from second `start` up to, but not including,
      second `stop`. The XML node a C++ `Program` carries travels with
      every piece of it exactly as the name does, and is left out. */
  datatype Prog = Prog(start: int, stop: int, name: string)

  /** No programme ends before it starts. */
  predicate Forward(ps: seq<Prog>) {
    forall i :: 0 <= i < |ps| ==> ps[i].start <= ps[i].stop
  }

  /** `x` is a piece of `p`: inside its period and under its name. */
  predicate Within(x: Prog, p: Prog) {
    p.start <= x.start && x.stop <= p.stop && x.name == p.name
  }

  predicate Overlap(a: Prog, b: Prog) {
    a.start < b.stop && b.start < a.stop
  }

  /** Non-empty programmes in order, each ending before the next starts. */
  predicate Valid(ps: seq<Prog>) {
    (forall i :: 0 <= i < |ps| ==> ps[i].start < ps[i].stop)
    && (forall i, j :: 0 <= i < j < |ps| ==> ps[i].stop <= ps[j].start)
  }

  /** Some programme of the list is on the air at second `t`. */
  predicate Covers(ps: seq<Prog>, t: int) {
    exists i :: 0 <= i < |ps| && ps[i].start <= t < ps[i].stop
  }

  /** Every programme of `ps` that starts at or after `t` keeps its distance
      from the end of the list in `r`: nothing was put after it. */
  predicate KeepsTail(ps: seq<Prog>, r: seq<Prog>, t: int) {
    |r| >= |ps|
    && forall m :: 0 <= m < |ps| && t <= ps[m].start ==> r[m + (|r| - |ps|)] == ps[m]
  }

  // ---------------------------------------------------------------------
  // The four clash cases

  /** How the candidate `p` meets the existing programme `e`, tested in the
      source's order: case 1 (inside), case 2 (straddles), case 3 (its start
      is taken), case 4 (its stop is taken). */
  datatype Clash = Inside | Straddles | StartTaken | StopTaken | Apart

  function ClashWith(p: Prog, e: Prog): Clash {
    if p.start >= e.start && p.stop <= e.stop then Inside
    else if p.start < e.start && p.stop > e.stop then Straddles
    else if p.start >= e.start && p.start < e.stop && p.stop > e.stop then StartTaken
    else if p.start < e.start && p.stop > e.start && p.stop <= e.stop then StopTaken
    else Apart
  }

  /** For non-empty programmes the four cases are exactly the ways of
      overlapping, and each is what its name says. */
  lemma ClashCases(p: Prog, e: Prog)
    requires p.start < p.stop && e.start < e.stop
    ensures ClashWith(p, e) == Apart <==> !Overlap(p, e)
    ensures ClashWith(p, e) == Inside <==> e.start <= p.start && p.stop <= e.stop
    ensures ClashWith(p, e) == Straddles <==> p.start < e.start && e.stop < p.stop
    ensures ClashWith(p, e) == StartTaken <==> e.start <= p.start < e.stop < p.stop
    ensures ClashWith(p, e) == StopTaken <==> p.start < e.start < p.stop <= e.stop
  {
  }

  // ---------------------------------------------------------------------
  // Insertion

  /** The first index at or after `from` whose programme starts strictly
      after `t`, or the end of the list. */
  function InsertPos(ps: seq<Prog>, t: int, from: nat): (j: nat)
    requires from <= |ps|
    ensures from <= j <= |ps|
    ensures forall i :: from <= i < j ==> ps[i].start <= t
    ensures j < |ps| ==> ps[j].start > t
    decreases |ps| - from
  {
    if from == |ps| || ps[from].start > t then from else InsertPos(ps, t, from + 1)
  }

  /** The final loop of `addProgram`: insert before the first programme that
      starts strictly later, else at the end. */
  function Insert(ps: seq<Prog>, p: Prog): (r: seq<Prog>)
    ensures |r| == |ps| + 1 && multiset(r) == multiset(ps) + multiset{p}
    ensures forall m :: 0 <= m < |ps| && ps[m].start > p.start ==> r[m + 1] == ps[m]
  {
    var j := InsertPos(ps, p.start, 0);
    InsertAt(ps, p, j);
    ps[..j] + [p] + ps[j..]
  }

  /** Putting `p` at index `j` adds it once and moves everything from `j` on
      one place up. */
  lemma InsertAt(ps: seq<Prog>, p: Prog, j: nat)
    requires j <= |ps| && forall i :: 0 <= i < j ==> ps[i].start <= p.start
    ensures var r := ps[..j] + [p] + ps[j..];
      multiset(r) == multiset(ps) + multiset{p}
      && forall m :: 0 <= m < |ps| && ps[m].start > p.start ==> r[m + 1] == ps[m]
  {
    var r := ps[..j] + [p] + ps[j..];
    assert ps == ps[..j] + ps[j..];
    forall m | 0 <= m < |ps| && ps[m].start > p.start
      ensures r[m + 1] == ps[m]
    {
      assert j <= m;
    }
  }

  /** Where `Insert` puts everything. */
  lemma InsertShape(ps: seq<Prog>, p: Prog)
    ensures var j := InsertPos(ps, p.start, 0); var r := Insert(ps, p);
      r[j] == p && (forall a :: 0 <= a < j ==> r[a] == ps[a])
      && (forall a :: j < a < |r| ==> r[a] == ps[a - 1])
  {
    var j := InsertPos(ps, p.start, 0);
    assert Insert(ps, p) == ps[..j] + [p] + ps[j..];
    Spliced(ps, p, j);
  }

  /** Where each element lands when `p` is put at index `j`. */
  lemma Spliced(ps: seq<Prog>, p: Prog, j: nat)
    requires j <= |ps|
    ensures var r := ps[..j] + [p] + ps[j..];
      r[j] == p && (forall a :: 0 <= a < j ==> r[a] == ps[a])
      && (forall a :: j < a < |r| ==> r[a] == ps[a - 1])
  {
  }

  /** Inserting keeps the list in order of start time. */
  lemma InsertSorted(ps: seq<Prog>, p: Prog)
    requires forall i, j :: 0 <= i < j < |ps| ==> ps[i].start <= ps[j].start
    ensures var r := Insert(ps, p);
      forall i, j :: 0 <= i < j < |r| ==> r[i].start <= r[j].start
  {
    InsertShape(ps, p);
  }

  // ---------------------------------------------------------------------
  // addProgram

  /** The shape one call leaves behind: no programme runs backwards, nothing
      is lost, and a non-empty `p` adds nothing after the programmes that
      start at or after its stop. */
  predicate Extends(ps: seq<Prog>, r: seq<Prog>, p: Prog) {
    Forward(r) && |r| >= |ps|
    && (p.start < p.stop ==> KeepsTail(ps, r, p.stop))
  }

  /** `addProgram` for a list in which no programme runs backwards and a
      candidate that does not run backwards either. */
  function AddProgram(ps: seq<Prog>, p: Prog): (r: seq<Prog>)
    requires Forward(ps) && p.start <= p.stop
    ensures Extends(ps, r, p)
    decreases p.stop - p.start, 2, 0
  {
    Scan(ps, p, 0)
  }

  /** The first loop of `addProgram`, at the `k`-th programme. */
  function Scan(ps: seq<Prog>, p: Prog, k: nat): (r: seq<Prog>)
    requires k <= |ps| && Forward(ps) && p.start <= p.stop
    ensures Extends(ps, r, p)
    decreases p.stop - p.start, 1, |ps| - k
  {
    if k == |ps| then
      InsertExtends(ps, p);
      Insert(ps, p)
    else
      var e := ps[k];
      match ClashWith(p, e)
      case Inside => ps
      case Straddles => Split(ps, p, k)
      case StartTaken => Scan(ps, p.(start := e.stop), k + 1)
      case StopTaken => Scan(ps, p.(stop := e.start), k + 1)
      case Apart => Scan(ps, p, k + 1)
  }

  /** Case 2: the front part, up to the start of the straddled programme
      `e`, is added by a recursive call; every piece of it starts before `e`
      does and so lands before `e`, and the scan goes on with the back part
      just after `e`, at its new index. */
  function Split(ps: seq<Prog>, p: Prog, k: nat): (r: seq<Prog>)
    requires k < |ps| && Forward(ps) && p.start <= p.stop
    requires ClashWith(p, ps[k]) == Straddles
    ensures Extends(ps, r, p)
    decreases p.stop - p.start, 0, 0
  {
    var e := ps[k];
    var f := Prog(p.start, e.start, p.name);
    var front := AddProgram(ps, f);
    TailIndex(ps, front, f.stop, k);
    var q := Prog(e.stop, p.stop, p.name);
    var r := Scan(front, q, k + (|front| - |ps|) + 1);
    ExtendsTwice(ps, front, r, f, q, p);
    r
  }

  /** The index at which the `k`-th programme sits after a call that kept
      the tail from it on. */
  lemma TailIndex(ps: seq<Prog>, r: seq<Prog>, t: int, k: nat)
    requires KeepsTail(ps, r, t) && k < |ps| && t <= ps[k].start
    ensures k + (|r| - |ps|) < |r| && r[k + (|r| - |ps|)] == ps[k]
  {
  }

  /** The definition of `Split`, for the lemmas that follow it. */
  lemma SplitIs(ps: seq<Prog>, p: Prog, k: nat)
    requires k < |ps| && Forward(ps) && p.start <= p.stop
    requires ClashWith(p, ps[k]) == Straddles
    ensures var front := AddProgram(ps, Prog(p.start, ps[k].start, p.name));
      Split(ps, p, k) == Scan(front, Prog(ps[k].stop, p.stop, p.name), k + (|front| - |ps|) + 1)
  {
  }

  lemma InsertExtends(ps: seq<Prog>, p: Prog)
    requires Forward(ps) && p.start <= p.stop
    ensures Extends(ps, Insert(ps, p), p)
  {
    var r := Insert(ps, p);
    var j := InsertPos(ps, p.start, 0);
    InsertShape(ps, p);
    forall i | 0 <= i < |r|
      ensures r[i].start <= r[i].stop
    {
      if i < j {
        assert r[i] == ps[i];
      } else if i > j {
        assert r[i] == ps[i - 1];
      }
    }
  }

  /** Two calls in a row, the second on the result of the first. */
  lemma ExtendsTwice(ps: seq<Prog>, front: seq<Prog>, r: seq<Prog>, f: Prog, q: Prog, p: Prog)
    requires Extends(ps, front, f) && Extends(front, r, q)
    requires f.stop <= p.stop && q.stop <= p.stop
    requires f.start < f.stop && q.start < q.stop
    ensures Extends(ps, r, p)
  {
    forall m | 0 <= m < |ps| && p.stop <= ps[m].start
      ensures r[m + (|r| - |ps|)] == ps[m]
    {
      var m' := m + (|front| - |ps|);
      TailIndex(ps, front, f.stop, m);
      TailIndex(front, r, q.stop, m');
    }
  }

  // ---------------------------------------------------------------------
  // Nothing is lost and only pieces of the candidate are added

  /** Every old programme is still there and everything added is a piece of
      `p`. */
  predicate Grows(ps: seq<Prog>, r: seq<Prog>, p: Prog) {
    multiset(ps) <= multiset(r)
    && forall x :: x in multiset(r) - multiset(ps) ==> Within(x, p)
  }

  lemma {:induction false} AddProgramGrows(ps: seq<Prog>, p: Prog)
    requires Forward(ps) && p.start <= p.stop
    ensures Grows(ps, AddProgram(ps, p), p)
    decreases p.stop - p.start, 2, 0
  {
    ScanGrows(ps, p, 0);
  }

  lemma {:induction false} ScanGrows(ps: seq<Prog>, p: Prog, k: nat)
    requires k <= |ps| && Forward(ps) && p.start <= p.stop
    ensures Grows(ps, Scan(ps, p, k), p)
    decreases p.stop - p.start, 1, |ps| - k
  {
    var r := Scan(ps, p, k);
    if k == |ps| {
      assert multiset(r) - multiset(ps) == multiset{p};
      forall x | x in multiset(r) - multiset(ps)
        ensures Within(x, p)
      {
        assert x == p;
      }
    } else {
      var e := ps[k];
      match ClashWith(p, e)
      case Inside =>
        assert multiset(ps) - multiset(ps) == multiset{};
      case Straddles =>
        SplitGrows(ps, p, k);
      case StartTaken =>
        ScanGrows(ps, p.(start := e.stop), k + 1);
        GrowsWider(ps, r, p.(start := e.stop), p);
      case StopTaken =>
        ScanGrows(ps, p.(stop := e.start), k + 1);
        GrowsWider(ps, r, p.(stop := e.start), p);
      case Apart =>
        ScanGrows(ps, p, k + 1);
    }
  }

  lemma {:induction false} SplitGrows(ps: seq<Prog>, p: Prog, k: nat)
    requires k < |ps| && Forward(ps) && p.start <= p.stop
    requires ClashWith(p, ps[k]) == Straddles
    ensures Grows(ps, Split(ps, p, k), p)
    decreases p.stop - p.start, 0, 0
  {
    var e := ps[k];
    var f := Prog(p.start, e.start, p.name);
    var front := AddProgram(ps, f);
    var k' := k + (|front| - |ps|);
    TailIndex(ps, front, f.stop, k);
    var q := Prog(e.stop, p.stop, p.name);
    var r := Scan(front, q, k' + 1);
    AddProgramGrows(ps, f);
    ScanGrows(front, q, k' + 1);
    GrowsTwice(ps, front, r, f, q, p);
    SplitIs(ps, p, k);
  }

  /** What holds of a piece holds of the whole. */
  lemma GrowsWider(ps: seq<Prog>, r: seq<Prog>, q: Prog, p: Prog)
    requires Grows(ps, r, q) && Within(q, p)
    ensures Grows(ps, r, p)
  {
  }

  /** Two calls in a row, each adding pieces of `p`. */
  lemma GrowsTwice(ps: seq<Prog>, front: seq<Prog>, r: seq<Prog>, f: Prog, q: Prog, p: Prog)
    requires Grows(ps, front, f) && Grows(front, r, q)
    requires Within(f, p) && Within(q, p)
    ensures Grows(ps, r, p)
  {
    assert multiset(ps) <= multiset(r);
    forall x | x in multiset(r) - multiset(ps)
      ensures Within(x, p)
    {
      if x in multiset(r) - multiset(front) {
        assert Within(x, q);
      } else {
        assert x in multiset(front) - multiset(ps);
      }
    }
  }

  // ---------------------------------------------------------------------
  // A valid list stays valid

  lemma {:induction false} AddProgramValid(ps: seq<Prog>, p: Prog)
    requires Valid(ps) && p.start < p.stop
    ensures Valid(AddProgram(ps, p))
    decreases p.stop - p.start, 2, 0
  {
    ScanValid(ps, p, 0);
  }

  /** The scan invariant: the candidate overlaps none of the programmes it
      has passed. */
  lemma {:induction false} ScanValid(ps: seq<Prog>, p: Prog, k: nat)
    requires k <= |ps| && Valid(ps) && p.start < p.stop
    requires forall i :: 0 <= i < k ==> !Overlap(p, ps[i])
    ensures Valid(Scan(ps, p, k))
    decreases p.stop - p.start, 1, |ps| - k
  {
    if k == |ps| {
      InsertValid(ps, p);
    } else {
      var e := ps[k];
      ClashCases(p, e);
      match ClashWith(p, e)
      case Inside =>
      case Straddles =>
        SplitValid(ps, p, k);
      case StartTaken =>
        ScanValid(ps, p.(start := e.stop), k + 1);
      case StopTaken =>
        ScanValid(ps, p.(stop := e.start), k + 1);
      case Apart =>
        ScanValid(ps, p, k + 1);
    }
  }

  lemma {:induction false} SplitValid(ps: seq<Prog>, p: Prog, k: nat)
    requires k < |ps| && Valid(ps) && p.start < p.stop
    requires ClashWith(p, ps[k]) == Straddles
    requires forall i :: 0 <= i < k ==> !Overlap(p, ps[i])
    ensures Valid(Split(ps, p, k))
    decreases p.stop - p.start, 0, 0
  {
    var e := ps[k];
    var f := Prog(p.start, e.start, p.name);
    var front := AddProgram(ps, f);
    var k' := k + (|front| - |ps|);
    var q := Prog(e.stop, p.stop, p.name);
    AddProgramValid(ps, f);
    TailIndex(ps, front, f.stop, k);
    forall i | 0 <= i < k' + 1
      ensures !Overlap(q, front[i])
    {
      if i < k' {
        assert front[i].stop <= front[k'].start;
      }
    }
    ScanValid(front, q, k' + 1);
    SplitIs(ps, p, k);
  }

  /** A candidate that overlaps nothing is inserted in its place. */
  lemma InsertValid(ps: seq<Prog>, p: Prog)
    requires Valid(ps) && p.start < p.stop
    requires forall i :: 0 <= i < |ps| ==> !Overlap(p, ps[i])
    ensures Valid(Insert(ps, p))
  {
    var j := InsertPos(ps, p.start, 0);
    var r := Insert(ps, p);
    InsertShape(ps, p);
    PlacedValid(ps, p, j, r);
  }

  /** `InsertValid` for the list `r` that has `p` at index `j` and the
      programmes of `ps` around it. */
  lemma PlacedValid(ps: seq<Prog>, p: Prog, j: nat, r: seq<Prog>)
    requires Valid(ps) && p.start < p.stop
    requires forall i :: 0 <= i < |ps| ==> !Overlap(p, ps[i])
    requires j <= |ps| && (forall i :: 0 <= i < j ==> ps[i].start <= p.start)
    requires j < |ps| ==> ps[j].start > p.start
    requires |r| == |ps| + 1 && r[j] == p
    requires forall i :: 0 <= i < j ==> r[i] == ps[i]
    requires forall i :: j < i < |r| ==> r[i] == ps[i - 1]
    ensures Valid(r)
  {
    forall a, b | 0 <= a < b < |r|
      ensures r[a].stop <= r[b].start
    {
      PlacedInOrder(ps, p, j, r, a, b);
    }
    forall a | 0 <= a < |r|
      ensures r[a].start < r[a].stop
    {
      if a < j {
        assert r[a] == ps[a];
      } else if a > j {
        assert r[a] == ps[a - 1];
      }
    }
  }

  /** One pair of positions of `InsertValid`. */
  lemma PlacedInOrder(ps: seq<Prog>, p: Prog, j: nat, r: seq<Prog>, a: nat, b: nat)
    requires Valid(ps) && p.start < p.stop
    requires forall i :: 0 <= i < |ps| ==> !Overlap(p, ps[i])
    requires j <= |ps| && (forall i :: 0 <= i < j ==> ps[i].start <= p.start)
    requires j < |ps| ==> ps[j].start > p.start
    requires |r| == |ps| + 1 && r[j] == p
    requires forall i :: 0 <= i < j ==> r[i] == ps[i]
    requires forall i :: j < i < |r| ==> r[i] == ps[i - 1]
    requires a < b < |r|
    ensures r[a].stop <= r[b].start
  {
    if b < j {
      assert r[a] == ps[a] && r[b] == ps[b];
    } else if b == j {
      assert r[a] == ps[a] && !Overlap(p, ps[a]);
    } else if a < j {
      assert r[a] == ps[a] && r[b] == ps[b - 1];
    } else if a == j {
      assert r[b] == ps[b - 1] && !Overlap(p, ps[b - 1]);
      assert ps[j].start > p.start;
      assert ps[j].start <= ps[b - 1].start by {
        if j < b - 1 {
          assert ps[j].stop <= ps[b - 1].start;
        }
      }
    } else {
      assert r[a] == ps[a - 1] && r[b] == ps[b - 1];
    }
  }

  // ---------------------------------------------------------------------
  // What is on the air afterwards

  lemma KeptCovers(ps: seq<Prog>, r: seq<Prog>, t: int)
    requires multiset(ps) <= multiset(r) && Covers(ps, t)
    ensures Covers(r, t)
  {
    var i :| 0 <= i < |ps| && ps[i].start <= t < ps[i].stop;
    assert ps[i] in multiset(ps);
    assert ps[i] in r;
    var j :| 0 <= j < |r| && r[j] == ps[i];
  }

  lemma {:induction false} AddProgramCovers(ps: seq<Prog>, p: Prog, t: int)
    requires Forward(ps) && p.start <= t < p.stop
    ensures Covers(AddProgram(ps, p), t)
    decreases p.stop - p.start, 2, 0
  {
    ScanCovers(ps, p, 0, t);
  }

  /** Every second of the candidate's period is on the air afterwards. */
  lemma {:induction false} ScanCovers(ps: seq<Prog>, p: Prog, k: nat, t: int)
    requires k <= |ps| && Forward(ps) && p.start <= t < p.stop
    ensures Covers(Scan(ps, p, k), t)
    decreases p.stop - p.start, 1, |ps| - k
  {
    var r := Scan(ps, p, k);
    if k == |ps| {
      InsertShape(ps, p);
      assert r[InsertPos(ps, p.start, 0)] == p;
    } else {
      var e := ps[k];
      match ClashWith(p, e)
      case Inside =>
        assert ps[k].start <= t < ps[k].stop;
      case Straddles =>
        SplitCovers(ps, p, k, t);
      case StartTaken =>
        if t < e.stop {
          assert ps[k].start <= t < ps[k].stop;
          ScanGrows(ps, p, k);
          KeptCovers(ps, r, t);
        } else {
          ScanCovers(ps, p.(start := e.stop), k + 1, t);
        }
      case StopTaken =>
        if t >= e.start {
          assert ps[k].start <= t < ps[k].stop;
          ScanGrows(ps, p, k);
          KeptCovers(ps, r, t);
        } else {
          ScanCovers(ps, p.(stop := e.start), k + 1, t);
        }
      case Apart =>
        ScanCovers(ps, p, k + 1, t);
    }
  }

  lemma {:induction false} SplitCovers(ps: seq<Prog>, p: Prog, k: nat, t: int)
    requires k < |ps| && Forward(ps) && p.start <= t < p.stop
    requires ClashWith(p, ps[k]) == Straddles
    ensures Covers(Split(ps, p, k), t)
    decreases p.stop - p.start, 0, 0
  {
    var e := ps[k];
    var f := Prog(p.start, e.start, p.name);
    var front := AddProgram(ps, f);
    var k' := k + (|front| - |ps|);
    var q := Prog(e.stop, p.stop, p.name);
    var r := Split(ps, p, k);
    SplitIs(ps, p, k);
    TailIndex(ps, front, f.stop, k);
    AddProgramGrows(ps, f);
    ScanGrows(front, q, k' + 1);
    if t < e.start {
      AddProgramCovers(ps, f, t);
      KeptCovers(front, r, t);
    } else if t < e.stop {
      assert ps[k].start <= t < ps[k].stop;
      KeptCovers(ps, front, t);
      KeptCovers(front, r, t);
    } else {
      ScanCovers(front, q, k' + 1, t);
    }
  }

  /** Afterwards exactly the old schedule plus the candidate's period is on
      the air. */
  lemma AddProgramUnion(ps: seq<Prog>, p: Prog, t: int)
    requires Forward(ps) && p.start <= p.stop
    ensures Covers(AddProgram(ps, p), t) <==> Covers(ps, t) || p.start <= t < p.stop
  {
    var r := AddProgram(ps, p);
    AddProgramGrows(ps, p);
    if Covers(ps, t) {
      KeptCovers(ps, r, t);
    } else if p.start <= t < p.stop {
      AddProgramCovers(ps, p, t);
    } else if Covers(r, t) {
      AddedCovers(ps, r, p, t);
    }
  }

  /** A second on the air afterwards was on the air before or lies in the
      period of the programme added. */
  lemma AddedCovers(ps: seq<Prog>, r: seq<Prog>, p: Prog, t: int)
    requires forall x :: x in multiset(r) - multiset(ps) ==> Within(x, p)
    requires Covers(r, t)
    ensures Covers(ps, t) || p.start <= t < p.stop
  {
    var i :| 0 <= i < |r| && r[i].start <= t < r[i].stop;
    if r[i] in multiset(ps) {
      assert r[i] in ps;
      var j :| 0 <= j < |ps| && ps[j] == r[i];
    } else {
      assert r[i] in multiset(r) - multiset(ps);
    }
  }

  // ---------------------------------------------------------------------
  // A period already taken changes nothing

  lemma {:induction false} AddProgramTaken(ps: seq<Prog>, p: Prog)
    requires Valid(ps) && p.start < p.stop
    requires forall t :: p.start <= t < p.stop ==> Covers(ps, t)
    ensures AddProgram(ps, p) == ps
    decreases p.stop - p.start, 2, 0
  {
    ScanTaken(ps, p, 0);
  }

  lemma {:induction false} ScanTaken(ps: seq<Prog>, p: Prog, k: nat)
    requires k <= |ps| && Valid(ps) && p.start < p.stop
    requires forall t :: p.start <= t < p.stop ==> Covers(ps, t)
    requires forall i :: 0 <= i < k ==> !Overlap(p, ps[i])
    ensures Scan(ps, p, k) == ps
    decreases p.stop - p.start, 1, |ps| - k
  {
    if k == |ps| {
      assert Covers(ps, p.start);
      var i :| 0 <= i < |ps| && ps[i].start <= p.start < ps[i].stop;
      assert Overlap(p, ps[i]);
    } else {
      var e := ps[k];
      ClashCases(p, e);
      match ClashWith(p, e)
      case Inside =>
      case Straddles =>
        SplitTaken(ps, p, k);
      case StartTaken =>
        ScanTaken(ps, p.(start := e.stop), k + 1);
      case StopTaken =>
        ScanTaken(ps, p.(stop := e.start), k + 1);
      case Apart =>
        ScanTaken(ps, p, k + 1);
    }
  }

  lemma {:induction false} SplitTaken(ps: seq<Prog>, p: Prog, k: nat)
    requires k < |ps| && Valid(ps) && p.start < p.stop
    requires ClashWith(p, ps[k]) == Straddles
    requires forall t :: p.start <= t < p.stop ==> Covers(ps, t)
    requires forall i :: 0 <= i < k ==> !Overlap(p, ps[i])
    ensures Split(ps, p, k) == ps
    decreases p.stop - p.start, 0, 0
  {
    var e := ps[k];
    var f := Prog(p.start, e.start, p.name);
    var q := Prog(e.stop, p.stop, p.name);
    AddProgramTaken(ps, f);
    SplitIs(ps, p, k);
    ScanTaken(ps, q, k + 1);
  }

  /** Case 1: a candidate inside one existing programme is skipped. */
  lemma InsideSkipped(ps: seq<Prog>, p: Prog, i: nat)
    requires Valid(ps) && p.start < p.stop && i < |ps|
    requires ps[i].start <= p.start && p.stop <= ps[i].stop
    ensures AddProgram(ps, p) == ps
  {
    forall t | p.start <= t < p.stop
      ensures Covers(ps, t)
    {
      assert ps[i].start <= t < ps[i].stop;
    }
    AddProgramTaken(ps, p);
  }

  /** Adding the same programme twice is the same as adding it once. */
  lemma AddProgramIdempotent(ps: seq<Prog>, p: Prog)
    requires Valid(ps) && p.start < p.stop
    ensures Valid(AddProgram(ps, p))
    ensures AddProgram(AddProgram(ps, p), p) == AddProgram(ps, p)
  {
    var r := AddProgram(ps, p);
    AddProgramValid(ps, p);
    forall t | p.start <= t < p.stop
      ensures Covers(r, t)
    {
      AddProgramUnion(ps, p, t);
    }
    AddProgramTaken(r, p);
  }

  // ---------------------------------------------------------------------
  // Worked cases around "A" from 10:00 to 11:00 (seconds after midnight)

  const ShowA := Prog(36000, 39600, "A")

  lemma StraddleSplits()
    ensures AddProgram([ShowA], Prog(34200, 41400, "B"))
      == [Prog(34200, 36000, "B"), ShowA, Prog(39600, 41400, "B")]
  {
    var b := Prog(34200, 41400, "B");
    var f := Prog(34200, 36000, "B");
    var q := Prog(39600, 41400, "B");
    FrontBeforeA();
    BackAfterA();
    SplitIs([ShowA], b, 0);
  }

  /** The front part of "B" goes before "A". */
  lemma FrontBeforeA()
    ensures AddProgram([ShowA], Prog(34200, 36000, "B")) == [Prog(34200, 36000, "B"), ShowA]
  {
    var f := Prog(34200, 36000, "B");
    assert InsertPos([ShowA], f.start, 0) == 0;
    assert Scan([ShowA], f, 1) == [f, ShowA];
  }

  /** The back part of "B" goes after "A". */
  lemma BackAfterA()
    ensures Scan([Prog(34200, 36000, "B"), ShowA], Prog(39600, 41400, "B"), 2)
      == [Prog(34200, 36000, "B"), ShowA, Prog(39600, 41400, "B")]
  {
    var f := Prog(34200, 36000, "B");
    var q := Prog(39600, 41400, "B");
    assert InsertPos([f, ShowA], q.start, 2) == 2;
    assert InsertPos([f, ShowA], q.start, 0) == 2;
  }

  lemma StartTrimmed()
    ensures AddProgram([ShowA], Prog(37800, 43200, "C")) == [ShowA, Prog(39600, 43200, "C")]
  {
    var q := Prog(39600, 43200, "C");
    assert InsertPos([ShowA], q.start, 0) == 1;
    assert Scan([ShowA], q, 1) == [ShowA, q];
  }

  lemma StopTrimmed()
    ensures AddProgram([ShowA], Prog(32400, 37800, "D")) == [Prog(32400, 36000, "D"), ShowA]
  {
    var q := Prog(32400, 36000, "D");
    assert InsertPos([ShowA], q.start, 0) == 0;
    assert Scan([ShowA], q, 1) == [q, ShowA];
  }
}

=== FILE: mergeaswritten.dfy ===
/** `Channel::addProgram` as written, on any list, including one holding a
    programme that ends before it starts. */
module MergeAsWritten {
  // Such a programme reaches the list when `Program::loadTimes` cannot read
  // one of its times: the date object keeps the current time it was built
  // with, and the call still reports success. Against such an entry the
  // clash tests can find a straddle whose front part straddles the same
  // entry again, and the recursion never ends. Each split here spends one
  // unit of `fuel`; `None` means the fuel ran out.

  import opened Wrappers
  import opened ProgramMerge

  function AddProgramFuel(ps: seq<Prog>, p: Prog, fuel: nat): (r: Option<seq<Prog>>)
    ensures r.Some? ==> |r.value| >= |ps|
    decreases fuel, 2, 0
  {
    ScanFuel(ps, p, 0, fuel)
  }

  function ScanFuel(ps: seq<Prog>, p: Prog, k: nat, fuel: nat): (r: Option<seq<Prog>>)
    requires k <= |ps|
    ensures r.Some? ==> |r.value| >= |ps|
    decreases fuel, 1, |ps| - k
  {
    if k == |ps| then Some(Insert(ps, p))
    else
      var e := ps[k];
      match ClashWith(p, e)
      case Inside => Some(ps)
      case Straddles => SplitFuel(ps, p, k, fuel)
      case StartTaken => ScanFuel(ps, p.(start := e.stop), k + 1, fuel)
      case StopTaken => ScanFuel(ps, p.(stop := e.start), k + 1, fuel)
      case Apart => ScanFuel(ps, p, k + 1, fuel)
  }

  /** The straddled programme is located after the recursive call at the
      index it reaches when every piece of the front part went before it. */
  function SplitFuel(ps: seq<Prog>, p: Prog, k: nat, fuel: nat): (r: Option<seq<Prog>>)
    requires k < |ps| && ClashWith(p, ps[k]) == Straddles
    ensures r.Some? ==> |r.value| >= |ps|
    decreases fuel, 0, 0
  {
    if fuel == 0 then None
    else
      var e := ps[k];
      match AddProgramFuel(ps, Prog(p.start, e.start, p.name), fuel - 1)
      case None => None
      case Some(front) =>
        ScanFuel(front, Prog(e.stop, p.stop, p.name), k + (|front| - |ps|) + 1, fuel - 1)
  }

  /** Whatever list the fuelled merge returns still holds every programme it
      was given: the source only ever inserts, or returns the list as it
      was. */
  lemma {:induction false} AddProgramFuelKeeps(ps: seq<Prog>, p: Prog, fuel: nat)
    ensures var r := AddProgramFuel(ps, p, fuel);
      r.Some? ==> multiset(ps) <= multiset(r.value)
    decreases fuel, 2, 0
  {
    ScanFuelKeeps(ps, p, 0, fuel);
  }

  lemma {:induction false} ScanFuelKeeps(ps: seq<Prog>, p: Prog, k: nat, fuel: nat)
    requires k <= |ps|
    ensures var r := ScanFuel(ps, p, k, fuel);
      r.Some? ==> multiset(ps) <= multiset(r.value)
    decreases fuel, 1, |ps| - k
  {
    if k < |ps| {
      var e := ps[k];
      match ClashWith(p, e)
      case Inside =>
      case Straddles =>
        SplitFuelKeeps(ps, p, k, fuel);
      case StartTaken =>
        ScanFuelKeeps(ps, p.(start := e.stop), k + 1, fuel);
      case StopTaken =>
        ScanFuelKeeps(ps, p.(stop := e.start), k + 1, fuel);
      case Apart =>
        ScanFuelKeeps(ps, p, k + 1, fuel);
    }
  }

  lemma {:induction false} SplitFuelKeeps(ps: seq<Prog>, p: Prog, k: nat, fuel: nat)
    requires k < |ps| && ClashWith(p, ps[k]) == Straddles
    ensures var r := SplitFuel(ps, p, k, fuel);
      r.Some? ==> multiset(ps) <= multiset(r.value)
    decreases fuel, 0, 0
  {
    if fuel > 0 {
      var f := Prog(p.start, ps[k].start, p.name);
      AddProgramFuelKeeps(ps, f, fuel - 1);
      var a := AddProgramFuel(ps, f, fuel - 1);
      if a.Some? {
        var front := a.value;
        var q, at := Prog(ps[k].stop, p.stop, p.name), k + (|front| - |ps|) + 1;
        SplitFuelStep(ps, p, k, fuel, front);
        ScanFuelKeeps(front, q, at, fuel - 1);
        var r := ScanFuel(front, q, at, fuel - 1);
        if r.Some? {
          MultisetTrans(multiset(ps), multiset(front), multiset(r.value));
        }
      }
    }
  }

  /** Inclusion of multisets is transitive. */
  lemma MultisetTrans(a: multiset<Prog>, b: multiset<Prog>, c: multiset<Prog>)
    requires a <= b && b <= c
    ensures a <= c
  {
  }

  /** With no programme running backwards, enough fuel gives exactly the
      merge of `ProgramMerge`: every split cuts the candidate into two
      strictly shorter parts, so the splits nest fewer deep than the
      candidate is long. */
  lemma {:induction false} AddProgramFuelAgrees(ps: seq<Prog>, p: Prog, fuel: nat)
    requires Forward(ps) && p.start <= p.stop && fuel > p.stop - p.start
    ensures AddProgramFuel(ps, p, fuel) == Some(AddProgram(ps, p))
    decreases fuel, 2, 0
  {
    ScanFuelAgrees(ps, p, 0, fuel);
  }

  lemma {:induction false} ScanFuelAgrees(ps: seq<Prog>, p: Prog, k: nat, fuel: nat)
    requires k <= |ps| && Forward(ps) && p.start <= p.stop && fuel > p.stop - p.start
    ensures ScanFuel(ps, p, k, fuel) == Some(Scan(ps, p, k))
    decreases fuel, 1, |ps| - k
  {
    if k < |ps| {
      var e := ps[k];
      match ClashWith(p, e)
      case Inside =>
      case Straddles =>
        SplitFuelAgrees(ps, p, k, fuel);
      case StartTaken =>
        ScanFuelAgrees(ps, p.(start := e.stop), k + 1, fuel);
      case StopTaken =>
        ScanFuelAgrees(ps, p.(stop := e.start), k + 1, fuel);
      case Apart =>
        ScanFuelAgrees(ps, p, k + 1, fuel);
    }
  }

  lemma {:induction false} SplitFuelAgrees(ps: seq<Prog>, p: Prog, k: nat, fuel: nat)
    requires k < |ps| && Forward(ps) && p.start <= p.stop && fuel > p.stop - p.start
    requires ClashWith(p, ps[k]) == Straddles
    ensures SplitFuel(ps, p, k, fuel) == Some(Split(ps, p, k))
    decreases fuel, 0, 0
  {
    var e := ps[k];
    assert e.start <= e.stop;
    var f := Prog(p.start, e.start, p.name);
    var q := Prog(e.stop, p.stop, p.name);
    AddProgramFuelAgrees(ps, f, fuel - 1);
    var front := AddProgram(ps, f);
    var at := k + (|front| - |ps|) + 1;
    TailIndex(ps, front, f.stop, k);
    ScanFuelAgrees(front, q, at, fuel - 1);
    SplitFuelStep(ps, p, k, fuel, front);
    SplitAt(ps, p, k, front, q, at);
  }

  /** `SplitIs` with the front part, back part and resume index named. */
  lemma SplitAt(ps: seq<Prog>, p: Prog, k: nat, front: seq<Prog>, q: Prog, at: nat)
    requires k < |ps| && Forward(ps) && p.start <= p.stop
    requires ClashWith(p, ps[k]) == Straddles
    requires front == AddProgram(ps, Prog(p.start, ps[k].start, p.name))
    requires q == Prog(ps[k].stop, p.stop, p.name) && at == k + (|front| - |ps|) + 1
    ensures Split(ps, p, k) == Scan(front, q, at)
  {
  }

  /** One split, once the front part has been merged into `front`. */
  lemma SplitFuelStep(ps: seq<Prog>, p: Prog, k: nat, fuel: nat, front: seq<Prog>)
    requires k < |ps| && ClashWith(p, ps[k]) == Straddles && fuel > 0
    requires AddProgramFuel(ps, Prog(p.start, ps[k].start, p.name), fuel - 1) == Some(front)
    ensures |front| >= |ps|
    ensures SplitFuel(ps, p, k, fuel)
      == ScanFuel(front, Prog(ps[k].stop, p.stop, p.name), k + (|front| - |ps|) + 1, fuel - 1)
  {
  }

  /** A programme stored as running from 12 back to 10. */
  const Reversed := [Prog(12, 10, "A")]

  /** Against a lone entry `e` that runs backwards, a programme from before
      `e.stop` up to `e.start` straddles `e`, and the front part of that
      straddle is the programme itself, so no amount of fuel is enough. */
  lemma {:induction false} FrontNeverEnds(e: Prog, p: Prog, fuel: nat)
    requires e.stop < e.start && p.start < e.stop && p.stop == e.start
    ensures AddProgramFuel([e], p, fuel) == None
  {
    StraddlesBackwards(e, p, fuel);
    if fuel > 0 {
      FrontNeverEnds(e, p, fuel - 1);
      assert Prog(p.start, e.start, p.name) == p;
    }
  }

  /** A programme from before `e.stop` to after it straddles a lone entry
      `e` that runs backwards, and its merge starts with a split at `e`. */
  lemma StraddlesBackwards(e: Prog, p: Prog, fuel: nat)
    requires e.stop < e.start && p.start < e.stop < p.stop
    ensures AddProgramFuel([e], p, fuel) == SplitFuel([e], p, 0, fuel)
    ensures fuel == 0 ==> SplitFuel([e], p, 0, fuel) == None
    ensures fuel > 0 && AddProgramFuel([e], Prog(p.start, e.start, p.name), fuel - 1) == None
      ==> SplitFuel([e], p, 0, fuel) == None
  {
    assert [e][0] == e;
    assert ClashWith(p, e) == Straddles;
  }

  /** Adding a programme from 9 to 11 after the reversed entry runs out of
      every amount of fuel: the source recurses without end. */
  lemma AddProgramDiverges(fuel: nat)
    ensures AddProgramFuel(Reversed, Prog(9, 11, "B"), fuel) == None
  {
    var e, p := Prog(12, 10, "A"), Prog(9, 11, "B");
    StraddlesBackwards(e, p, fuel);
    if fuel > 0 {
      FrontNeverEnds(e, Prog(9, 12, "B"), fuel - 1);
    }
  }
}

=== FILE: tvguidefetch.dfy ===
/** The grabber's own logic. */
module TvGuide {
  // The strict integer parsers for its command line and configuration, the
  // date strings that bound the window of days to fetch, the channel lookup
  // in the catalogue, and how a channel's settings and sources are filled in
  // from the catalogue and then from the configuration. The current time is
  // a parameter; console output, the configuration wizard and the XMLTV
  // output are not part of this model.

  import opened Wrappers
  import opened CText
  import opened Calendar
  import opened EasyDates
  import opened DateCodecs
  import opened XmlDom
  import opened Channels

  // ---------------------------------------------------------------------
  // Integer parsers

  /** `validPositiveInt`: one or more decimal digits and nothing else;
      the value is accumulated left to right. */
  function ValidPositiveInt(s: string): (r: Option<int>)
    ensures r.Some? <==> |s| > 0 && AllDigits(s)
    ensures r.Some? ==> r.value == DigitsValue(s)
  {
    if |s| == 0 then None
    else
      var j := DigitRun(s, 0);
      if j == |s| then
        assert s[0..j] == s;
        Some(DigitsValue(s[0..j]))
      else None
  }

  /** Printed digits read back, and so does a zero-padded number. */
  lemma PositiveIntRoundTrip(n: nat, zeros: nat)
    ensures ValidPositiveInt(Digits(n)) == Some(n)
    ensures ValidPositiveInt(Repeat('0', zeros) + Digits(n)) == Some(n)
  {
    DigitsRoundTrip(n);
    DigitsValueLeadingZeros(zeros, Digits(n));
  }

  predicate IsSign(c: char) {
    c == '-' || c == '+'
  }

  /** The digits of a numeral after its optional sign. */
  function Unsigned(s: string): string
    requires |s| > 0
  {
    if IsSign(s[0]) then s[1..] else s
  }

  /** An optional single '+' or '-' followed by one or more digits. */
  predicate SignedNumeral(s: string) {
    |s| > 0 && |Unsigned(s)| > 0 && AllDigits(Unsigned(s))
  }

  /** `validInt`: a signed numeral whose magnitude (the digits, read
      before the sign is applied) lies within `lo..hi`; the value is the
      magnitude with the sign. */
  function ValidInt(s: string, lo: int, hi: int): (r: Option<int>)
    ensures r.Some? <==> SignedNumeral(s) && lo <= DigitsValue(Unsigned(s)) <= hi
    ensures r.Some? ==> r.value == if s[0] == '-' then -(DigitsValue(Unsigned(s)) as int) else DigitsValue(Unsigned(s))
  {
    if |s| == 0 then None
    else
      var sign := if s[0] == '-' then -1 else 1;
      var u := Unsigned(s);
      var j := DigitRun(u, 0);
      assert j == |u| ==> u[0..j] == u;
      if 0 < |u| && j == |u| && lo <= DigitsValue(u[0..j]) <= hi then
        Some(DigitsValue(u[0..j]) * sign)
      else
        assert j < |u| ==> !IsDigit(u[j]);
        None
  }

  /** Every number whose magnitude is in range reads back from its printed
      form, and from its form with an explicit '+'. */
  lemma IntRoundTrip(n: int, lo: int, hi: int)
    requires lo <= (if n < 0 then -n else n) <= hi
    ensures ValidInt(IntToString(n), lo, hi) == Some(n)
    ensures n >= 0 ==> ValidInt("+" + Digits(n), lo, hi) == Some(n)
  {
    var m := if n < 0 then -n else n;
    DigitsRoundTrip(m);
    var d := Digits(m);
    assert IsDigit(d[0]);
    if n < 0 {
      assert ("-" + d)[1..] == d;
    } else {
      assert ("+" + d)[1..] == d;
    }
  }

  /** The range test is on the magnitude: a minus sign in front of a
      numeral in range is accepted, whatever the bounds. */
  lemma RangeIsOnMagnitude(n: int, lo: int, hi: int)
    requires 0 <= n && lo <= n <= hi
    ensures ValidInt("-" + Digits(n), lo, hi) == Some(-n)
  {
    DigitsRoundTrip(n);
    assert ("-" + Digits(n))[1..] == Digits(n);
  }

  /** With bounds `-hi..hi`, as every caller uses, the accepted values are
      exactly the integers from `-hi` to `hi`. */
  lemma SymmetricBounds(s: string, hi: int)
    requires hi >= 0
    ensures ValidInt(s, -hi, hi).Some? ==> -hi <= ValidInt(s, -hi, hi).value <= hi
    ensures forall n :: -hi <= n <= hi ==> ValidInt(IntToString(n), -hi, hi) == Some(n)
  {
    forall n | -hi <= n <= hi
      ensures ValidInt(IntToString(n), -hi, hi) == Some(n)
    {
      IntRoundTrip(n, -hi, hi);
    }
  }

  // ---------------------------------------------------------------------
  // Command-line settings

  /** The numeric settings of a run. */
  datatype Settings = Settings(daysToFetch: int, offsetFromToday: int, forcedTimeZone: int)

  /** The constructor's values: fourteen days from today, and a forced
      time zone of 99999 minutes, which is out of range and means none. */
  const Defaults := Settings(14, 0, 99999)

  /** The conversion of the `--days`, `--offset` and `--timezone`
      arguments (each `None` when not given). A given argument that does
      not convert ends the run. */
  function ConvertArguments(days: Option<string>, offset: Option<string>, timezone: Option<string>): (r: Option<Settings>)
    ensures r.Some? <==>
      (days.None? || ValidPositiveInt(days.value).Some?)
      && (offset.None? || ValidPositiveInt(offset.value).Some?)
      && (timezone.None? || ValidInt(timezone.value, -720, 720).Some?)
    ensures r.Some? ==> r.value.daysToFetch == if days.Some? then DigitsValue(days.value) else 14
    ensures r.Some? ==> r.value.offsetFromToday == if offset.Some? then DigitsValue(offset.value) else 0
    ensures r.Some? && timezone.None? ==> r.value.forcedTimeZone == 99999
    ensures r.Some? && timezone.Some? ==> var z := timezone.value;
      r.value.forcedTimeZone == if z[0] == '-' then -(DigitsValue(Unsigned(z)) as int) else DigitsValue(Unsigned(z))
    ensures r.Some? ==> 0 <= r.value.daysToFetch && 0 <= r.value.offsetFromToday
  {
    var d := if days.Some? then ValidPositiveInt(days.value) else Some(Defaults.daysToFetch);
    var o := if offset.Some? then ValidPositiveInt(offset.value) else Some(Defaults.offsetFromToday);
    var z := if timezone.Some? then ValidInt(timezone.value, -720, 720) else Some(Defaults.forcedTimeZone);
    if d.Some? && o.Some? && z.Some? then Some(Settings(d.value, o.value, z.value)) else None
  }

  /** The zone handed to the output, in seconds, is within the range
      `setOffUtc` accepts exactly when `--timezone` was given; the default
      is not, so without the option no programme is retargeted. */
  lemma ForcedZoneInRange(days: Option<string>, offset: Option<string>, timezone: Option<string>)
    requires ConvertArguments(days, offset, timezone).Some?
    ensures var f := ConvertArguments(days, offset, timezone).value.forcedTimeZone * 60;
      -43200 <= f <= 43200 <==> timezone.Some?
  {
    if timezone.Some? {
      SymmetricBounds(timezone.value, 720);
    }
  }

  /** Without `--timezone` every programme keeps its times. */
  lemma DefaultZoneKeepsTimes(p: Program)
    requires Normalised(p.start) && Normalised(p.stop)
    ensures SetTimeZone(p, Defaults.forcedTimeZone * 60) == p
  {
  }

  /** `programsToXml` for one programme: retargeted to the forced zone
      (in seconds), then moved by the channel's time offset, before its
      times are printed. Whatever the zone, the printed local time is the
      programme's own local time moved by the offset; only a zone within
      twelve hours either way replaces the printed offset. */
  function OutputTimes(p: Program, forced: int, timeOffset: int): (r: Program)
    requires Normalised(p.start) && Normalised(p.stop)
    ensures r.name == p.name && Normalised(r.start) && Normalised(r.stop)
    ensures ToSeconds(r.start) + r.start.offUtc == ToSeconds(p.start) + p.start.offUtc + timeOffset
    ensures ToSeconds(r.stop) + r.stop.offUtc == ToSeconds(p.stop) + p.stop.offUtc + timeOffset
    ensures -43200 <= forced <= 43200 ==> r.start.offUtc == forced && r.stop.offUtc == forced
    ensures !(-43200 <= forced <= 43200) ==> r.start.offUtc == p.start.offUtc && r.stop.offUtc == p.stop.offUtc
  {
    OffsetTime(SetTimeZone(p, forced), timeOffset)
  }

  // ---------------------------------------------------------------------
  // Day strings

  /** Seconds since 2000 split into the day and the time of day. */
  lemma SecondsSplit(d: EasyDate)
    requires Normalised(d)
    ensures ToSeconds(d) == DayNumber(d.year, d.mon, d.mday) * 86400 + (d.hour * 3600 + d.min * 60 + d.sec)
    ensures 0 <= d.hour * 3600 + d.min * 60 + d.sec < 86400
  {
  }

  /** Two normalised dates a whole number of days apart lie that many
      calendar days apart. */
  lemma DayShift(a: EasyDate, b: EasyDate, k: int)
    requires Normalised(a) && Normalised(b)
    requires ToSeconds(b) == ToSeconds(a) + k * 86400
    ensures DayNumber(b.year, b.mon, b.mday) == DayNumber(a.year, a.mon, a.mday) + k
  {
    SecondsSplit(a);
    SecondsSplit(b);
    var ca := a.hour * 3600 + a.min * 60 + a.sec;
    var cb := b.hour * 3600 + b.min * 60 + b.sec;
    var e := DayNumber(b.year, b.mon, b.mday) - DayNumber(a.year, a.mon, a.mday) - k;
    assert e * 86400 == ca - cb;
    assert e >= 1 ==> e * 86400 >= 86400;
    assert e <= -1 ==> e * 86400 <= -86400;
  }

  /** The day number of a date. */
  function DayOf(d: EasyDate): int
    requires 0 <= d.mon <= 12
  {
    DayNumber(d.year, d.mon, d.mday)
  }

  /** The local date `offset` days from now, as `getDate` computes it:
      the local time, with the day of the month advanced when the offset
      is not zero. */
  function DateAt(now: EasyDate, offset: int): (r: EasyDate)
    requires Normalised(now)
    ensures Normalised(r)
    ensures DayOf(r) == DayOf(GetLocalTime(now)) + offset
  {
    var local := GetLocalTime(now);
    if offset != 0 then
      var r := SetMDay(local, local.mday + offset).date;
      DayShift(local, r, offset);
      r
    else local
  }

  /** "YYYY-MM-DD" with each field zero-padded to its width. */
  function FormatDay(y: int, m: int, d: int): string {
    Pad0(y, 4) + ("-" + (Pad0(m, 2) + ("-" + Pad0(d, 2))))
  }

  /** `getDate`. */
  function GetDate(now: EasyDate, offset: int): string
    requires Normalised(now)
  {
    var d := DateAt(now, offset);
    FormatDay(d.year, d.mon, d.mday)
  }

  /** A real day of a four-digit year. */
  predicate Printable(y: int, m: int, d: int) {
    0 <= y <= 9999 && ValidDay(y, m, d)
  }

  /** The fields of a day string, read back. */
  function ParseDay(s: string): (r: Option<(int, int, int)>)
    ensures r.Some? ==> |s| == 10 && s[4] == '-' && s[7] == '-'
  {
    if |s| == 10 && s[4] == '-' && s[7] == '-' then
      match (ValidNum(s[0..4], 0, 9999), ValidNum(s[5..7], 1, 12), ValidNum(s[8..10], 1, 31))
      case (Some(y), Some(m), Some(d)) => Some((y, m, d))
      case _ => None
    else None
  }

  /** A printed day is ten characters long and reads back as itself. */
  lemma DayRoundTrip(y: int, m: int, d: int)
    requires Printable(y, m, d)
    ensures |FormatDay(y, m, d)| == 10
    ensures ParseDay(FormatDay(y, m, d)) == Some((y, m, d))
  {
    ReadsBack(y, 4, 0, 9999);
    ReadsBack(m, 2, 1, 12);
    ReadsBack(d, 2, 1, 31);
    DaySlices(Pad0(y, 4), Pad0(m, 2), Pad0(d, 2));
  }

  /** The three fields of a day string sit at fixed positions. */
  lemma DaySlices(a: string, b: string, c: string)
    requires |a| == 4 && |b| == 2 && |c| == 2
    ensures var s := a + ("-" + (b + ("-" + c)));
      |s| == 10 && s[4] == '-' && s[7] == '-' && s[0..4] == a && s[5..7] == b && s[8..10] == c
  {
    var s := a + ("-" + (b + ("-" + c)));
    assert s[0..4] == a;
    assert s[5..7] == b;
    assert s[8..10] == c;
  }

  /** Comparing texts whose first parts have the same length: the first
      parts decide unless they are equal. */
  lemma LexSplit(a: string, b: string, x: string, y: string)
    requires |a| == |b|
    ensures StrLess(a + x, b + y) <==> StrLess(a, b) || (a == b && StrLess(x, y))
  {
    if a == b {
      StrLessCommonPrefix(a, x, y);
      StrLessIrreflexive(a);
    } else {
      StrLessTotal(a, b);
      if StrLess(a, b) {
        StrLessExtend(a, b, x, y);
      } else {
        StrLessExtend(b, a, y, x);
        StrLessAsymmetric(b + y, a + x);
        StrLessAsymmetric(b, a);
      }
    }
  }

  /** On digit strings of one length, text order is numeric order. */
  lemma {:induction false} DigitOrder(s: string, t: string)
    requires |s| == |t| && AllDigits(s) && AllDigits(t)
    ensures StrLess(s, t) <==> DigitsValue(s) < DigitsValue(t)
    ensures s == t <==> DigitsValue(s) == DigitsValue(t)
    decreases |s|
  {
    if |s| > 0 {
      var n := |s| - 1;
      var s', t' := s[..n], t[..n];
      assert s == s' + [s[n]] && t == t' + [t[n]];
      DigitOrder(s', t');
      LexSplit(s', t', [s[n]], [t[n]]);
      assert StrLess([s[n]], [t[n]]) <==> s[n] < t[n] by {
        assert [s[n]][1..] == [] && [t[n]][1..] == [];
      }
      var vs, vt := DigitsValue(s'), DigitsValue(t');
      var ds, dt := DigitValue(s[n]), DigitValue(t[n]);
      assert DigitsValue(s) == vs * 10 + ds && DigitsValue(t) == vt * 10 + dt;
      if vs < vt {
        assert vs * 10 + 10 <= vt * 10;
      } else if vt < vs {
        assert vt * 10 + 10 <= vs * 10;
      }
      if s != t && s' == t' {
        assert s[n] != t[n];
      }
    }
  }

  /** Zero-padded numbers of one width compare as the numbers do. */
  lemma PadOrder(a: int, b: int, w: nat)
    requires 0 <= a && 0 <= b
    requires (w == 2 && a < 100 && b < 100) || (w == 4 && a < 10000 && b < 10000)
    ensures |Pad0(a, w)| == w && |Pad0(b, w)| == w
    ensures StrLess(Pad0(a, w), Pad0(b, w)) <==> a < b
    ensures Pad0(a, w) == Pad0(b, w) <==> a == b
  {
    FitsWidth(a);
    FitsWidth(b);
    SetWZeroRoundTrip(a, w);
    SetWZeroRoundTrip(b, w);
    DigitOrder(Pad0(a, w), Pad0(b, w));
  }

  /** Day strings sort as their days do: year, then month, then day. */
  lemma FormatOrder(y: int, m: int, d: int, y': int, m': int, d': int)
    requires Printable(y, m, d) && Printable(y', m', d')
    ensures StrLess(FormatDay(y, m, d), FormatDay(y', m', d')) <==> DayBefore(y, m, d, y', m', d')
    ensures FormatDay(y, m, d) == FormatDay(y', m', d') <==> (y == y' && m == m' && d == d')
  {
    PadOrder(y, y', 4);
    PadOrder(m, m', 2);
    PadOrder(d, d', 2);
    var tail := "-" + Pad0(d, 2);
    var tail' := "-" + Pad0(d', 2);
    StrLessCommonPrefix("-", Pad0(d, 2), Pad0(d', 2));
    LexSplit(Pad0(m, 2), Pad0(m', 2), tail, tail');
    var mid := "-" + (Pad0(m, 2) + tail);
    var mid' := "-" + (Pad0(m', 2) + tail');
    StrLessCommonPrefix("-", Pad0(m, 2) + tail, Pad0(m', 2) + tail');
    LexSplit(Pad0(y, 4), Pad0(y', 4), mid, mid');
    if FormatDay(y, m, d) == FormatDay(y', m', d') {
      assert FormatDay(y, m, d)[..4] == Pad0(y, 4) && FormatDay(y', m', d')[..4] == Pad0(y', 4);
      assert mid == mid';
      assert mid[1..] == mid'[1..];
      assert (Pad0(m, 2) + tail)[..2] == Pad0(m, 2) && (Pad0(m', 2) + tail')[..2] == Pad0(m', 2);
      assert tail[1..] == tail'[1..];
    }
  }

  /** Day strings of real days sort as the days fall in the calendar, and
      name the same day exactly when they are equal. */
  lemma DayStringOrder(y: int, m: int, d: int, y': int, m': int, d': int)
    requires Printable(y, m, d) && Printable(y', m', d')
    ensures StrLess(FormatDay(y, m, d), FormatDay(y', m', d')) <==> DayNumber(y, m, d) < DayNumber(y', m', d')
    ensures FormatDay(y, m, d) == FormatDay(y', m', d') <==> DayNumber(y, m, d) == DayNumber(y', m', d')
  {
    FormatOrder(y, m, d, y', m', d');
    if DayBefore(y, m, d, y', m', d') {
      DayNumberMonotone(y, m, d, y', m', d');
    } else if DayBefore(y', m', d', y, m, d) {
      DayNumberMonotone(y', m', d', y, m, d);
    }
    if DayNumber(y, m, d) == DayNumber(y', m', d') {
      DayNumberInjective(y, m, d, y', m', d');
    }
  }

  predicate PrintableDate(d: EasyDate) {
    Printable(d.year, d.mon, d.mday)
  }

  /** The window `fetchGuideData` is given runs from the day `offset` days
      from today to the day `offset + days - 1` from today, both included:
      a catalogue day is in the window exactly when its day number is in
      that range. */
  lemma WindowIsDayRange(now: EasyDate, offset: int, days: int, y: int, m: int, d: int)
    requires Normalised(now) && Printable(y, m, d)
    requires PrintableDate(DateAt(now, offset)) && PrintableDate(DateAt(now, offset + days - 1))
    ensures var today := DayOf(GetLocalTime(now));
      InWindow(FormatDay(y, m, d), GetDate(now, offset), GetDate(now, offset + days - 1))
      <==> today + offset <= DayNumber(y, m, d) <= today + offset + days - 1
  {
    var f := DateAt(now, offset);
    var l := DateAt(now, offset + days - 1);
    DayStringOrder(f.year, f.mon, f.mday, y, m, d);
    DayStringOrder(y, m, d, l.year, l.mon, l.mday);
  }

  /** `clearCache(getDate(0))`: the cached file of a day is stale exactly
      when the day is before today. */
  lemma StaleBeforeToday(now: EasyDate, id: string, y: int, m: int, d: int)
    requires Normalised(now) && Printable(y, m, d) && PrintableDate(DateAt(now, 0))
    ensures Stale(Uri(id, FormatDay(y, m, d)), id, GetDate(now, 0))
      <==> DayNumber(y, m, d) < DayOf(GetLocalTime(now))
  {
    var t := DateAt(now, 0);
    DayRoundTrip(y, m, d);
    DayRoundTrip(t.year, t.mon, t.mday);
    DayFileStale(id, FormatDay(y, m, d), GetDate(now, 0));
    DayStringOrder(y, m, d, t.year, t.mon, t.mday);
  }

  // ---------------------------------------------------------------------
  // Finding elements

  /** The element `gotoNode` reaches on the absolute path of `names`,
      starting from a fresh navigator over the document. */
  function NodeOnPath(doc: Option<Node>, names: seq<string>): (r: Option<Node>)
    requires PlainNames(names) && |names| > 0
    ensures r.Some? <==> doc.Some? && doc.value.name == names[0] && Resolve(doc.value, names[1..]).Some?
    ensures r.Some? ==> r == NodeAt(doc.value, Resolve(doc.value, names[1..]).value)
  {
    var g := GotoNode(OpenNav(doc), JoinPath(names));
    GotoNodeResolves(OpenNav(doc), names);
    if g.0 then Current(g.1) else None
  }

  /** A catalogue entry for the channel `id`: a `<channel>` element whose
      `id` attribute has that value. */
  predicate IsChannelFor(e: Node, id: string) {
    e.name == "channel" && FindAttribute(e.attrs, "id").Some?
    && e.attrs[FindAttribute(e.attrs, "id").value].value == id
  }

  /** The position of the first catalogue entry for `id`. */
  function FirstChannel(es: seq<Node>, id: string): (r: Option<nat>)
    ensures r.Some? ==> r.value < |es| && IsChannelFor(es[r.value], id)
    ensures r.Some? ==> forall j :: 0 <= j < r.value ==> !IsChannelFor(es[j], id)
    ensures r.None? ==> forall j :: 0 <= j < |es| ==> !IsChannelFor(es[j], id)
    decreases |es|
  {
    if |es| == 0 then None
    else if IsChannelFor(es[0], id) then Some(0)
    else
      match FirstChannel(es[1..], id)
      case None => None
      case Some(k) => Some(k + 1)
  }

  /** `gotoNode("/tv")` from a fresh navigator stands on the root exactly
      when the root is `<tv>`. */
  lemma TvRoot(doc: Option<Node>)
    ensures PlainNames(["tv"])
    ensures NodeOnPath(doc, ["tv"]) == if doc.Some? && doc.value.name == "tv" then doc else None
  {
    assert PlainNames(["tv"]);
  }

  /** `findChannel`: the document's root must be `<tv>` (`TvRoot`); its
      child elements are visited in order and the first entry for `id` is
      the one found. */
  function FindChannel(doc: Option<Node>, id: string): (r: Option<Node>)
    ensures r.Some? <==> (doc.Some? && doc.value.name == "tv"
      && exists e :: e in Elements(doc.value.children) && IsChannelFor(e, id))
    ensures r.Some? ==> IsChannelFor(r.value, id)
    ensures r.Some? ==> exists k :: (0 <= k < |Elements(doc.value.children)|
      && Elements(doc.value.children)[k] == r.value
      && forall j :: 0 <= j < k ==> !IsChannelFor(Elements(doc.value.children)[j], id))
  {
    if doc.Some? && doc.value.name == "tv" then
      var es := Elements(doc.value.children);
      match FirstChannel(es, id)
      case None => None
      case Some(k) => Some(es[k])
    else None
  }

  /** `gotoNode("/config/channelmap")` from a fresh navigator: the root
      must be `<config>`, and the first `<channelmap>` child is reached. */
  lemma ChannelMapRoot(cfg: Option<Node>)
    ensures PlainNames(["config", "channelmap"])
    ensures NodeOnPath(cfg, ["config", "channelmap"]) ==
      if cfg.Some? && cfg.value.name == "config" && FindChildNode(cfg.value.children, "channelmap").Some?
      then Some(cfg.value.children[FindChildNode(cfg.value.children, "channelmap").value].node)
      else None
  {
    assert PlainNames(["config", "channelmap"]);
    var r := NodeOnPath(cfg, ["config", "channelmap"]);
    if cfg.Some? && FindChildNode(cfg.value.children, "channelmap").Some? {
      assert ["config", "channelmap"][1..] == ["channelmap"];
      var i := FindChildNode(cfg.value.children, "channelmap").value;
      var kid := cfg.value.children[i].node;
      assert Resolve(kid, ["channelmap"][1..]) == Some([]);
      assert Resolve(cfg.value, ["channelmap"]) == Some([i] + []);
    }
  }

  /** The `<channelmap>` element of the configuration (`ChannelMapRoot`). */
  function ChannelMap(cfg: Option<Node>): (r: Option<Node>)
    ensures r.Some? <==> (cfg.Some? && cfg.value.name == "config"
      && FindChildNode(cfg.value.children, "channelmap").Some?)
    ensures r.Some? ==> r.value == cfg.value.children[FindChildNode(cfg.value.children, "channelmap").value].node
  {
    if cfg.Some? && cfg.value.name == "config" then
      match FindChildNode(cfg.value.children, "channelmap")
      case None => None
      case Some(i) => Some(cfg.value.children[i].node)
    else None
  }

  // ---------------------------------------------------------------------
  // Channel settings

  /** The value of the last attribute with the name. */
  function LastValue(attrs: seq<Attribute>, name: string): Option<string>
    decreases |attrs|
  {
    if |attrs| == 0 then None
    else
      var n := |attrs| - 1;
      if attrs[n].name == name then Some(attrs[n].value) else LastValue(attrs[..n], name)
  }

  /** `LastValue` finds an attribute exactly when one has the name, and
      then it is one with no later namesake. */
  lemma {:induction false} LastValueMeans(attrs: seq<Attribute>, name: string)
    ensures LastValue(attrs, name).Some? <==> exists i :: 0 <= i < |attrs| && attrs[i].name == name
    ensures LastValue(attrs, name).Some? ==> exists i :: (0 <= i < |attrs| && attrs[i] == Attribute(name, LastValue(attrs, name).value)
      && forall j :: i < j < |attrs| ==> attrs[j].name != name)
    decreases |attrs|
  {
    if |attrs| > 0 {
      var n := |attrs| - 1;
      LastValueMeans(attrs[..n], name);
      assert forall i :: 0 <= i < n ==> attrs[..n][i] == attrs[i];
    }
  }

  /** A `timeoffset` attribute that is not a number of seconds within
      twelve hours either way: the run ends. */
  predicate BadOffset(a: Attribute) {
    a.name == "timeoffset" && ValidInt(a.value, -43200, 43200).None?
  }

  /** One attribute of a `<channel>` element. */
  function ApplyAttr(c: Channel, a: Attribute): Option<Channel> {
    if a.name == "id" then Some(c.(id := a.value))
    else if a.name == "oztivoid" then Some(EditOztivo(c, SetId(a.value)))
    else if a.name == "fillinid" then Some(EditFillin(c, SetId(a.value)))
    else if a.name == "timeoffset" then
      match ValidInt(a.value, -43200, 43200)
      case None => None
      case Some(v) => Some(c.(timeOffset := v))
    else Some(c)
  }

  /** The time offset a list of attributes leaves: the last `timeoffset`
      read as a number, or `held`. */
  function OffsetSetting(attrs: seq<Attribute>, held: int): int {
    match LastValue(attrs, "timeoffset")
    case None => held
    case Some(v) => ValidInt(v, -43200, 43200).GetOr(held)
  }

  /** The attributes of a `<channel>` element, in document order: the last
      of each known name wins, and an unreadable time offset anywhere ends
      the run. */
  function ApplyAttrs(c: Channel, attrs: seq<Attribute>): (r: Option<Channel>)
    ensures r.None? <==> exists i :: 0 <= i < |attrs| && BadOffset(attrs[i])
    ensures r.Some? ==> r.value == c.(
      id := LastValue(attrs, "id").GetOr(c.id),
      oztivo := c.oztivo.(id := LastValue(attrs, "oztivoid").GetOr(c.oztivo.id)),
      fillin := c.fillin.(id := LastValue(attrs, "fillinid").GetOr(c.fillin.id)),
      timeOffset := OffsetSetting(attrs, c.timeOffset))
    decreases |attrs|
  {
    if |attrs| == 0 then Some(c)
    else
      var n := |attrs| - 1;
      BadOffsetSnoc(attrs, attrs[..n]);
      match ApplyAttrs(c, attrs[..n])
      case None => None
      case Some(p) => ApplyAttr(p, attrs[n])
  }

  /** Some attribute of `attrs` is a bad offset exactly when one of all but
      the last is, or the last is. */
  lemma BadOffsetSnoc(attrs: seq<Attribute>, front: seq<Attribute>)
    requires |attrs| > 0 && front == attrs[..|attrs| - 1]
    ensures (exists i :: 0 <= i < |attrs| && BadOffset(attrs[i])) <==>
      (exists i :: 0 <= i < |front| && BadOffset(front[i])) || BadOffset(attrs[|attrs| - 1])
    ensures forall i :: 0 <= i < |front| ==> front[i] == attrs[i]
  {
  }

  /** Display-name attributes folded in, in order, each replacing the
      value of an attribute already held under its name. */
  function AddAll(held: seq<Attr>, attrs: seq<Attribute>): seq<Attr>
    decreases |attrs|
  {
    if |attrs| == 0 then held
    else
      var n := |attrs| - 1;
      AddDisplaynameAttr(AddAll(held, attrs[..n]), attrs[n].name, attrs[n].value)
  }

  /** After the fold, each name holds the value of its last attribute, and
      a name the fold never saw keeps what it had. */
  lemma {:induction false} AddAllLookup(held: seq<Attr>, attrs: seq<Attribute>, id: string)
    ensures Lookup(AddAll(held, attrs), id) ==
      if LastValue(attrs, id).Some? then LastValue(attrs, id) else Lookup(held, id)
    decreases |attrs|
  {
    if |attrs| > 0 {
      var n := |attrs| - 1;
      AddAllLookup(held, attrs[..n], id);
      if attrs[n].name != id {
        OtherAttrsKept(AddAll(held, attrs[..n]), attrs[n].name, attrs[n].value, id);
      }
    }
  }

  /** Folding two lists is folding their concatenation. */
  lemma {:induction false} AddAllAppend(held: seq<Attr>, x: seq<Attribute>, y: seq<Attribute>)
    ensures AddAll(AddAll(held, x), y) == AddAll(held, x + y)
    decreases |y|
  {
    if |y| == 0 {
      assert x + y == x;
    } else {
      var n := |y| - 1;
      var front, last := y[..n], y[n];
      AddAllAppend(held, x, front);
      SplitLast(x, y);
      AddAllSnoc(held, x + front, last);
      AddAllSnoc(AddAll(held, x), front, last);
    }
  }

  /** A non-empty `y` is its front and its last element, also behind `x`. */
  lemma SplitLast<T>(x: seq<T>, y: seq<T>)
    requires |y| > 0
    ensures y == y[..|y| - 1] + [y[|y| - 1]]
    ensures x + y == (x + y[..|y| - 1]) + [y[|y| - 1]]
  {
  }

  /** One more attribute at the end is one more step of the fold. */
  lemma AddAllSnoc(held: seq<Attr>, a: seq<Attribute>, v: Attribute)
    ensures AddAll(held, a + [v]) == AddDisplaynameAttr(AddAll(held, a), v.name, v.value)
  {
    assert (a + [v])[..|a|] == a;
  }

  /** The position of the first element with the name. */
  function FirstNamed(es: seq<Node>, name: string): (r: Option<nat>)
    ensures r.Some? ==> r.value < |es| && es[r.value].name == name
    ensures r.Some? ==> forall j :: 0 <= j < r.value ==> es[j].name != name
    ensures r.None? ==> forall j :: 0 <= j < |es| ==> es[j].name != name
    decreases |es|
  {
    if |es| == 0 then None
    else
      var n := |es| - 1;
      assert forall j :: 0 <= j < n ==> es[..n][j] == es[j];
      match FirstNamed(es[..n], name)
      case Some(i) => Some(i)
      case None => if es[n].name == name then Some(n) else None
  }

  /** The position of the last element with the name. */
  function LastNamed(es: seq<Node>, name: string): (r: Option<nat>)
    ensures r.Some? ==> r.value < |es| && es[r.value].name == name
    ensures r.Some? ==> forall j :: r.value < j < |es| ==> es[j].name != name
    ensures r.None? ==> forall j :: 0 <= j < |es| ==> es[j].name != name
    decreases |es|
  {
    if |es| == 0 then None
    else
      var n := |es| - 1;
      if es[n].name == name then Some(n)
      else
        assert forall j :: 0 <= j < n ==> es[..n][j] == es[j];
        LastNamed(es[..n], name)
  }

  /** An `<icon>` element with a `src` attribute. */
  predicate HasIcon(e: Node) {
    e.name == "icon" && FindAttribute(e.attrs, "src").Some?
  }

  function IconOf(e: Node): string
    requires HasIcon(e)
  {
    e.attrs[FindAttribute(e.attrs, "src").value].value
  }

  /** The position of the last icon with a source. */
  function LastIcon(es: seq<Node>): (r: Option<nat>)
    ensures r.Some? ==> r.value < |es| && HasIcon(es[r.value])
    ensures r.Some? ==> forall j :: r.value < j < |es| ==> !HasIcon(es[j])
    ensures r.None? ==> forall j :: 0 <= j < |es| ==> !HasIcon(es[j])
    decreases |es|
  {
    if |es| == 0 then None
    else
      var n := |es| - 1;
      if HasIcon(es[n]) then Some(n)
      else
        assert forall j :: 0 <= j < n ==> es[..n][j] == es[j];
        LastIcon(es[..n])
  }

  /** The attributes of every `<display-name>` element, in document
      order. */
  function DisplayAttrs(es: seq<Node>): seq<Attribute>
    decreases |es|
  {
    if |es| == 0 then []
    else
      var n := |es| - 1;
      DisplayAttrs(es[..n]) + (if es[n].name == "display-name" then es[n].attrs else [])
  }

  /** One child element of a `<channel>` element; `seen` records whether
      an `<lcn>` has been met. */
  function ApplyChild(c: Channel, seen: bool, e: Node): (Channel, bool) {
    if e.name == "display-name" then (c.(attrs := AddAll(c.attrs, e.attrs), displayname := e.value), seen)
    else if e.name == "lcn" && !seen then (c.(chanNum := e.value), true)
    else if e.name == "icon" then
      match FindAttribute(e.attrs, "src")
      case None => (c, seen)
      case Some(k) => (c.(iconUrl := e.attrs[k].value), seen)
    else (c, seen)
  }

  /** The child elements of a `<channel>` element, in order. Only the
      channel number, display name, icon and display-name attributes
      change, and an `<lcn>` is seen exactly when there is one. */
  function ApplyChildren(c: Channel, es: seq<Node>): (r: (Channel, bool))
    ensures r.1 <==> exists i :: 0 <= i < |es| && es[i].name == "lcn"
    ensures r.0.(chanNum := c.chanNum, displayname := c.displayname, iconUrl := c.iconUrl, attrs := c.attrs) == c
    decreases |es|
  {
    if |es| == 0 then (c, false)
    else
      var n := |es| - 1;
      var p := ApplyChildren(c, es[..n]);
      NamedSnoc(es, es[..n], "lcn");
      ApplyChild(p.0, p.1, es[n])
  }

  /** Some element of `es` is called `name` exactly when one of all but
      the last is, or the last is. */
  lemma NamedSnoc(es: seq<Node>, front: seq<Node>, name: string)
    requires |es| > 0 && front == es[..|es| - 1]
    ensures (exists i :: 0 <= i < |es| && es[i].name == name) <==>
      (exists i :: 0 <= i < |front| && front[i].name == name) || es[|es| - 1].name == name
  {
    var n := |es| - 1;
    assert forall j :: 0 <= j < n ==> es[..n][j] == es[j];
  }

  /** What one child element changes. */
  lemma ChildStep(c: Channel, seen: bool, e: Node)
    ensures ApplyChild(c, seen, e).0.chanNum == if e.name == "lcn" && !seen then e.value else c.chanNum
    ensures ApplyChild(c, seen, e).0.displayname == if e.name == "display-name" then e.value else c.displayname
    ensures ApplyChild(c, seen, e).0.iconUrl == if HasIcon(e) then IconOf(e) else c.iconUrl
    ensures ApplyChild(c, seen, e).0.attrs == AddAll(c.attrs, if e.name == "display-name" then e.attrs else [])
  {
  }

  /** The channel number is the text of the first `<lcn>`. */
  lemma {:induction false} FirstLcnWins(c: Channel, es: seq<Node>)
    ensures ApplyChildren(c, es).0.chanNum ==
      match FirstNamed(es, "lcn") case None => c.chanNum case Some(i) => es[i].value
    decreases |es|
  {
    if |es| > 0 {
      var n := |es| - 1;
      var front := es[..n];
      FirstLcnWins(c, front);
      var p := ApplyChildren(c, front);
      ChildStep(p.0, p.1, es[n]);
      match FirstNamed(front, "lcn")
      case Some(i) =>
        assert p.1 by { assert front[i].name == "lcn"; }
        assert FirstNamed(es, "lcn") == Some(i);
      case None =>
        assert !p.1;
        assert FirstNamed(es, "lcn") == if es[n].name == "lcn" then Some(n) else None;
    }
  }

  /** The display name is the text of the last `<display-name>`. */
  lemma {:induction false} LastDisplayNameWins(c: Channel, es: seq<Node>)
    ensures ApplyChildren(c, es).0.displayname ==
      match LastNamed(es, "display-name") case None => c.displayname case Some(i) => es[i].value
    decreases |es|
  {
    if |es| > 0 {
      var n := |es| - 1;
      var front := es[..n];
      LastDisplayNameWins(c, front);
      var p := ApplyChildren(c, front);
      ChildStep(p.0, p.1, es[n]);
      if es[n].name != "display-name" {
        assert LastNamed(es, "display-name") == LastNamed(front, "display-name");
        match LastNamed(front, "display-name")
        case None =>
        case Some(k) => assert front[k] == es[k];
      }
    }
  }

  /** The icon is the source of the last `<icon>` that has one. */
  lemma {:induction false} LastIconWins(c: Channel, es: seq<Node>)
    ensures ApplyChildren(c, es).0.iconUrl ==
      match LastIcon(es) case None => c.iconUrl case Some(i) => IconOf(es[i])
    decreases |es|
  {
    if |es| > 0 {
      var n := |es| - 1;
      var front := es[..n];
      LastIconWins(c, front);
      var p := ApplyChildren(c, front);
      ChildStep(p.0, p.1, es[n]);
      if !HasIcon(es[n]) {
        assert LastIcon(es) == LastIcon(front);
        match LastIcon(front)
        case None =>
        case Some(k) => assert front[k] == es[k];
      }
    }
  }

  /** The display-name attributes of every `<display-name>` are folded in,
      in document order. */
  lemma {:induction false} DisplayAttrsFolded(c: Channel, es: seq<Node>)
    ensures ApplyChildren(c, es).0.attrs == AddAll(c.attrs, DisplayAttrs(es))
    decreases |es|
  {
    if |es| > 0 {
      var n := |es| - 1;
      DisplayAttrsFolded(c, es[..n]);
      AddAllAppend(c.attrs, DisplayAttrs(es[..n]), es[n].attrs);
      var p := ApplyChildren(c, es[..n]);
      ChildStep(p.0, p.1, es[n]);
      assert DisplayAttrs(es[..n]) + [] == DisplayAttrs(es[..n]);
    }
  }

  /** What filling in a channel from a `<channel>` element leads to. */
  datatype Settled = Settled(chan: Channel) | NotAChannel | BadTimeOffset

  /** `populateSettings`: only a `<channel>` element is read; its
      attributes first, then its child elements. */
  function PopulateSettings(n: Node, c: Channel): (r: Settled)
    ensures r.NotAChannel? <==> n.name != "channel"
    ensures r.BadTimeOffset? <==> n.name == "channel" && exists i :: 0 <= i < |n.attrs| && BadOffset(n.attrs[i])
    ensures r.Settled? ==> (r.chan.programs == c.programs
      && r.chan.oztivo == c.oztivo.(id := r.chan.oztivo.id)
      && r.chan.fillin == c.fillin.(id := r.chan.fillin.id))
  {
    if n.name != "channel" then NotAChannel
    else
      match ApplyAttrs(c, n.attrs)
      case None => BadTimeOffset
      case Some(a) => Settled(ApplyChildren(a, Elements(n.children)).0)
  }

  /** Each known setting of a channel filled in from `n`: the element's
      own value where it gives one, and otherwise what the channel held. */
  lemma SettingsTaken(n: Node, c: Channel, id: string)
    requires PopulateSettings(n, c).Settled?
    ensures var r := PopulateSettings(n, c).chan;
      var es := Elements(n.children);
      r.id == LastValue(n.attrs, "id").GetOr(c.id)
      && r.oztivo.id == LastValue(n.attrs, "oztivoid").GetOr(c.oztivo.id)
      && r.fillin.id == LastValue(n.attrs, "fillinid").GetOr(c.fillin.id)
      && r.timeOffset == OffsetSetting(n.attrs, c.timeOffset)
      && r.chanNum == (match FirstNamed(es, "lcn") case None => c.chanNum case Some(i) => es[i].value)
      && r.displayname == (match LastNamed(es, "display-name") case None => c.displayname case Some(i) => es[i].value)
      && r.iconUrl == (match LastIcon(es) case None => c.iconUrl case Some(i) => IconOf(es[i]))
      && Lookup(r.attrs, id) == (if LastValue(DisplayAttrs(es), id).Some? then LastValue(DisplayAttrs(es), id) else Lookup(c.attrs, id))
  {
    var a := ApplyAttrs(c, n.attrs).value;
    var es := Elements(n.children);
    FirstLcnWins(a, es);
    LastDisplayNameWins(a, es);
    LastIconWins(a, es);
    DisplayAttrsFolded(a, es);
    AddAllLookup(a.attrs, DisplayAttrs(es), id);
  }

  // ---------------------------------------------------------------------
  // Channel sources

  /** The text of every element with the name, in document order. */
  function Texts(es: seq<Node>, name: string): (r: seq<string>)
    ensures |r| <= |es|
    ensures forall t :: t in r <==> exists i :: 0 <= i < |es| && es[i].name == name && es[i].value == t
    decreases |es|
  {
    if |es| == 0 then []
    else
      var n := |es| - 1;
      assert forall j :: 0 <= j < n ==> es[..n][j] == es[j];
      Texts(es[..n], name) + (if es[n].name == name then [es[n].value] else [])
  }

  /** A `<datafor>` element for `day` that carries a `lastmodified`
      token. */
  predicate StampsDay(e: Node, day: string) {
    e.name == "datafor" && e.value == day && FindAttribute(e.attrs, "lastmodified").Some?
  }

  function StampOf(e: Node): string
    requires FindAttribute(e.attrs, "lastmodified").Some?
  {
    e.attrs[FindAttribute(e.attrs, "lastmodified").value].value
  }

  /** The position of the last element that stamps the day. */
  function LastStamp(es: seq<Node>, day: string): (r: Option<nat>)
    ensures r.Some? ==> r.value < |es| && StampsDay(es[r.value], day)
    ensures r.Some? ==> forall j :: r.value < j < |es| ==> !StampsDay(es[j], day)
    ensures r.None? ==> forall j :: 0 <= j < |es| ==> !StampsDay(es[j], day)
    decreases |es|
  {
    if |es| == 0 then None
    else
      var n := |es| - 1;
      if StampsDay(es[n], day) then Some(n)
      else
        assert forall j :: 0 <= j < n ==> es[..n][j] == es[j];
        LastStamp(es[..n], day)
  }

  /** One child element of a catalogue `<channel>`: a base URL, or a day
      of data with its optional last-modified token. */
  function ApplySourceChild(s: Source, e: Node): Source {
    if e.name == "base-url" then Apply(s, AddBaseUrl(e.value))
    else if e.name == "datafor" then
      var t := match FindAttribute(e.attrs, "lastmodified")
        case None => s
        case Some(k) => Apply(s, AddDataForLastModified(e.value, e.attrs[k].value));
      Apply(t, AddDataFor(e.value))
    else s
  }

  /** The child elements of a catalogue `<channel>`, in order: the base
      URLs and the days are appended in document order. */
  function SourceFrom(s: Source, es: seq<Node>): (r: Source)
    ensures r.id == s.id
    ensures r.baseUrls == s.baseUrls + Texts(es, "base-url")
    ensures r.dataFor == s.dataFor + Texts(es, "datafor")
    decreases |es|
  {
    if |es| == 0 then s
    else
      var n := |es| - 1;
      var p := SourceFrom(s, es[..n]);
      SourceStep(p, es[n]);
      ApplySourceChild(p, es[n])
  }

  /** One child element appends at most its text to the base URLs or to
      the days. */
  lemma SourceStep(s: Source, e: Node)
    ensures ApplySourceChild(s, e).id == s.id
    ensures ApplySourceChild(s, e).baseUrls == s.baseUrls + (if e.name == "base-url" then [e.value] else [])
    ensures ApplySourceChild(s, e).dataFor == s.dataFor + (if e.name == "datafor" then [e.value] else [])
  {
  }

  /** What one child element does to the token of a day. */
  lemma StampStep(s: Source, e: Node, day: string)
    ensures GetLastModified(ApplySourceChild(s, e), day) ==
      if StampsDay(e, day) then StampOf(e) else GetLastModified(s, day)
  {
    if e.name == "datafor" {
      match FindAttribute(e.attrs, "lastmodified")
      case None =>
      case Some(k) =>
        LastModifiedOverwrites(s, e.value, e.attrs[k].value, day);
    }
  }

  /** The token recorded for a day is the one on the last element that
      stamps it; a day no element stamps keeps its old token. */
  lemma {:induction false} LastStampWins(s: Source, es: seq<Node>, day: string)
    ensures GetLastModified(SourceFrom(s, es), day) ==
      match LastStamp(es, day) case None => GetLastModified(s, day) case Some(i) => StampOf(es[i])
    decreases |es|
  {
    if |es| > 0 {
      var n := |es| - 1;
      LastStampWins(s, es[..n], day);
      StampStep(SourceFrom(s, es[..n]), es[n], day);
      if !StampsDay(es[n], day) {
        assert LastStamp(es, day) == LastStamp(es[..n], day);
        if LastStamp(es, day).Some? {
          assert es[..n][LastStamp(es, day).value] == es[LastStamp(es, day).value];
        }
      }
    }
  }

  /** `populateSource`: only a `<channel>` element is read, into the
      primary source or into the fill-in source. */
  function PopulateSource(n: Node, c: Channel, fillin: bool): (r: Option<Channel>)
    ensures r.Some? <==> n.name == "channel"
    ensures r.Some? && !fillin ==> (r.value.(oztivo := c.oztivo) == c
      && r.value.oztivo.id == c.oztivo.id
      && r.value.oztivo.baseUrls == c.oztivo.baseUrls + Texts(Elements(n.children), "base-url")
      && r.value.oztivo.dataFor == c.oztivo.dataFor + Texts(Elements(n.children), "datafor"))
    ensures r.Some? && fillin ==> (r.value.(fillin := c.fillin) == c
      && r.value.fillin.id == c.fillin.id
      && r.value.fillin.baseUrls == c.fillin.baseUrls + Texts(Elements(n.children), "base-url")
      && r.value.fillin.dataFor == c.fillin.dataFor + Texts(Elements(n.children), "datafor"))
  {
    if n.name != "channel" then None
    else if !fillin then Some(c.(oztivo := SourceFrom(c.oztivo, Elements(n.children))))
    else Some(c.(fillin := SourceFrom(c.fillin, Elements(n.children))))
  }

  // ---------------------------------------------------------------------
  // The configured channels

  const NoSource := Source("", [], [], map[])

  /** A channel as the default constructor leaves it. */
  const NewChannel := Channel(0, "", "", "", "", [], NoSource, NoSource, [])

  /** What one child of `<channelmap>` leads to: a channel, a warning and
      nothing, or the end of the run. */
  datatype Built = Built(chan: Channel) | Skipped | Fatal

  /** The first value of the attribute, as `gotoAttr` finds it. */
  function AttrValue(n: Node, name: string): (r: Option<string>)
    ensures r.Some? <==> exists i :: 0 <= i < |n.attrs| && n.attrs[i].name == name
  {
    match FindAttribute(n.attrs, name)
    case None => None
    case Some(k) => Some(n.attrs[k].value)
  }

  predicate HasBadOffset(n: Node) {
    exists i :: 0 <= i < |n.attrs| && BadOffset(n.attrs[i])
  }

  /** The catalogue entry a configuration element names. */
  function EntryFor(cfg: Node, data: Option<Node>): Option<Node> {
    match AttrValue(cfg, "oztivoid")
    case None => None
    case Some(oid) => FindChannel(data, oid)
  }

  /** The fill-in entry a configuration element names, if any. */
  function FillinFor(cfg: Node, data: Option<Node>): Option<Node> {
    match AttrValue(cfg, "fillinid")
    case None => None
    case Some(fid) => FindChannel(data, fid)
  }

  /** A new channel filled in from its catalogue entry: the entry's
      settings, then its primary source. */
  function FromCatalogue(d: Node): (r: Option<Channel>)
    ensures r.None? <==> d.name != "channel" || HasBadOffset(d)
    ensures r.Some? ==> (r.value.oztivo.baseUrls == Texts(Elements(d.children), "base-url")
      && r.value.oztivo.dataFor == Texts(Elements(d.children), "datafor")
      && r.value.fillin.baseUrls == [] && r.value.fillin.dataFor == [] && r.value.programs == [])
  {
    match PopulateSettings(d, NewChannel)
    case Settled(c) => PopulateSource(d, c, false)
    case _ => None
  }

  /** The fill-in source added when `fillinid` names a catalogue entry;
      a name the catalogue lacks leaves the channel as it is. */
  function AddFillin(cfg: Node, data: Option<Node>, c: Channel): (r: Option<Channel>)
    ensures FillinFor(cfg, data).None? ==> r == Some(c)
    ensures FillinFor(cfg, data).Some? ==> (r.Some? && r.value.(fillin := c.fillin) == c
      && r.value.fillin.id == c.fillin.id
      && r.value.fillin.baseUrls == c.fillin.baseUrls + Texts(Elements(FillinFor(cfg, data).value.children), "base-url")
      && r.value.fillin.dataFor == c.fillin.dataFor + Texts(Elements(FillinFor(cfg, data).value.children), "datafor"))
  {
    match FillinFor(cfg, data)
    case None => Some(c)
    case Some(e) => PopulateSource(e, c, true)
  }

  /** One child of `<channelmap>`. It must name a catalogue channel with
      `oztivoid`; a name the catalogue lacks is skipped with a warning.
      The channel is filled in from the catalogue entry, then overridden by
      the configuration element's own settings, then given its fill-in
      source. */
  function BuildChannel(cfg: Node, data: Option<Node>): (r: Built)
    ensures r.Skipped? <==> AttrValue(cfg, "oztivoid").Some? && EntryFor(cfg, data).None?
    ensures r.Fatal? <==> (AttrValue(cfg, "oztivoid").None?
      || (EntryFor(cfg, data).Some?
          && (HasBadOffset(EntryFor(cfg, data).value) || cfg.name != "channel" || HasBadOffset(cfg))))
  {
    match AttrValue(cfg, "oztivoid")
    case None => Fatal
    case Some(oid) =>
      match FindChannel(data, oid)
      case None => Skipped
      case Some(d) =>
        match FromCatalogue(d)
        case None => Fatal
        case Some(c) =>
          match PopulateSettings(cfg, c)
          case Settled(c') =>
            (match AddFillin(cfg, data, c')
             case None => Fatal
             case Some(c'') => Built(c''))
          case _ => Fatal
  }

  /** The text of the first child element with the name. */
  function FirstText(n: Node, name: string): Option<string> {
    match FirstNamed(Elements(n.children), name)
    case None => None
    case Some(i) => Some(Elements(n.children)[i].value)
  }

  /** The text of the last child element with the name. */
  function LastText(n: Node, name: string): Option<string> {
    match LastNamed(Elements(n.children), name)
    case None => None
    case Some(i) => Some(Elements(n.children)[i].value)
  }

  /** A built channel's primary source comes from the catalogue entry
      `oztivoid` names, under the configured name (XML allows an attribute
      name once per element, so the last `oztivoid` is the one `gotoAttr`
      finds). It holds no programmes yet. */
  lemma BuiltFromCatalogue(cfg: Node, data: Option<Node>)
    requires BuildChannel(cfg, data).Built?
    ensures EntryFor(cfg, data).Some?
    ensures var c := BuildChannel(cfg, data).chan;
      var d := EntryFor(cfg, data).value;
      LastValue(cfg.attrs, "oztivoid").Some? && c.oztivo.id == LastValue(cfg.attrs, "oztivoid").value
      && c.oztivo.baseUrls == Texts(Elements(d.children), "base-url")
      && c.oztivo.dataFor == Texts(Elements(d.children), "datafor")
      && c.programs == []
  {
    BuiltStages(cfg, data);
    var d := EntryFor(cfg, data).value;
    var c := FromCatalogue(d).value;
    SettingsTaken(cfg, c, "");
    LastValueMeans(cfg.attrs, "oztivoid");
  }

  /** A built channel's fill-in source comes from the catalogue entry
      `fillinid` names when the catalogue has it, and is empty otherwise. */
  lemma BuiltFillin(cfg: Node, data: Option<Node>)
    requires BuildChannel(cfg, data).Built?
    ensures var c := BuildChannel(cfg, data).chan;
      match FillinFor(cfg, data)
      case None => c.fillin.baseUrls == [] && c.fillin.dataFor == []
      case Some(e) => (c.fillin.baseUrls == Texts(Elements(e.children), "base-url")
        && c.fillin.dataFor == Texts(Elements(e.children), "datafor"))
  {
    BuiltStages(cfg, data);
    var d := EntryFor(cfg, data).value;
    var c := FromCatalogue(d).value;
    var c' := PopulateSettings(cfg, c).chan;
    assert c'.fillin.baseUrls == [] && c'.fillin.dataFor == [];
    assert BuildChannel(cfg, data) == Built(AddFillin(cfg, data, c').value);
  }

  /** The channel a child of `<channelmap>` builds, stage by stage. */
  lemma BuiltStages(cfg: Node, data: Option<Node>)
    requires BuildChannel(cfg, data).Built?
    ensures EntryFor(cfg, data).Some? && FromCatalogue(EntryFor(cfg, data).value).Some?
    ensures var d := EntryFor(cfg, data).value;
      var c := FromCatalogue(d).value;
      PopulateSettings(d, NewChannel).Settled? && c == PopulateSource(d, PopulateSettings(d, NewChannel).chan, false).value
      && PopulateSettings(cfg, c).Settled?
      && BuildChannel(cfg, data).chan == PopulateSettings(cfg, c).chan.(fillin := BuildChannel(cfg, data).chan.fillin)
  {
  }

  /** The configuration element overrides the catalogue's attributes: an
      `id` or `timeoffset` it gives replaces the catalogue's, and one it
      leaves out keeps the catalogue's, or the default constructor's when
      neither gives it. */
  lemma ConfigOverrides(cfg: Node, data: Option<Node>)
    requires BuildChannel(cfg, data).Built?
    ensures EntryFor(cfg, data).Some?
    ensures var c := BuildChannel(cfg, data).chan;
      var d := EntryFor(cfg, data).value;
      c.id == LastValue(cfg.attrs, "id").GetOr(LastValue(d.attrs, "id").GetOr(""))
      && c.timeOffset == OffsetSetting(cfg.attrs, OffsetSetting(d.attrs, 0))
  {
    BuiltStages(cfg, data);
    var d := EntryFor(cfg, data).value;
    SettingsTaken(d, NewChannel, "");
    SettingsTaken(cfg, FromCatalogue(d).value, "");
  }

  /** The configuration element overrides the catalogue's child elements
      in the same way: its first `<lcn>`, its last `<display-name>` and
      its display-name attributes win over the catalogue's. */
  lemma ConfigOverridesChildren(cfg: Node, data: Option<Node>, id: string)
    requires BuildChannel(cfg, data).Built?
    ensures EntryFor(cfg, data).Some?
    ensures var c := BuildChannel(cfg, data).chan;
      var d := EntryFor(cfg, data).value;
      c.chanNum == FirstText(cfg, "lcn").GetOr(FirstText(d, "lcn").GetOr(""))
      && c.displayname == LastText(cfg, "display-name").GetOr(LastText(d, "display-name").GetOr(""))
      && Lookup(c.attrs, id) ==
        (if LastValue(DisplayAttrs(Elements(cfg.children)), id).Some? then LastValue(DisplayAttrs(Elements(cfg.children)), id)
         else LastValue(DisplayAttrs(Elements(d.children)), id))
  {
    BuiltStages(cfg, data);
    var d := EntryFor(cfg, data).value;
    SettingsTaken(d, NewChannel, id);
    SettingsTaken(cfg, FromCatalogue(d).value, id);
  }

  /** `idx` lists, in increasing order, exactly the positions of `es` at
      which `f` builds a channel, and `cs` holds those channels in the same
      order: one channel per building entry, in the entries' order. */
  predicate PicksBuilt(es: seq<Node>, f: Node -> Built, cs: seq<Channel>, idx: seq<int>) {
    |idx| == |cs|
    && (forall k :: 0 <= k < |idx| ==> 0 <= idx[k] < |es| && f(es[idx[k]]) == Built(cs[k]))
    && (forall k, l :: 0 <= k < l < |idx| ==> idx[k] < idx[l])
    && (forall i :: 0 <= i < |es| && f(es[i]).Built? ==> i in idx)
  }

  /** Some list of positions picks out `cs` from `es`. */
  ghost predicate HasPicks(es: seq<Node>, f: Node -> Built, cs: seq<Channel>) {
    exists idx :: PicksBuilt(es, f, cs, idx)
  }

  /** The outcomes `f` gives the children of `<channelmap>`, in order:
      the channels built, or nothing when any of them ends the run. */
  function Collect(es: seq<Node>, f: Node -> Built): (r: Option<seq<Channel>>)
    ensures r.None? <==> exists i :: 0 <= i < |es| && f(es[i]).Fatal?
    ensures r.Some? ==> |r.value| <= |es|
    ensures r.Some? ==> forall c :: c in r.value <==> exists i :: 0 <= i < |es| && f(es[i]) == Built(c)
    decreases |es|
  {
    if |es| == 0 then Some([])
    else
      var n := |es| - 1;
      assert forall j :: 0 <= j < n ==> es[..n][j] == es[j];
      match Collect(es[..n], f)
      case None => None
      case Some(cs) =>
        match f(es[n])
        case Fatal => None
        case Skipped => Some(cs)
        case Built(c) => Some(cs + [c])
  }

  /** The channels `Collect` gives come in the entries' order, one per
      entry that builds one, however often an entry is repeated. */
  lemma CollectInOrder(es: seq<Node>, f: Node -> Built)
    requires Collect(es, f).Some?
    ensures HasPicks(es, f, Collect(es, f).value)
  {
    var idx := CollectPicks(es, f);
  }

  /** The positions `CollectInOrder` promises, built entry by entry. */
  function CollectPicks(es: seq<Node>, f: Node -> Built): (idx: seq<int>)
    requires Collect(es, f).Some?
    ensures PicksBuilt(es, f, Collect(es, f).value, idx)
    decreases |es|
  {
    if |es| == 0 then []
    else
      var n := |es| - 1;
      var front := CollectPicks(es[..n], f);
      var cs := Collect(es[..n], f).value;
      if f(es[n]).Built? then
        PicksSnoc(es, es[..n], f, cs, [f(es[n]).chan], front)
      else
        assert cs + [] == cs;
        PicksSnoc(es, es[..n], f, cs, [], front)
  }

  /** One more entry: `f` skips it and adds no channel, or builds the one
      channel added at the end, whose position is added too. */
  function PicksSnoc(es: seq<Node>, front: seq<Node>, f: Node -> Built, cs: seq<Channel>, more: seq<Channel>,
                     idx: seq<int>): (picks: seq<int>)
    requires |es| > 0 && front == es[..|es| - 1]
    requires PicksBuilt(front, f, cs, idx)
    requires f(es[|es| - 1]).Built? ==> more == [f(es[|es| - 1]).chan]
    requires !f(es[|es| - 1]).Built? ==> more == []
    ensures PicksBuilt(es, f, cs + more, picks)
  {
    var n := |es| - 1;
    assert forall i :: 0 <= i < n ==> front[i] == es[i];
    if more == [] then
      assert cs + more == cs;
      idx
    else
      PicksAdd(es, front, f, cs, idx, more[0])
  }

  /** A built entry at the end adds its channel and its position. */
  function PicksAdd(es: seq<Node>, front: seq<Node>, f: Node -> Built, cs: seq<Channel>, idx: seq<int>,
                    c: Channel): (picks: seq<int>)
    requires |es| > 0 && |front| == |es| - 1
    requires forall i :: 0 <= i < |front| ==> front[i] == es[i]
    requires PicksBuilt(front, f, cs, idx) && f(es[|es| - 1]) == Built(c)
    ensures PicksBuilt(es, f, cs + [c], picks)
  {
    var n := |es| - 1;
    var r := idx + [n];
    assert forall k :: 0 <= k < |r| ==> 0 <= r[k] < |es| && f(es[r[k]]) == Built((cs + [c])[k]) by {
      forall k | 0 <= k < |r|
        ensures 0 <= r[k] < |es| && f(es[r[k]]) == Built((cs + [c])[k])
      {
        if k < |idx| {
          assert r[k] == idx[k] && (cs + [c])[k] == cs[k];
        }
      }
    }
    assert forall i :: 0 <= i < n && f(es[i]).Built? ==> i in idx;
    r
  }

  /** What `BuildChannel` makes of each child of `<channelmap>`. */
  function BuildWith(data: Option<Node>): Node -> Built {
    (e: Node) => BuildChannel(e, data)
  }

  /** The channel list of a run: the configuration's root must be
      `<config>` with a `<channelmap>` child, and no child of the map may
      end the run. The channels come in the map's order, one per child
      that builds one. */
  function BuildChannels(cfg: Option<Node>, data: Option<Node>): (r: Option<seq<Channel>>)
    ensures r.Some? <==> (ChannelMap(cfg).Some?
      && forall e :: e in Elements(ChannelMap(cfg).value.children) ==> !BuildChannel(e, data).Fatal?)
    ensures r.Some? ==> forall c :: c in r.value <==>
      exists e :: e in Elements(ChannelMap(cfg).value.children) && BuildChannel(e, data) == Built(c)
    ensures r.Some? ==> HasPicks(Elements(ChannelMap(cfg).value.children), BuildWith(data), r.value)
  {
    match ChannelMap(cfg)
    case None => None
    case Some(m) =>
      var es := Elements(m.children);
      var f := BuildWith(data);
      assert forall e :: e in es <==> exists i :: 0 <= i < |es| && es[i] == e;
      assert Collect(es, f).Some? ==> HasPicks(es, f, Collect(es, f).value) by {
        if Collect(es, f).Some? {
          CollectInOrder(es, f);
        }
      }
      Collect(es, f)
  }
}

=== FILE: wrappers.dfy ===
/** Option values used wherever the C++ code signals failure by a `false`
    return and leaves an out-parameter unset. */
module Wrappers {

  datatype Option<T> = None | Some(value: T) {

    /** The value, or `default` when absent. */
    function GetOr(default: T): T {
      match this
      case Some(v) => v
      case None => default
    }
  }
}

=== FILE: xmldom.dfy ===
/** The small DOM the program reads its configuration, channel catalogue
    and guide data into. */
module XmlDom {
  // Elements carry attributes and an ordered list of children (elements,
  // character data and comments). A navigator walks the tree by absolute
  // paths and first-match lookups, event handlers build the tree from the
  // parser's callbacks, and the five predefined entities of section 4.6 of
  // XML 1.0 are escaped. The parser itself (expat) is not part of this
  // model: its callbacks are taken as a sequence of events.

  import opened Wrappers
  import opened CText

  // ---------------------------------------------------------------------
  // The tree

  datatype Attribute = Attribute(name: string, value: string)

  /** An element: its name, attributes in document order, children in
      document order, and `value`, the concatenation of the character data
      directly inside it. */
  datatype Node = Node(name: string, attrs: seq<Attribute>, children: seq<Obj>, value: string)

  /** A child of an element (`XmlNode`, `XmlChars`, `XmlCom`). */
  datatype Obj = NodeObj(node: Node) | CharsObj(text: string) | CommentObj(text: string)

  /** `addAttribute`: the attribute goes at the tail of the list. */
  function AddAttribute(n: Node, a: Attribute): (r: Node)
    ensures |r.attrs| == |n.attrs| + 1 && r.attrs[|n.attrs|] == a
    ensures r.attrs[..|n.attrs|] == n.attrs
    ensures r.(attrs := n.attrs) == n
  {
    n.(attrs := n.attrs + [a])
  }

  /** `addChild`: the child goes at the tail of the list. */
  function AddChild(n: Node, c: Obj): (r: Node)
    ensures |r.children| == |n.children| + 1 && r.children[|n.children|] == c
    ensures r.children[..|n.children|] == n.children
    ensures r.(children := n.children) == n
  {
    n.(children := n.children + [c])
  }

  /** `findAttribute`: the position of the first attribute with the name. */
  function FindAttribute(attrs: seq<Attribute>, name: string): (r: Option<nat>)
    ensures r.Some? ==> r.value < |attrs| && attrs[r.value].name == name
    ensures r.Some? ==> forall j :: 0 <= j < r.value ==> attrs[j].name != name
    ensures r.None? ==> forall j :: 0 <= j < |attrs| ==> attrs[j].name != name
    decreases |attrs|
  {
    if |attrs| == 0 then None
    else if attrs[0].name == name then Some(0)
    else
      match FindAttribute(attrs[1..], name)
      case None => None
      case Some(i) => Some(i + 1)
  }

  predicate IsElementNamed(c: Obj, name: string) {
    c.NodeObj? && c.node.name == name
  }

  /** `findChildNode`: the position of the first child element with the
      name; character data and comments are passed over. */
  function FindChildNode(children: seq<Obj>, name: string): (r: Option<nat>)
    ensures r.Some? ==> r.value < |children| && IsElementNamed(children[r.value], name)
    ensures r.Some? ==> forall j :: 0 <= j < r.value ==> !IsElementNamed(children[j], name)
    ensures r.None? ==> forall j :: 0 <= j < |children| ==> !IsElementNamed(children[j], name)
    decreases |children|
  {
    if |children| == 0 then None
    else if IsElementNamed(children[0], name) then Some(0)
    else
      match FindChildNode(children[1..], name)
      case None => None
      case Some(i) => Some(i + 1)
  }

  /** Appending an attribute never changes which attribute a lookup
      finds when one was found before; otherwise the lookup finds the new
      one exactly when it has the name. */
  lemma AttributeLookupAfterAdd(n: Node, a: Attribute, name: string)
    ensures FindAttribute(AddAttribute(n, a).attrs, name) ==
      if FindAttribute(n.attrs, name).Some? then FindAttribute(n.attrs, name)
      else if a.name == name then Some(|n.attrs|)
      else None
  {
    var r := FindAttribute(AddAttribute(n, a).attrs, name);
    var s := AddAttribute(n, a).attrs;
    if r.Some? && r.value < |n.attrs| {
      assert s[r.value] == n.attrs[r.value];
    }
    if FindAttribute(n.attrs, name).Some? {
      assert s[FindAttribute(n.attrs, name).value] == n.attrs[FindAttribute(n.attrs, name).value];
    }
  }

  /** The same for children and the element lookup. */
  lemma ChildLookupAfterAdd(n: Node, c: Obj, name: string)
    ensures FindChildNode(AddChild(n, c).children, name) ==
      if FindChildNode(n.children, name).Some? then FindChildNode(n.children, name)
      else if IsElementNamed(c, name) then Some(|n.children|)
      else None
  {
    var r := FindChildNode(AddChild(n, c).children, name);
    var s := AddChild(n, c).children;
    if r.Some? && r.value < |n.children| {
      assert s[r.value] == n.children[r.value];
    }
    if FindChildNode(n.children, name).Some? {
      assert s[FindChildNode(n.children, name).value] == n.children[FindChildNode(n.children, name).value];
    }
  }

  /** The first element child at or after position `k`. */
  function FirstElement(children: seq<Obj>, k: nat): (r: Option<nat>)
    ensures r.Some? ==> k <= r.value < |children| && children[r.value].NodeObj?
    ensures r.Some? ==> forall j :: k <= j < r.value ==> !children[j].NodeObj?
    ensures r.None? ==> forall j :: k <= j < |children| ==> !children[j].NodeObj?
    decreases |children| - k
  {
    if k >= |children| then None
    else if children[k].NodeObj? then Some(k)
    else FirstElement(children, k + 1)
  }

  /** The element children, in document order. */
  function Elements(children: seq<Obj>): (r: seq<Node>)
    ensures |r| <= |children|
    decreases |children|
  {
    if |children| == 0 then []
    else (if children[0].NodeObj? then [children[0].node] else []) + Elements(children[1..])
  }

  // ---------------------------------------------------------------------
  // Navigation

  /** The element reached from `n` by following child positions. */
  function NodeAt(n: Node, path: seq<nat>): (r: Option<Node>)
    ensures |path| == 0 ==> r == Some(n)
    decreases |path|
  {
    if |path| == 0 then Some(n)
    else if path[0] < |n.children| && n.children[path[0]].NodeObj? then
      NodeAt(n.children[path[0]].node, path[1..])
    else None
  }

  lemma {:induction false} NodeAtExtend(n: Node, path: seq<nat>, i: nat)
    requires NodeAt(n, path).Some?
    ensures NodeAt(n, path + [i]) ==
      var m := NodeAt(n, path).value;
      if i < |m.children| && m.children[i].NodeObj? then Some(m.children[i].node) else None
    decreases |path|
  {
    if |path| > 0 {
      assert (path + [i])[1..] == path[1..] + [i];
      NodeAtExtend(n.children[path[0]].node, path[1..], i);
    }
  }

  lemma {:induction false} NodeAtParent(n: Node, path: seq<nat>, i: nat)
    requires NodeAt(n, path + [i]).Some?
    ensures NodeAt(n, path).Some?
    decreases |path|
  {
    if |path| > 0 {
      assert (path + [i])[0] == path[0];
      assert (path + [i])[1..] == path[1..] + [i];
      NodeAtParent(n.children[path[0]].node, path[1..], i);
    }
  }

  /** `XmlNav`: the document's root element, if the document is loaded;
      the current element as a path of child positions from the root, or
      `None` for no current element; and the current attribute as the path
      of the element that holds it and its position there. */
  datatype Nav = Nav(root: Option<Node>, at: Option<seq<nat>>, attr: Option<(seq<nat>, nat)>)

  /** The element the navigator is on. */
  function Current(nav: Nav): Option<Node> {
    if nav.root.Some? && nav.at.Some? then NodeAt(nav.root.value, nav.at.value) else None
  }

  /** Every position the navigator holds names an element of the tree. */
  predicate Consistent(nav: Nav) {
    (nav.at.Some? ==> Current(nav).Some?)
    && (nav.attr.Some? ==>
          (nav.root.Some? && NodeAt(nav.root.value, nav.attr.value.0).Some?
           && nav.attr.value.1 < |NodeAt(nav.root.value, nav.attr.value.0).value.attrs|))
  }

  /** A navigator on a document, as constructed: on the root element. */
  function OpenNav(root: Option<Node>): (r: Nav)
    ensures Consistent(r)
    ensures Current(r) == root
  {
    Nav(root, if root.Some? then Some([]) else None, None)
  }

  /** `gotoRootNode`. */
  function GotoRootNode(nav: Nav): (r: (bool, Nav))
    ensures r.0 <==> nav.root.Some?
    ensures Current(r.1) == nav.root
    ensures Consistent(nav) ==> Consistent(r.1)
    ensures r.1.root == nav.root
  {
    (nav.root.Some?, nav.(at := if nav.root.Some? then Some([]) else None))
  }

  /** `getNodeName`: "" when there is no current element. */
  function GetNodeName(nav: Nav): string {
    if Current(nav).Some? then Current(nav).value.name else ""
  }

  /** `gotoChildNode`: onto the first child element with the name. */
  function GotoChildNode(nav: Nav, name: string): (r: (bool, Nav))
    ensures r.0 <==> Current(nav).Some? && FindChildNode(Current(nav).value.children, name).Some?
    ensures !r.0 ==> r.1 == nav
    ensures r.0 ==> Current(r.1) == Some(Current(nav).value.children[FindChildNode(Current(nav).value.children, name).value].node)
    ensures r.0 ==> r.1.at == Some(nav.at.value + [FindChildNode(Current(nav).value.children, name).value])
    ensures Consistent(nav) ==> Consistent(r.1)
    ensures r.1.root == nav.root
  {
    match Current(nav)
    case None => (false, nav)
    case Some(n) =>
      match FindChildNode(n.children, name)
      case None => (false, nav)
      case Some(i) =>
        NodeAtExtend(nav.root.value, nav.at.value, i);
        (true, nav.(at := Some(nav.at.value + [i])))
  }

  /** `gotoParentNode`. */
  function GotoParentNode(nav: Nav): (r: (bool, Nav))
    ensures r.0 <==> nav.at.Some? && Current(nav).Some? && |nav.at.value| > 0
    ensures !r.0 ==> r.1 == nav
    ensures r.0 ==> r.1.at == Some(nav.at.value[..|nav.at.value| - 1])
  {
    if Current(nav).Some? && |nav.at.value| > 0 then
      (true, nav.(at := Some(nav.at.value[..|nav.at.value| - 1])))
    else (false, nav)
  }

  /** `gotoFirstChildNode`; the source follows the current element without
      checking it, so there must be one. */
  function GotoFirstChildNode(nav: Nav): (r: (bool, Nav))
    requires Current(nav).Some?
    ensures r.0 <==> Elements(Current(nav).value.children) != []
    ensures !r.0 ==> r.1 == nav
    ensures r.0 ==> Current(r.1) == Some(Elements(Current(nav).value.children)[0])
  {
    var n := Current(nav).value;
    FirstIsFirstElement(n.children);
    match FirstElement(n.children, 0)
    case None => (false, nav)
    case Some(i) =>
      NodeAtExtend(nav.root.value, nav.at.value, i);
      (true, nav.(at := Some(nav.at.value + [i])))
  }

  /** `FirstElement` from 0 finds the head of `Elements`. */
  lemma {:induction false} FirstIsFirstElement(children: seq<Obj>)
    ensures FirstElement(children, 0).None? <==> Elements(children) == []
    ensures FirstElement(children, 0).Some? ==>
      Elements(children)[0] == children[FirstElement(children, 0).value].node
    decreases |children|
  {
    if |children| > 0 && !children[0].NodeObj? {
      FirstIsFirstElement(children[1..]);
      ShiftFirstElement(children, 0);
    }
  }

  lemma {:induction false} ShiftFirstElement(children: seq<Obj>, k: nat)
    requires |children| > 0
    ensures FirstElement(children, k + 1) ==
      match FirstElement(children[1..], k)
      case None => None
      case Some(i) => Some(i + 1)
    decreases |children| - k
  {
    if k + 1 < |children| && !children[k + 1].NodeObj? {
      ShiftFirstElement(children, k + 1);
    }
  }

  /** `gotoNextSiblingNode`: onto the next element after the current one
      among its parent's children. The root element has no siblings. */
  function GotoNextSiblingNode(nav: Nav): (r: (bool, Nav))
    requires Current(nav).Some?
    ensures !r.0 ==> r.1 == nav
    ensures r.0 ==> |nav.at.value| > 0 && Current(r.1).Some? && r.1.at.Some?
    ensures r.0 ==> |r.1.at.value| == |nav.at.value|
    ensures r.0 ==> r.1.at.value[..|nav.at.value| - 1] == nav.at.value[..|nav.at.value| - 1]
    ensures r.0 ==> r.1.at.value[|nav.at.value| - 1] > nav.at.value[|nav.at.value| - 1]
    ensures |nav.at.value| > 0 ==>
      var last := |nav.at.value| - 1;
      var parent := NodeAt(nav.root.value, nav.at.value[..last]);
      parent.Some? &&
      (r.0 <==> FirstElement(parent.value.children, nav.at.value[last] + 1).Some?) &&
      (r.0 ==> r.1.at.value[last] == FirstElement(parent.value.children, nav.at.value[last] + 1).value)
  {
    var at := nav.at.value;
    if |at| == 0 then (false, nav)
    else
      var up := at[..|at| - 1];
      assert at == up + [at[|at| - 1]];
      NodeAtParent(nav.root.value, up, at[|at| - 1]);
      NodeAtExtend(nav.root.value, up, at[|at| - 1]);
      var parent := NodeAt(nav.root.value, up).value;
      match FirstElement(parent.children, at[|at| - 1] + 1)
      case None => (false, nav)
      case Some(i) =>
        NodeAtExtend(nav.root.value, up, i);
        assert (up + [i])[..|at| - 1] == up;
        (true, nav.(at := Some(up + [i])))
  }

  /** `getNodeLevel`: the current element and its ancestors, counted in an
      `unsigned short`. */
  function GetNodeLevel(nav: Nav): (r: nat)
    ensures r < 65536
  {
    if Current(nav).Some? then (|nav.at.value| + 1) % 65536 else 0
  }

  /** The root is at level 1, a child one level below its parent, and
      going back up undoes going down. */
  lemma LevelsFollowTree(nav: Nav, name: string)
    requires Current(nav).Some? && |nav.at.value| < 65534
    ensures GetNodeLevel(GotoRootNode(nav).1) == 1
    ensures GotoChildNode(nav, name).0 ==>
      GetNodeLevel(GotoChildNode(nav, name).1) == GetNodeLevel(nav) + 1
      && GotoParentNode(GotoChildNode(nav, name).1) == (true, nav)
  {
    if GotoChildNode(nav, name).0 {
      var c := GotoChildNode(nav, name).1;
      assert c.at.value[..|c.at.value| - 1] == nav.at.value;
    }
  }

  /** `gotoAttr`: onto the first attribute of the current element with the
      name. */
  function GotoAttr(nav: Nav, name: string): (r: (bool, Nav))
    ensures r.0 <==> Current(nav).Some? && FindAttribute(Current(nav).value.attrs, name).Some?
    ensures !r.0 ==> r.1 == nav
    ensures r.0 ==>
      (GetAttrValue(r.1) == Current(nav).value.attrs[FindAttribute(Current(nav).value.attrs, name).value].value)
    ensures Consistent(nav) ==> Consistent(r.1)
  {
    match Current(nav)
    case None => (false, nav)
    case Some(n) =>
      match FindAttribute(n.attrs, name)
      case None => (false, nav)
      case Some(i) => (true, nav.(attr := Some((nav.at.value, i))))
  }

  /** The attribute the navigator is on. */
  function CurrentAttr(nav: Nav): Option<Attribute> {
    if nav.attr.Some? && nav.root.Some? then
      match NodeAt(nav.root.value, nav.attr.value.0)
      case None => None
      case Some(n) => if nav.attr.value.1 < |n.attrs| then Some(n.attrs[nav.attr.value.1]) else None
    else None
  }

  /** `getAttrValue`: "" when there is no current attribute. */
  function GetAttrValue(nav: Nav): string {
    if CurrentAttr(nav).Some? then CurrentAttr(nav).value.value else ""
  }

  /** The tree with the value of one attribute replaced. */
  function SetAttrAt(n: Node, path: seq<nat>, i: nat, v: string): (r: Node)
    requires NodeAt(n, path).Some? && i < |NodeAt(n, path).value.attrs|
    ensures NodeAt(r, path).Some? && |NodeAt(r, path).value.attrs| == |NodeAt(n, path).value.attrs|
    ensures NodeAt(r, path).value.attrs[i] == NodeAt(n, path).value.attrs[i].(value := v)
    ensures forall j :: 0 <= j < |NodeAt(r, path).value.attrs| && j != i ==>
      NodeAt(r, path).value.attrs[j] == NodeAt(n, path).value.attrs[j]
    ensures r.name == n.name
    decreases |path|
  {
    if |path| == 0 then n.(attrs := n.attrs[i := n.attrs[i].(value := v)])
    else
      var k := path[0];
      var c := SetAttrAt(n.children[k].node, path[1..], i, v);
      n.(children := n.children[k := NodeObj(c)])
  }

  /** `setAttrValue`: the current attribute takes the value, yet the call
      reports `false` whether or not there was one. */
  function SetAttrValue(nav: Nav, v: string): (r: (bool, Nav))
    requires Consistent(nav)
    ensures !r.0
    ensures nav.attr.Some? ==> GetAttrValue(r.1) == v
    ensures nav.attr.None? ==> r.1 == nav
  {
    match nav.attr
    case None => (false, nav)
    case Some((path, i)) => (false, nav.(root := Some(SetAttrAt(nav.root.value, path, i, v))))
  }

  /** `getAllChars`: the character data directly inside the current
      element. */
  function GetAllChars(nav: Nav): string {
    if Current(nav).Some? then Current(nav).value.value else ""
  }

  // ---------------------------------------------------------------------
  // Paths

  /** `getPathElement`: a path that starts with '/' yields the name up to
      the next '/' and the rest from that '/' on (or "" when there is
      none); any other path yields nothing. */
  function GetPathElement(path: string): (r: Option<(string, string)>)
    ensures r.None? <==> |path| == 0 || path[0] != '/'
    ensures r.Some? ==> path == "/" + r.value.0 + r.value.1
    ensures r.Some? ==> '/' !in r.value.0
    ensures r.Some? ==> r.value.1 == "" || r.value.1[0] == '/'
    ensures r.Some? ==> |r.value.1| < |path|
  {
    if |path| > 0 && path[0] == '/' then
      match FindChar(path, '/', 1)
      case None =>
        assert path == "/" + path[1..];
        Some((path[1..], ""))
      case Some(p) =>
        assert path == "/" + path[1..p] + path[p..];
        Some((path[1..p], path[p..]))
    else None
  }

  /** A path written as "/" + name + rest splits there again, when the name
      has no '/' and the rest is empty or starts with one. */
  lemma PathElementOf(name: string, rest: string)
    requires '/' !in name && (rest == "" || rest[0] == '/')
    ensures GetPathElement("/" + name + rest) == Some((name, rest))
  {
    var path := "/" + name + rest;
    var r := GetPathElement(path);
    assert path[1..|name| + 1] == name;
    if rest == "" {
      assert forall k :: 1 <= k < |path| ==> path[k] == name[k - 1];
    } else {
      assert path[|name| + 1] == '/';
      assert forall k :: 1 <= k < |name| + 1 ==> path[k] == name[k - 1];
      assert FindChar(path, '/', 1) == Some(|name| + 1);
    }
  }

  /** The absolute path of a sequence of element names. */
  function JoinPath(names: seq<string>): (r: string)
    ensures |names| == 0 <==> r == ""
    ensures r == "" || r[0] == '/'
  {
    if |names| == 0 then "" else "/" + names[0] + JoinPath(names[1..])
  }

  predicate PlainNames(names: seq<string>) {
    forall i :: 0 <= i < |names| ==> '/' !in names[i]
  }

  /** The walk below the root: one first-match child step per name. */
  function WalkPath(nav: Nav, path: string): (r: (bool, Nav))
    ensures Consistent(nav) ==> Consistent(r.1)
    ensures r.1.root == nav.root
    decreases |path|
  {
    match GetPathElement(path)
    case None => (true, nav)
    case Some((name, rest)) =>
      var step := GotoChildNode(nav, name);
      if !step.0 then (false, step.1) else WalkPath(step.1, rest)
  }

  /** `gotoNode`: a path starting with '/' names the root element first
      (the navigator moves to the root before comparing), then a child
      element per later name. Any other path succeeds where it stands. */
  function GotoNode(nav: Nav, path: string): (r: (bool, Nav))
    ensures GetPathElement(path).None? ==> r == (true, nav)
    ensures Consistent(nav) ==> Consistent(r.1)
    ensures r.1.root == nav.root
  {
    match GetPathElement(path)
    case None => (true, nav)
    case Some((name, rest)) =>
      var top := GotoRootNode(nav);
      if !top.0 || GetNodeName(top.1) != name then (false, top.1)
      else WalkPath(top.1, rest)
  }

  /** The element positions a first-match descent through the names
      reaches, independently of any path text. */
  function Resolve(n: Node, names: seq<string>): (r: Option<seq<nat>>)
    ensures r.Some? ==> |r.value| == |names| && NodeAt(n, r.value).Some?
    decreases |names|
  {
    if |names| == 0 then Some([])
    else
      match FindChildNode(n.children, names[0])
      case None => None
      case Some(i) =>
        match Resolve(n.children[i].node, names[1..])
        case None => None
        case Some(p) => Some([i] + p)
  }

  /** One step of the walk. */
  lemma WalkStep(nav: Nav, name: string, rest: string)
    requires '/' !in name && (rest == "" || rest[0] == '/')
    ensures WalkPath(nav, "/" + name + rest) ==
      if GotoChildNode(nav, name).0 then WalkPath(GotoChildNode(nav, name).1, rest)
      else (false, GotoChildNode(nav, name).1)
  {
    PathElementOf(name, rest);
  }

  lemma PlainTail(names: seq<string>)
    requires PlainNames(names) && |names| > 0
    ensures '/' !in names[0] && PlainNames(names[1..])
  {
    forall i | 0 <= i < |names[1..]| ensures '/' !in names[1..][i] {
      assert names[1..][i] == names[i + 1];
    }
  }

  /** The first name of a walk either fails at once or moves to the first
      matching child, from where the rest of the names are walked. */
  lemma WalkCons(nav: Nav, names: seq<string>)
    requires PlainNames(names) && |names| > 0
    ensures PlainNames(names[1..])
    ensures WalkPath(nav, JoinPath(names)) ==
      if GotoChildNode(nav, names[0]).0 then WalkPath(GotoChildNode(nav, names[0]).1, JoinPath(names[1..]))
      else (false, GotoChildNode(nav, names[0]).1)
  {
    PlainTail(names);
    WalkStep(nav, names[0], JoinPath(names[1..]));
  }

  /** The same step for `Resolve`. */
  lemma ResolveCons(n: Node, names: seq<string>, i: nat)
    requires |names| > 0 && FindChildNode(n.children, names[0]) == Some(i)
    ensures Resolve(n, names).Some? <==> Resolve(n.children[i].node, names[1..]).Some?
    ensures Resolve(n, names).Some? ==>
      Resolve(n, names).value == [i] + Resolve(n.children[i].node, names[1..]).value
  {
  }

  /** The step of `WalkPathResolves` where the first name is found at
      position `i` of `n`: a walk `w` of the other names from there, which
      follows `Resolve`, follows it from `n` too. */
  lemma WalkFound(n: Node, at: seq<nat>, names: seq<string>, i: nat, w: (bool, Nav))
    requires |names| > 0 && FindChildNode(n.children, names[0]) == Some(i)
    requires w.0 <==> Resolve(n.children[i].node, names[1..]).Some?
    requires w.0 ==> w.1.at == Some(at + [i] + Resolve(n.children[i].node, names[1..]).value)
    ensures w.0 <==> Resolve(n, names).Some?
    ensures w.0 ==> w.1.at == Some(at + Resolve(n, names).value)
  {
    var m := n.children[i].node;
    ResolveCons(n, names, i);
    if Resolve(n, names).Some? {
      var p := Resolve(m, names[1..]).value;
      assert at + [i] + p == at + ([i] + p);
    }
  }

  /** The path descent below the current element follows `Resolve`. */
  lemma {:induction false} WalkPathResolves(nav: Nav, names: seq<string>)
    requires Current(nav).Some? && PlainNames(names)
    ensures WalkPath(nav, JoinPath(names)).0 <==> Resolve(Current(nav).value, names).Some?
    ensures WalkPath(nav, JoinPath(names)).0 ==>
      WalkPath(nav, JoinPath(names)).1.at == Some(nav.at.value + Resolve(Current(nav).value, names).value)
    decreases |names|
  {
    if |names| > 0 {
      WalkCons(nav, names);
      var step := GotoChildNode(nav, names[0]);
      var n := Current(nav).value;
      if step.0 {
        WalkPathResolves(step.1, names[1..]);
        WalkFound(n, nav.at.value, names, FindChildNode(n.children, names[0]).value,
                  WalkPath(step.1, JoinPath(names[1..])));
      } else {
        assert Resolve(n, names).None?;
      }
    } else {
      assert nav.at.value + [] == nav.at.value;
    }
  }

  /** `gotoNode` on the absolute path of some names succeeds exactly when
      the document is loaded, its root element has the first name, and the
      descent through the other names finds each; it then stands on the
      element that descent reaches. The empty path succeeds without
      moving. */
  lemma GotoNodeResolves(nav: Nav, names: seq<string>)
    requires PlainNames(names) && |names| > 0
    ensures GotoNode(nav, JoinPath(names)).0 <==>
      nav.root.Some? && nav.root.value.name == names[0] && Resolve(nav.root.value, names[1..]).Some?
    ensures GotoNode(nav, JoinPath(names)).0 ==>
      GotoNode(nav, JoinPath(names)).1.at == Some(Resolve(nav.root.value, names[1..]).value)
  {
    PlainTail(names);
    GotoCons(nav, names[0], JoinPath(names[1..]));
    var top := GotoRootNode(nav);
    if top.0 && GetNodeName(top.1) == names[0] {
      WalkPathResolves(top.1, names[1..]);
      assert [] + Resolve(nav.root.value, names[1..]).GetOr([]) == Resolve(nav.root.value, names[1..]).GetOr([]);
    }
  }

  /** `gotoNode` on "/" + name + rest: the root check, then the walk. */
  lemma GotoCons(nav: Nav, name: string, rest: string)
    requires '/' !in name && (rest == "" || rest[0] == '/')
    ensures GotoNode(nav, "/" + name + rest) ==
      var top := GotoRootNode(nav);
      if !top.0 || GetNodeName(top.1) != name then (false, top.1) else WalkPath(top.1, rest)
  {
    PathElementOf(name, rest);
  }

  // ---------------------------------------------------------------------
  // Building the tree from parser events

  /** The parser callbacks the document registers. */
  datatype Event =
    | StartTag(name: string, attrs: seq<Attribute>)
    | EndTag(name: string)
    | CharData(text: string)
    | CommentData(text: string)

  /** The builder's state: the open elements, outermost first (the last
      is the current element; each one's parent is the one before it), and
      the root element once it has closed. An open element is not yet in
      its parent's child list. */
  datatype Builder = Builder(open: seq<Node>, root: Option<Node>)

  /** The current element after `f`, when there is one. */
  function Touch(b: Builder, f: Node -> Node): Builder {
    if |b.open| == 0 then b
    else Builder(b.open[..|b.open| - 1] + [f(b.open[|b.open| - 1])], b.root)
  }

  /** `handleStartTag`: a new element, with its attributes added in order,
      whose parent is the current element, becomes current. */
  function HandleStart(b: Builder, name: string, attrs: seq<Attribute>): (r: Builder)
    ensures |r.open| == |b.open| + 1 && r.open[|b.open|] == Node(name, attrs, [], "")
    ensures r.open[..|b.open|] == b.open && r.root == b.root
  {
    Builder(b.open + [Node(name, attrs, [], "")], b.root)
  }

  /** `handleEndTag`: the current element is appended to its parent's
      children, or becomes the root when it has no parent, and its parent
      becomes current. The tag's name is not checked. */
  function HandleEnd(b: Builder): (r: Builder)
    ensures |b.open| == 0 ==> r == b
    ensures |b.open| == 1 ==> r == Builder([], Some(b.open[0]))
    ensures |b.open| >= 2 ==>
      (r.root == b.root && |r.open| == |b.open| - 1
       && r.open[..|r.open| - 1] == b.open[..|b.open| - 2]
       && r.open[|r.open| - 1] == AddChild(b.open[|b.open| - 2], NodeObj(b.open[|b.open| - 1])))
  {
    if |b.open| == 0 then b
    else
      var n := b.open[|b.open| - 1];
      var rest := Builder(b.open[..|b.open| - 1], b.root);
      if |rest.open| == 0 then Builder([], Some(n))
      else Touch(rest, (p: Node) => AddChild(p, NodeObj(n)))
  }

  /** `handleChar`: the text is added to the current element's value and
      also kept as a child; outside any element it is dropped. */
  function HandleChars(b: Builder, text: string): (r: Builder)
    ensures |b.open| == 0 ==> r == b
    ensures |b.open| > 0 ==>
      (|r.open| == |b.open| && r.root == b.root
       && r.open[..|b.open| - 1] == b.open[..|b.open| - 1]
       && r.open[|b.open| - 1].value == b.open[|b.open| - 1].value + text
       && r.open[|b.open| - 1].children == b.open[|b.open| - 1].children + [CharsObj(text)])
  {
    Touch(b, (n: Node) => AddChild(n.(value := n.value + text), CharsObj(text)))
  }

  /** `handleComment`: the comment becomes a child only; outside any
      element it is dropped. */
  function HandleComment(b: Builder, text: string): (r: Builder)
    ensures |b.open| == 0 ==> r == b
    ensures |b.open| > 0 ==>
      (|r.open| == |b.open| && r.root == b.root
       && r.open[..|b.open| - 1] == b.open[..|b.open| - 1]
       && r.open[|b.open| - 1] == AddChild(b.open[|b.open| - 1], CommentObj(text)))
  {
    Touch(b, (n: Node) => AddChild(n, CommentObj(text)))
  }

  function Handle(b: Builder, e: Event): Builder {
    match e
    case StartTag(name, attrs) => HandleStart(b, name, attrs)
    case EndTag(_) => HandleEnd(b)
    case CharData(text) => HandleChars(b, text)
    case CommentData(text) => HandleComment(b, text)
  }

  /** The events in the order the parser reports them. */
  function Run(b: Builder, es: seq<Event>): Builder
    decreases |es|
  {
    if |es| == 0 then b else Run(Handle(b, es[0]), es[1..])
  }

  lemma {:induction false} RunAppend(b: Builder, x: seq<Event>, y: seq<Event>)
    ensures Run(b, x + y) == Run(Run(b, x), y)
    decreases |x|
  {
    if |x| == 0 {
      assert x + y == y;
    } else {
      assert (x + y)[1..] == x[1..] + y;
      RunAppend(Handle(b, x[0]), x[1..], y);
    }
  }

  /** The events a parser reports for an element: its start tag, the
      events of its children, and its end tag. */
  function Events(n: Node): seq<Event>
    decreases n, 1
  {
    [StartTag(n.name, n.attrs)] + ChildEvents(n, 0) + [EndTag(n.name)]
  }

  function ChildEvents(n: Node, k: nat): seq<Event>
    decreases n, 0, |n.children| - k
  {
    if k >= |n.children| then []
    else
      var c := n.children[k];
      (match c
       case NodeObj(m) => Events(m)
       case CharsObj(t) => [CharData(t)]
       case CommentObj(t) => [CommentData(t)])
      + ChildEvents(n, k + 1)
  }

  /** The character data among some children, in order. */
  function AllChars(cs: seq<Obj>): string
    decreases |cs|
  {
    if |cs| == 0 then ""
    else AllChars(cs[..|cs| - 1]) + (if cs[|cs| - 1].CharsObj? then cs[|cs| - 1].text else "")
  }

  /** A tree the builder can produce: each element's value is the
      character data among its own children. */
  predicate Built(n: Node)
    decreases n
  {
    n.value == AllChars(n.children)
    && forall i :: 0 <= i < |n.children| && n.children[i].NodeObj? ==> Built(n.children[i].node)
  }

  /** Where the builder puts a finished element: under the current one, or
      as the root. */
  function Attach(b: Builder, n: Node): Builder {
    if |b.open| == 0 then Builder([], Some(n))
    else Touch(b, (p: Node) => AddChild(p, NodeObj(n)))
  }

  /** Replaying the events of a tree rebuilds exactly that tree, wherever
      the builder stands. */
  lemma {:induction false} Rebuilds(b: Builder, n: Node)
    requires Built(n)
    ensures Run(b, Events(n)) == Attach(b, n)
    decreases n, 1
  {
    var start := HandleStart(b, n.name, n.attrs);
    assert start == Builder(b.open + [Part(n, 0)], b.root);
    assert Events(n) == [StartTag(n.name, n.attrs)] + (ChildEvents(n, 0) + [EndTag(n.name)]);
    RunAppend(b, [StartTag(n.name, n.attrs)], ChildEvents(n, 0) + [EndTag(n.name)]);
    RunAppend(start, ChildEvents(n, 0), [EndTag(n.name)]);
    RebuildsChildren(b.open, b.root, n, 0);
    assert Part(n, |n.children|) == n by {
      assert n.children[..|n.children|] == n.children;
    }
    var full := Builder(b.open + [n], b.root);
    assert Run(full, [EndTag(n.name)]) == HandleEnd(full);
    assert full.open[..|full.open| - 1] == b.open;
  }

  /** The element as far as its first `k` children. */
  function Part(n: Node, k: nat): Node
    requires k <= |n.children|
  {
    n.(children := n.children[..k], value := AllChars(n.children[..k]))
  }

  /** One more child: appended, and its text (if it is text) added to the
      value. */
  lemma PartStep(n: Node, k: nat)
    requires k < |n.children|
    ensures Part(n, k + 1) ==
      var c := n.children[k];
      if c.CharsObj? then AddChild(Part(n, k).(value := Part(n, k).value + c.text), c)
      else AddChild(Part(n, k), c)
  {
    assert n.children[..k + 1] == n.children[..k] + [n.children[k]];
    assert n.children[..k + 1][..k] == n.children[..k];
  }

  lemma TouchTop(open: seq<Node>, x: Node, root: Option<Node>, f: Node -> Node)
    ensures Touch(Builder(open + [x], root), f) == Builder(open + [f(x)], root)
  {
    assert (open + [x])[..|open|] == open;
  }

  /** The events of the child at `k` turn the first `k` children into the
      first `k + 1`. */
  lemma {:induction false} RebuildsChild(open: seq<Node>, root: Option<Node>, n: Node, k: nat)
    requires k < |n.children| && Built(n)
    ensures Run(Builder(open + [Part(n, k)], root), ChildEvents(n, k))
      == Run(Builder(open + [Part(n, k + 1)], root), ChildEvents(n, k + 1))
    decreases n, 0, |n.children| - k, 1
  {
    var b := Builder(open + [Part(n, k)], root);
    var c := n.children[k];
    PartStep(n, k);
    match c {
      case NodeObj(m) =>
        assert ChildEvents(n, k) == Events(m) + ChildEvents(n, k + 1);
        RunAppend(b, Events(m), ChildEvents(n, k + 1));
        Rebuilds(b, m);
        TouchTop(open, Part(n, k), root, (p: Node) => AddChild(p, NodeObj(m)));
      case CharsObj(t) =>
        assert ChildEvents(n, k) == [CharData(t)] + ChildEvents(n, k + 1);
        TouchTop(open, Part(n, k), root, (x: Node) => AddChild(x.(value := x.value + t), CharsObj(t)));
      case CommentObj(t) =>
        assert ChildEvents(n, k) == [CommentData(t)] + ChildEvents(n, k + 1);
        TouchTop(open, Part(n, k), root, (x: Node) => AddChild(x, CommentObj(t)));
    }
  }

  /** The children's events, from position `k` on, fill in the rest of
      the current element. */
  lemma {:induction false} RebuildsChildren(open: seq<Node>, root: Option<Node>, n: Node, k: nat)
    requires k <= |n.children| && Built(n)
    ensures Run(Builder(open + [Part(n, k)], root), ChildEvents(n, k))
      == Builder(open + [Part(n, |n.children|)], root)
    decreases n, 0, |n.children| - k, 2
  {
    if k < |n.children| {
      RebuildsChild(open, root, n, k);
      RebuildsChildren(open, root, n, k + 1);
    }
  }

  /** A document's events from the start: the root element comes out. */
  lemma ParsesDocument(n: Node)
    requires Built(n)
    ensures Run(Builder([], None), Events(n)) == Builder([], Some(n))
  {
    Rebuilds(Builder([], None), n);
  }

  // ---------------------------------------------------------------------
  // Escaping

  /** The text written for one character. */
  function QuoteChar(c: char): string {
    if c == '&' then "&amp;"
    else if c == '<' then "&lt;"
    else if c == '>' then "&gt;"
    else if c == '"' then "&quot;"
    else if c == '\'' then "&apos;"
    else [c]
  }

  predicate Special(c: char) {
    c == '&' || c == '<' || c == '>' || c == '"' || c == '\''
  }

  /** `quoteString`: each of the five special characters becomes its
      predefined entity; every other character is copied. */
  function Quote(s: string): (r: string)
    ensures |r| >= |s|
    ensures forall i :: 0 <= i < |r| ==> r[i] != '<' && r[i] != '>' && r[i] != '"' && r[i] != '\''
    decreases |s|
  {
    if |s| == 0 then ""
    else QuoteChar(s[0]) + Quote(s[1..])
  }

  /** Text with no special character is written as it is. */
  lemma {:induction false} QuoteClean(s: string)
    requires forall i :: 0 <= i < |s| ==> !Special(s[i])
    ensures Quote(s) == s
    decreases |s|
  {
    if |s| > 0 {
      QuoteClean(s[1..]);
      assert s == [s[0]] + s[1..];
    }
  }

  /** Quoting twice escapes the ampersands of the first pass. */
  lemma QuoteNotIdempotent()
    ensures Quote("&") == "&amp;"
    ensures Quote("&amp;") == "&amp;amp;"
  {
    assert Quote("&")[..] == QuoteChar('&') + Quote("");
    assert Quote("&amp;") == QuoteChar('&') + Quote("amp;");
    QuoteClean("amp;");
  }

  /** An XML reader's view of escaped text: each predefined entity stands
      for its character; everything else is itself. */
  function Unquote(s: string): string
    decreases |s|
  {
    if |s| == 0 then ""
    else if StartsWith(s, "&amp;") then "&" + Unquote(s[5..])
    else if StartsWith(s, "&lt;") then "<" + Unquote(s[4..])
    else if StartsWith(s, "&gt;") then ">" + Unquote(s[4..])
    else if StartsWith(s, "&quot;") then "\"" + Unquote(s[6..])
    else if StartsWith(s, "&apos;") then "'" + Unquote(s[6..])
    else [s[0]] + Unquote(s[1..])
  }

  /** Reading the text written for one character gives that character
      back, whatever follows. */
  lemma UnquoteStep(c: char, rest: string)
    ensures Unquote(QuoteChar(c) + rest) == [c] + Unquote(rest)
  {
    var t := QuoteChar(c) + rest;
    var q := QuoteChar(c);
    assert t[..|q|] == q && t[|q|..] == rest;
    if !Special(c) {
      assert t[0] == c && c != '&';
      assert !StartsWith(t, "&amp;") && !StartsWith(t, "&lt;") && !StartsWith(t, "&gt;");
      assert !StartsWith(t, "&quot;") && !StartsWith(t, "&apos;");
    } else if c == '<' {
      assert !StartsWith(t, "&amp;") by { assert t[1] == 'l'; }
    } else if c == '>' {
      assert !StartsWith(t, "&amp;") by { assert t[1] == 'g'; }
      assert t[..4] != "&lt;" by { assert t[1] == 'g'; }
    } else if c == '"' {
      assert t[..5] != "&amp;" by { assert t[1] == 'q'; }
      assert t[..4] != "&lt;" by { assert t[1] == 'q'; }
      assert t[..4] != "&gt;" by { assert t[1] == 'q'; }
    } else if c == '\'' {
      assert t[..5] != "&amp;" by { assert t[1] == 'a' && t[2] == 'p'; }
      assert t[..4] != "&lt;" by { assert t[1] == 'a'; }
      assert t[..4] != "&gt;" by { assert t[1] == 'a'; }
      assert t[..6] != "&quot;" by { assert t[1] == 'a'; }
    }
  }

  /** Reading escaped text gives back the original. */
  lemma {:induction false} UnquoteQuote(s: string)
    ensures Unquote(Quote(s)) == s
    decreases |s|
  {
    if |s| > 0 {
      UnquoteQuote(s[1..]);
      UnquoteStep(s[0], Quote(s[1..]));
      assert s == [s[0]] + s[1..];
    }
  }
}
